=== FILE: README.md ===
# StrongHomes Cleaning site — form, abuse-protection and lead-store core in Dafny

The StrongHomes Cleaning website is a static React site for a home-cleaning
business in Lake and Porter Counties, Indiana. It has no server of its own,
so its contact page and four-step quote wizard do all their checking in the
browser before posting to a form service. This project models that core and
proves what it promises:

- **Validators.** The field validators (`validateName`, `validateEmail`,
  `validatePhone`, `validateMessage`, `validateZipCode` with its 40-ZIP
  service-area allowlist), each as a verdict that holds exactly when its
  conditions do.
- **Sanitizers.** The four sanitizers, with their output shape, which
  characters survive, where the collapsed spaces go, and idempotence. `sanitizeEmail` is the exception: it is not idempotent, and a
  counterexample shows why.
- **Rate limiter.** The sliding-window limiter kept in local storage: three
  attempts in ten minutes block for ten minutes. The storage is an explicit
  value, including whether writes to it take effect, and the clock is an
  explicit `now`.
- **Submit guard.** `SubmitGuard`, which lets one submission through at a
  time.
- **Form validators.** The honeypot and the two whole-form validators
  `validateContactForm` and `validateQuoteForm`.
- **Quote wizard.** `pages/Quote.tsx`: city and ZIP, service, rooms, contact
  and submit, as transitions on the page state.
- **Contact page.** `pages/Contact.tsx`: `handleChange` and the `handleSubmit`
  pipeline, which runs in-flight check, minimum fill time, rate limit,
  validation, record and send.
- **Lead store.** `src/store/crmStore.ts`: add, status and notes edits,
  delete, the load on mount, and the "save only a non-empty list" rule.
- **Paths and metadata.** The base path and asset URLs (`utils/base.ts`),
  the endpoint choice (`utils/config.ts`), and the per-route metadata and
  canonical URL of `SeoHead.tsx`.

## Modules and modelling choices

| file | module | models |
|---|---|---|
| wrappers.dfy | `Wrappers` | `Option` for absent values |
| text.dfy | `Text` | JavaScript `\s`, `\d`, `.trim()`, `.length` in UTF-16 code units, character filters, number rendering |
| validators.dfy | `Validators` | the five field validators and the ZIP allowlist |
| sanitizers.dfy | `Sanitizers` | the four sanitizers |
| rate_limit.dfy | `RateLimit` | `getRateLimitState`, `checkRateLimit`, `recordSubmitAttempt`, `resetRateLimit` |
| submit_guard.dfy | `SubmitGuard` | the `SubmitGuard` class as a value |
| forms.dfy | `Forms` | honeypot, error maps, `validateContactForm`, `validateQuoteForm` |
| pipeline.dfy | `Pipeline` | the observable effects of a submission, in order |
| quote_wizard.dfy | `QuoteWizard` | the quote page's handlers and runs of them |
| contact_form.dfy | `ContactForm` | the contact page's handlers |
| crm_store.dfy | `CrmStore` | the lead list hook |
| config.dfy, base_path.dfy, seo.dfy | `Config`, `BasePath`, `Seo` | endpoint, base path, page metadata |

**Strings and characters**
- Strings are sequences of code points.
- `.length` is counted in UTF-16 code units (`Utf16Len`): a code point above
  U+FFFF counts twice. The length limits of the validators are stated in
  those units.
- `\s` and `.trim()` use ECMAScript's WhiteSpace and LineTerminator
  characters. `\d` is the ASCII digits only.
- `.toLowerCase()` is modelled on ASCII letters only.

**Error maps and truthiness**
- An error map is a `map` from a closed set of input names to messages.
- `if (errors[name])` is truthiness: an entry is removed only when it is
  present and non-empty (`Forms.ClearError`).
- `state.blockedUntil && now < blockedUntil` is truthiness too: a zero
  deadline never blocks.

**Page handlers and the outside world**
- A page handler is a pure function from the page state to the new state.
- The outside world comes in as parameters: the clock, the rate-limit store,
  the configured form id, whether the POST answered with a 2xx status, and
  when it answered.
- What the handler did is recorded as a trace of effects (`Pipeline.Effect`):
  the wait, the rate check, validation, recording, going busy and the POST
  with its JSON body.
- Each submit is modelled as running to completion: a second submit that
  arrives while the first awaits its POST is not modelled. Both pages set
  `isSubmitting` only after their checks, just before the POST; on the
  contact page that is also after the 700 ms fill-time wait.

**Page-specific choices**
- The contact page waits out the rest of the 700 ms minimum fill time before
  the rate check. In the model, the rate check and the record happen at
  `now + delay`.
- Both pages read only `isValid` and `errors` of a failed validation
  (pages/Contact.tsx:69-73, pages/Quote.tsx:80-81). The pipelines therefore
  use the refusal half of each validator (`Forms.ContactRefusal`,
  `Forms.QuoteRefusal`), and lemmas tie it to the full result.
- The quote wizard's `handleNext` runs after its 300 ms pause without an
  observable difference. The pause is left out and the ZIP check is
  immediate.

- The quote wizard's service buttons on step 2 (pages/Quote.tsx:301) write
  `serviceType` directly and leave the error map alone (`ChooseService`).
  Only the inputs with `onChange={handleChange}` go through `Change`;
  `frequency` has no input and keeps its initial value.

**Other behaviour worth knowing**
- The wizard has four steps.
- A failed final validation shows its errors on step 4 and keeps the user
  there.
- A "Pick a service" error stays on screen after a service is picked. Next
  then moves on without clearing it, so it shows again if the user goes back
  to step 2 (`ServiceErrorOutlivesChoice`).
- A name of allowed characters within 60 code units is accepted only when it
  has a non-space character (`NameOfNameCharsAccepted`); a whitespace-only
  name is refused as missing (`BlankNameRefused`).
- `sanitizePhone` keeps `\v` and `\f`, because they match `\s`, which its
  keep-list includes. Its output can therefore hold control characters that
  the other sanitizers strip (`SanitizePhoneKeepsVerticalTab`).
- Writes to storage that throw are swallowed. Storage that throws on every
  access (no readable entry, writes refused) therefore never blocks a
  submission (`RateLimit.DisabledNeverBlocks`). Storage that refuses writes
  but still holds a readable block or three recent attempts does refuse.
- `sanitizeEmail` removes angle brackets after trimming. `"< a"` becomes
  `" a"`, which a second pass changes again.
- The contact page posts the raw inputs, not the sanitized copy, and
  includes the honeypot value.
- `getFormspreeUrl(id) || BUSINESS.formSubmitUrl` is never empty, so the
  "form unavailable" branches of both pages cannot be reached.
- Deleting the last lead is never saved, so the lead comes back on the next
  load.

## Model

| member | source | states |
|---|---|---|
| Text.Trim | utils/security.ts:19 | `.trim()`: the result is the input with its leading and trailing whitespace cut off, and has no whitespace at either end |
| Text.TrimKeepsChars | utils/security.ts:29-31 | a character class every input character belongs to also covers the trimmed string |
| Text.TrimEmptyIff | utils/security.ts:19-23 | the trimmed string is empty exactly when the input is all whitespace |
| Text.TrimOfTrimmed | utils/security.ts:158-166 | trimming a string without outer whitespace changes nothing |
| Text.TrimIdempotent | utils/security.ts:158-166 | trimming twice is trimming once |
| Text.Utf16Len | utils/security.ts:25 | `.length` in UTF-16 code units lies between the code-point count and twice it |
| Text.Utf16LenAscii | utils/security.ts:25 | on ASCII text `.length` is the number of characters |
| Text.Utf16LenAppend | utils/security.ts:25 | `.length` of a concatenation is the sum of the lengths |
| Text.Utf16LenTrim | utils/security.ts:94 | trimming never makes `.length` larger |
| Text.Keep | utils/security.ts:161 | a character filter keeps only characters of the class, all from the input, and keeps an input entirely in the class as it is |
| Text.KeepPreserves | utils/security.ts:161-163 | filtering keeps any property every input character had |
| Text.KeepAppend | utils/security.ts:161-163 | a global `.replace` filter works piece by piece over a concatenation |
| Text.KeepNoneOf | utils/security.ts:71 | filtering text with no character of the class leaves nothing |
| Text.DigitCountTrim | utils/security.ts:65-73 | the digits counted in the trimmed phone number are those of the raw input |
| Text.SpacesHaveNoDigits | utils/security.ts:71 | whitespace contributes no digits |
| Text.KeepCons | utils/security.ts:161-163 | a filter keeps a leading character exactly when it is in the class, and filters the rest |
| Text.KeepSkip | utils/security.ts:161-163 | a prefix of characters outside the class contributes nothing |
| Text.KeepKeep | utils/security.ts:161-162 | two filters in a row keep exactly the characters in both classes |
| Text.KeepTrim | utils/security.ts:158-166 | a filter that rejects whitespace gives the same text before and after `.trim()` |
| Text.NatToString | pages/Contact.tsx:65 | a rendered number is a non-empty run of decimal digits without a leading zero |
| Text.NatToStringRoundTrip | pages/Contact.tsx:65 | reading the rendered digits back gives the number |
| Validators.ValidateName | utils/security.ts:18-36 | a name passes exactly when it is not blank, at most 60 code units once trimmed, and only letters, whitespace, `-`, `'`, `.`; each failure carries its own message, checked in that order |
| Validators.AllCharsTrimIff | utils/security.ts:29-31 | for a class containing whitespace, testing the trimmed text is testing the raw text |
| Validators.NameOfNameCharsAccepted | utils/security.ts:18-36 | a name of allowed characters, at most 60 code units long and not blank, is accepted |
| Validators.BlankNameRefused | utils/security.ts:21-23 | a whitespace-only name consists of allowed characters yet is refused as missing |
| Validators.EmailShapeMatches | utils/security.ts:53-54 | `/^[^\s@]+@[^\s@]+\.[^\s@]+$/` matches exactly the text with one `@` that is not first, no whitespace, and a dot strictly inside the part after the `@` |
| Validators.ValidateEmail | utils/security.ts:41-59 | an email passes exactly when the trimmed text is 3 to 254 code units and matches the pattern; blank, wrong length and a failed pattern each get their own message, exactly in those cases |
| Validators.AcceptedEmailShape | utils/security.ts:53-58 | an accepted email has exactly one `@`, not at either end, and no whitespace once trimmed |
| Validators.ValidatePhone | utils/security.ts:64-85 | a blank phone passes; otherwise it passes exactly when it has 7 to 20 digits and only phone characters; the digit-count message is given exactly when the count is out of range, and the character-set message exactly when the count is fine but another character is present |
| Validators.SixDigitPhoneRefused | utils/security.ts:73-76 | six digits are refused with the digit-count message |
| Validators.ValidateMessage | utils/security.ts:90-102 | a message passes exactly when it is not blank and at most 1000 code units once trimmed; the required message is given exactly for blank input and the length message exactly for longer text |
| Validators.ValidateZipCode | utils/security.ts:120-145 | a ZIP passes exactly when the trimmed text is five digits or ZIP+4 whose first five are on the allowlist; blank input gets the required message, a non-blank text of another shape the format message, and a well-formed ZIP outside the list the out-of-area message, each exactly in its case |
| Validators.AllowlistIsFiveDigits | utils/security.ts:108-118 | the allowlist has 40 entries, each five ASCII digits |
| Validators.HammondZipAccepted | utils/security.ts:108-145 | 46320 is served |
| Validators.AllowlistedZipAccepted | utils/security.ts:120-145 | every allowlisted ZIP is accepted as typed |
| Validators.FarZipOutOfArea | utils/security.ts:137-142 | a well-formed ZIP off the list gets the out-of-area message |
| Validators.OutOfAreaNamesPhone | utils/security.ts:138-141 | the out-of-area message gives the business phone number |
| Validators.NameMessagesNonEmpty | utils/security.ts:18-36 | every name refusal carries a non-empty message |
| Validators.EmailMessagesNonEmpty | utils/security.ts:41-59 | every email refusal carries a non-empty message |
| Validators.PhoneMessagesNonEmpty | utils/security.ts:64-85 | every phone refusal carries a non-empty message |
| Validators.MessageMessagesNonEmpty | utils/security.ts:90-102 | every message refusal carries a non-empty message |
| Validators.ZipMessagesNonEmpty | utils/security.ts:120-145 | every ZIP refusal carries a non-empty message |
| Sanitizers.StrippedIsSafe | utils/security.ts:161-163 | after removing angle brackets and the listed control characters, none of either is left |
| Sanitizers.CollapseWhitespace | utils/security.ts:165 | `.replace(/\s+/g, ' ')` leaves no whitespace but single spaces, starts with whitespace exactly when the input did, and adds no unsafe character |
| Sanitizers.CollapseWhitespaceOfSingleSpaced | utils/security.ts:165 | collapsing whitespace changes nothing in single-spaced text |
| Sanitizers.CollapseWhitespaceKeepsWords | utils/security.ts:165 | every non-whitespace character of the input survives collapsing, in order, and none is added |
| Sanitizers.SkipSpacesAppend | utils/security.ts:165 | a whitespace run that ends inside a text ends at the same place whatever follows |
| Sanitizers.CollapseWhitespaceAppend | utils/security.ts:165 | text ending in a non-whitespace character collapses independently of what follows it |
| Sanitizers.CollapseWhitespaceOfRun | utils/security.ts:165 | a maximal whitespace run becomes exactly one space and the text after it collapses on its own |
| Sanitizers.CollapseSpaces | utils/security.ts:208 | `.replace(/ +/g, ' ')` leaves no two adjacent spaces and keeps the first character |
| Sanitizers.CollapseSpacesOfSingle | utils/security.ts:208 | collapsing spaces changes nothing in text without double spaces |
| Sanitizers.CollapseSpacesKeepsRest | utils/security.ts:208 | every character other than a space survives, in order, and none is added |
| Sanitizers.RunEndAppend | utils/security.ts:208-210 | a run of one character that ends inside a text ends at the same place whatever follows |
| Sanitizers.RunEndRun | utils/security.ts:208-210 | a run of one character ends at the first position that holds another character |
| Sanitizers.CollapseSpacesAppend | utils/security.ts:208 | text not ending in a space collapses independently of what follows it |
| Sanitizers.CollapseSpacesOfRun | utils/security.ts:208 | a maximal run of spaces becomes exactly one space and the text after it collapses on its own |
| Sanitizers.CapNewlines | utils/security.ts:210 | `.replace(/\n{3,}/g, '\n\n')` leaves no three newlines in a row and keeps the first character |
| Sanitizers.CapNewlinesKeepsRest | utils/security.ts:210 | every character other than a newline survives, in order, and none is added |
| Sanitizers.CapNewlinesAppend | utils/security.ts:210 | text not ending in a newline is capped independently of what follows it |
| Sanitizers.CapNewlinesOfRun | utils/security.ts:210 | a maximal run of three or more newlines becomes two, a shorter run stays as it is, and the text after it is capped on its own |
| Sanitizers.CapNewlinesNoDoubleSpace | utils/security.ts:208-210 | capping newlines never brings two spaces together |
| Sanitizers.CapNewlinesSafe | utils/security.ts:206-210 | capping newlines adds no unsafe character |
| Sanitizers.CapNewlinesOfCapped | utils/security.ts:210 | capping newlines changes nothing in text without three newlines in a row |
| Sanitizers.TrimSingleSpaced | utils/security.ts:165-166 | the final trim keeps single-spaced text single-spaced |
| Sanitizers.StrippedWords | utils/security.ts:158-163 | after trimming and stripping, the non-whitespace characters left are exactly the input's safe non-whitespace characters, in order |
| Sanitizers.SanitizeString | utils/security.ts:155-167 | the output has no angle brackets or stripped control characters, no outer whitespace, and only single spaces; its non-whitespace characters are exactly the input's safe non-whitespace characters, in order |
| Sanitizers.SanitizeStringJoinsWords | utils/security.ts:155-167 | two safe words around any run of safe whitespace come out joined by exactly one space |
| Sanitizers.SanitizeStringOfSafe | utils/security.ts:155-167 | on safe text without outer whitespace, only collapsing and the final trim act |
| Sanitizers.WordsAroundGapSafe | utils/security.ts:158-163 | two safe words around safe whitespace make safe text without outer whitespace |
| Sanitizers.CollapseWordsAroundGap | utils/security.ts:165 | two words around a whitespace run collapse to the words joined by one space |
| Sanitizers.WordIsSingleSpaced | utils/security.ts:165 | a word without whitespace is left alone by collapsing |
| Sanitizers.SanitizeStringFixes | utils/security.ts:155-167 | text already of that shape comes back unchanged |
| Sanitizers.SanitizeStringIdempotent | utils/security.ts:155-167 | sanitizing twice is sanitizing once |
| Sanitizers.TrimMessageShape | utils/security.ts:210-211 | the final trim keeps a message free of double spaces and newline triples |
| Sanitizers.WordsThrough | utils/security.ts:208-210 | a rewrite that keeps every character but one kind of whitespace keeps every non-whitespace character, in order |
| Sanitizers.SanitizeMessage | utils/security.ts:198-212 | the output has no angle brackets or stripped control characters, no outer whitespace, no two adjacent spaces and no three newlines in a row; its non-whitespace characters are exactly the input's safe non-whitespace characters, in order |
| Sanitizers.SanitizeMessageFixes | utils/security.ts:198-212 | a message already of that shape comes back unchanged |
| Sanitizers.SanitizeMessageIdempotent | utils/security.ts:198-212 | sanitizing a message twice is sanitizing it once |
| Sanitizers.SanitizePhone | utils/security.ts:173-180 | the output has only digits, whitespace, `-`, `(`, `)`, `+`, and no outer whitespace; its non-whitespace characters are exactly the input's digits and `-()+`, in order |
| Sanitizers.PhoneKeepsDigits | utils/security.ts:176-179 | trimming, keeping phone characters and trimming again keep exactly the input's digits and `-()+`, in order |
| Sanitizers.SanitizePhoneFixes | utils/security.ts:173-180 | a phone number already of that shape comes back unchanged |
| Sanitizers.SanitizePhoneIdempotent | utils/security.ts:173-180 | sanitizing a phone number twice is sanitizing it once |
| Sanitizers.SanitizePhoneHasNoAngles | utils/security.ts:178 | a sanitized phone number has no angle brackets |
| Sanitizers.SanitizePhoneKeepsVerticalTab | utils/security.ts:178 | a vertical tab, a stripped control character elsewhere, survives `sanitizePhone` |
| Sanitizers.ToLowerAscii | utils/security.ts:190 | lower-casing maps each character on its own and keeps the length |
| Sanitizers.SanitizeEmail | utils/security.ts:185-192 | a sanitized email has no angle brackets and no upper-case ASCII letter; apart from whitespace it is exactly the input's characters other than angle brackets and whitespace, in order, lower-cased |
| Sanitizers.KeepLower | utils/security.ts:188-190 | for a filter that lower-casing cannot fool, filtering then lower-casing equals lower-casing then filtering |
| Sanitizers.EmailKeepsWords | utils/security.ts:185-192 | trimming, lower-casing and stripping angle brackets keep every non-angle, non-space character, lower-cased and in order |
| Sanitizers.SanitizeEmailNotIdempotent | utils/security.ts:185-192 | `"< a"` sanitizes to `" a"`, which sanitizes again to `"a"` |
| RateLimit.ReadState | utils/security.ts:231-244 | absent or unreadable storage reads as no attempts and no block; a stored entry gives its attempts list, or none when that is not a list, and its deadline as stored |
| RateLimit.ReadSave | utils/security.ts:231-254 | a saved state reads back as itself |
| RateLimit.Save | utils/security.ts:249-255 | on writable storage the saved state reads back as itself; a write that throws is swallowed and leaves the storage as it was |
| RateLimit.Recent | utils/security.ts:273-275 | the pruned list holds exactly the attempts strictly younger than the window |
| RateLimit.RecentAppend | utils/security.ts:301-303 | pruning works piece by piece over a concatenation |
| RateLimit.RecentOfRecent | utils/security.ts:273-275 | pruning twice at one time is pruning once |
| RateLimit.CeilMinutes | utils/security.ts:268 | `Math.ceil(ms / 60000)` is the least whole number of minutes covering `ms`, at least 1 |
| RateLimit.CheckRateLimit | utils/security.ts:261-291 | an active block refuses with the rounded-up minutes left and writes nothing; otherwise three recent attempts refuse for 10 minutes and save the pruned attempts with a deadline ten minutes on; otherwise the check allows and writes nothing |
| RateLimit.RecordSubmitAttempt | utils/security.ts:296-309 | recording stores the pruned earlier attempts followed by `now` and keeps the block deadline; on storage that refuses writes nothing changes |
| RateLimit.ResetRateLimit | utils/security.ts:314-320 | after a reset there are no attempts and no block; on storage whose removal throws nothing changes |
| RateLimit.FailsOpen | utils/security.ts:231-244 | storage holding no entry, or storage that throws on reading, allows the submission and writes nothing |
| RateLimit.DisabledNeverBlocks | utils/security.ts:231-255 | on storage that throws on every access, any number of recorded attempts changes nothing and the check always allows |
| RateLimit.RecordAllUnwritable | utils/security.ts:249-255 | recording any attempts on storage that refuses writes leaves it unchanged |
| RateLimit.WindowEdgeDropped | utils/security.ts:273-275 | an attempt exactly one window old no longer counts; one a millisecond younger does |
| RateLimit.ThreeAttemptsBlock | utils/security.ts:278-288 | three attempts within one window make the next check refuse for 10 minutes and save the deadline |
| RateLimit.ThreeAttemptsRecorded | utils/security.ts:296-309 | three attempts within one window are all kept, in order |
| RateLimit.ExpiredBlockAllows | utils/security.ts:266-290 | after the deadline, and a full window after the last attempt, the check allows again |
| RateLimit.BlockLiftsAtDeadline | utils/security.ts:266-288 | a block refuses every check until its deadline and allows once it and the window have passed |
| RateLimit.BlockWindow | utils/security.ts:266-290 | a block set at `now` refuses every check before its deadline and allows one after it and the window |
| RateLimit.BlockRefusesBeforeDeadline | utils/security.ts:266-270 | a stored non-zero deadline refuses every check before it, whatever attempts are stored, and the check writes nothing |
| RateLimit.BlockSurvivesRecords | utils/security.ts:305-308 | recording an attempt during a block keeps the block, with 1 to 10 minutes left |
| SubmitGuard.StartSubmit | utils/security.ts:337-341 | a start succeeds exactly when no submission is running, and leaves one running |
| SubmitGuard.EndSubmit | utils/security.ts:343-345 | after an end a submission may start |
| SubmitGuard.SecondStartRefused | utils/security.ts:337-341 | a second start before the end is refused and changes nothing |
| SubmitGuard.EndReopens | utils/security.ts:333-345 | an end lets exactly one more start through |
| Forms.IsHoneypotFilled | utils/security.ts:356-358 | the honeypot counts as filled exactly when it has a non-whitespace character |
| Forms.Note | utils/security.ts:399-402 | a failed check adds its message under its own name and touches no other entry |
| Forms.ClearError | pages/Contact.tsx:34-40 | a present entry with a non-empty message is removed; an empty one stays; others are untouched |
| Forms.ClearTruthy | pages/Quote.tsx:45-47 | on a map of non-empty messages, clearing removes exactly that entry |
| Forms.Collect4 | utils/security.ts:399-421 | four checks report exactly the failing fields with their messages, and the map is empty exactly when all pass |
| Forms.Collect5 | utils/security.ts:451-481 | the same for five checks |
| Forms.BotErrorsShape | utils/security.ts:394-395 | the bot error map has only the `_gotcha` entry, with a non-empty message |
| Forms.ContactErrorsReport | utils/security.ts:399-417 | the contact field errors are exactly the failing name, email, phone and message checks, each with its validator's message |
| Forms.RefusalOf | utils/security.ts:393-421 | a bot gets the bot error; otherwise there is a refusal exactly when some field failed, and it is the field errors |
| Forms.ContactRefusal | utils/security.ts:388-421 | the contact form is refused exactly when the honeypot is filled or one of the four validators fails |
| Forms.ContactHoneypot | utils/security.ts:394-395 | a filled honeypot is refused with the bot error alone, whatever the other fields hold |
| Forms.ContactRefusalIsFieldErrors | utils/security.ts:419-420 | without a filled honeypot, a refusal carries exactly the field errors |
| Forms.ContactRefusalShape | utils/security.ts:393-421 | a refusal has at least one entry, none in the page-level `submit` slot, all non-empty |
| Forms.ValidateContactForm | utils/security.ts:388-434 | the form is valid exactly when the honeypot is empty and all four validators pass |
| Forms.ContactRefusalAgrees | utils/security.ts:388-434 | the result is invalid exactly when there is a refusal, and then its errors are the refusal |
| Forms.ContactAccepted | utils/security.ts:423-433 | a valid form is handed on sanitized field by field, with the honeypot emptied |
| Forms.ContactMessageError | utils/security.ts:414-417 | without a bot, a `message` error appears exactly when the message is blank or over 1000 code units |
| Forms.AcceptedContactIsClean | utils/security.ts:423-433 | every field of an accepted contact form has its sanitizer's output shape |
| Forms.AcceptedContactIsStable | utils/security.ts:423-433 | sanitizing the accepted name, phone and message again changes nothing |
| Forms.ValidateServiceType | utils/security.ts:457-459 | the service type passes exactly when it is not blank |
| Forms.QuoteErrorsReport | utils/security.ts:451-477 | the quote field errors are exactly the failing ZIP, service, name, email and phone checks, with their messages |
| Forms.QuoteRefusal | utils/security.ts:440-481 | the quote form is refused exactly when the honeypot is filled, the ZIP fails, the service is blank, or name, email or phone fails |
| Forms.QuoteHoneypot | utils/security.ts:446-447 | a filled honeypot is refused with the bot error alone |
| Forms.QuoteRefusalIsFieldErrors | utils/security.ts:479-480 | without a filled honeypot, a refusal carries exactly the field errors |
| Forms.QuoteRefusalShape | utils/security.ts:445-481 | a refusal has at least one entry, none in `submit`, all non-empty |
| Forms.ValidateQuoteForm | utils/security.ts:440-498 | the form is valid exactly when the honeypot is empty, the ZIP is served, a service is chosen and name, email and phone pass |
| Forms.QuoteRefusalAgrees | utils/security.ts:440-498 | the result is invalid exactly when there is a refusal, and then its errors are the refusal |
| Forms.QuoteAccepted | utils/security.ts:484-497 | a valid form is handed on sanitized field by field, with the honeypot emptied |
| Pipeline.Count | pages/Contact.tsx:80 | an effect is counted at most once per trace entry, and zero times exactly when it does not occur |
| Pipeline.DispatchedSends | pages/Contact.tsx:84-98 | a dispatched submission posts the body it was given to the url it was given |
| Pipeline.TraceOfRecordsBeforeSend | pages/Contact.tsx:63-84 | whatever stage a submission stops at, it records at most once, sends only after recording, and records exactly when dispatched |
| Config.GetFormspreeUrl | utils/config.ts:25-27 | an unset or empty form id gives no URL; otherwise the URL is the Formspree prefix followed by the id |
| Config.FormspreeRoundTrip | utils/config.ts:25-27 | building the URL and taking the prefix off again are inverse, both ways round |
| Config.Endpoint | utils/config.ts:14 | the endpoint is the Formspree URL when there is an id, otherwise the FormSubmit address, and never empty |
| BasePath.GetBase | utils/base.ts:1-11 | the base is the configured non-empty string, or `./`, always ending in exactly the slash it needs |
| BasePath.GetBaseIdempotent | utils/base.ts:6-7 | a base that already ends in `/` comes back as it is |
| BasePath.StripLeadingSlash | utils/base.ts:15 | at most one leading slash is removed, exactly when there is one |
| BasePath.BuildAssetUrl | utils/base.ts:13-17 | an asset URL is the base followed by the path, less at most one leading slash |
| BasePath.AssetUrlIgnoresOneSlash | utils/base.ts:13-17 | a path with and without one leading slash gives the same asset URL |
| Seo.SeoMapCanonicalIsKey | SeoHead.tsx:8-61 | there is a home entry, and every route's canonical path is its own key |
| Seo.LookupConfig | SeoHead.tsx:77 | a known route gets its entry; any other route gets the home entry |
| Seo.Merge | SeoHead.tsx:78 | each field the override sets wins, each field it leaves out keeps the base value, and an empty override gives the base back |
| Seo.ResolveConfig | SeoHead.tsx:77-78 | with no override a page renders its route's entry; an override replaces exactly the fields it sets |
| Seo.UnknownRouteFallsBack | SeoHead.tsx:77 | an unknown route renders with the home entry and the canonical path `/` |
| Seo.StripTrailingSlash | SeoHead.tsx:66 | at most one trailing slash is removed, exactly when there is one |
| Seo.HashPartIsPrefixed | SeoHead.tsx:68 | both branches of the hash route agree: `#/` followed by the clean path |
| Seo.BuildCanonical | SeoHead.tsx:63-73 | with a window the canonical URL is the current page (origin, path without trailing slash) with the canonical path as its hash route, written with exactly one slash after `#`; without a window it is the asset URL of the canonical path |
| Seo.CanonicalIgnoresOneSlash | SeoHead.tsx:63-73 | a canonical path and the same path behind one slash give the same URL, with or without a window |
| Seo.CanonicalHashRecoversPath | SeoHead.tsx:63-73 | with a window, the URL splits into origin plus current path, `#/`, and the canonical path without its leading slash, whatever the base |
| Seo.MapRouteCanonical | SeoHead.tsx:8-73 | with a window, every route of the map appears after `#` exactly as its key |
| Seo.CanonicalExamples | SeoHead.tsx:63-73 | `/quote` on `/site/` gives `origin/site#/quote`; the home route gives `origin#/`; without a window `/quote` gives `./quote` |
| Seo.OgImageUrl | SeoHead.tsx:84 | the image URL is the origin followed by the asset URL of `og-image.svg` under the base path, so it ends with `/og-image.svg` |
| QuoteWizard.SetQuoteField | pages/Quote.tsx:48 | writing an input of the form sets that input and no other |
| QuoteWizard.QuoteFieldsDetermineData | pages/Quote.tsx:25-35 | two quote forms that agree on every input are equal |
| QuoteWizard.Change | pages/Quote.tsx:43-49 | `handleChange` sets the input, clears only that input's error if truthy, and touches nothing else |
| QuoteWizard.ChooseService | pages/Quote.tsx:301 | a service button sets the service type, keeps every other input, and leaves the errors and everything else as they were |
| QuoteWizard.ServiceErrorOutlivesChoice | pages/Quote.tsx:57-69 | choosing a service keeps any earlier error; Next then moves to step 3 with the choice but keeps the error map, and Back shows it again on step 2 |
| QuoteWizard.CityZip | pages/Quote.tsx:54 | a named city gets its ZIP; any other choice gets the empty string |
| QuoteWizard.CitySelect | pages/Quote.tsx:51-55 | choosing a city records it, fills in its ZIP, clears only the ZIP error, and touches nothing else |
| QuoteWizard.CityGate | pages/Quote.tsx:58-66 | step 1 lets the user on exactly when a city is chosen, "Other" has a ZIP typed in, and the ZIP is served |
| QuoteWizard.Next | pages/Quote.tsx:57-69 | Next advances exactly one step when the current step's gate passes and step 4 is not reached; a failed gate replaces the errors with its one message |
| QuoteWizard.Back | pages/Quote.tsx:384-386 | Back goes one step down past step 1 unless a submission is in flight, and changes nothing else |
| QuoteWizard.QuotePayload | pages/Quote.tsx:91-102 | the body is the eight inputs as typed, under their own keys and in order, then a `Quote: name - service` subject and `_captcha` `"false"`; the honeypot is not sent |
| QuoteWizard.QuotePayloadOmitsHoneypot | pages/Quote.tsx:91-102 | two forms post the same body exactly when they differ at most in the honeypot |
| QuoteWizard.Dispatch | pages/Quote.tsx:84-116 | a dispatched quote records the attempt; success shows the thank-you, failure the fallback with one `submit` error; `isSubmitting` ends false |
| QuoteWizard.HandleSubmit | pages/Quote.tsx:71-117 | a submit keeps the step, city and inputs, never leaves a submission running that was not, performs the effects of the stage it reached, and leaves storage that refuses writes as it was |
| QuoteWizard.SubmitStages | pages/Quote.tsx:75-84 | a submit stops in flight, at the rate limit, or at validation exactly when that check fails; it never reaches "form unavailable" |
| QuoteWizard.SubmitWhileInFlight | pages/Quote.tsx:73-75 | a submit while one is in flight only clears the messages |
| QuoteWizard.WaitMessage | pages/Quote.tsx:78 | the rate-limit banner is the fixed text around the rendered minutes |
| QuoteWizard.WaitMessageNamesWait | pages/Quote.tsx:78 | the number in the banner reads back as the minutes to wait |
| QuoteWizard.SubmitRateLimited | pages/Quote.tsx:77-78 | a rate-limit refusal shows the wait and changes only the messages and the store the check wrote |
| QuoteWizard.SubmitRejected | pages/Quote.tsx:80-81 | a refused form shows its errors; the store is unchanged |
| QuoteWizard.SubmitDispatched | pages/Quote.tsx:84-116 | a valid form records the attempt; success shows the thank-you, failure switches to the fallback; the inputs survive either way |
| QuoteWizard.CityMapMatchesServiceCities | pages/Quote.tsx:37-41 | the city map covers exactly the configured service cities, each with an allowlisted ZIP, and the buttons add "Other" |
| QuoteWizard.NamedCityAdvances | pages/Quote.tsx:51-69 | choosing any named city on step 1 and pressing Next reaches step 2 |
| QuoteWizard.ServiceCityServed | utils/config.ts:33-42 | every service city is in the city map with a served ZIP |
| QuoteWizard.OtherCityNeedsZip | pages/Quote.tsx:60 | "Other" with no ZIP typed asks for one and stays on step 1 |
| QuoteWizard.RecordOnlyAfterChecks | pages/Quote.tsx:75-88 | an attempt is recorded exactly when nothing was in flight, the rate limit allowed it and the form validated; at most once, and before the send |
| QuoteWizard.Step | pages/Quote.tsx:43-117 | any one action keeps the wizard on one of its four steps; only a submit touches the store; only a service button changes the service type; nothing changes the frequency |
| QuoteWizard.RunKeepsStepInRange | pages/Quote.tsx:68 | whatever the user does, the wizard stays on steps 1 to 4 |
| QuoteWizard.NavigationKeepsData | pages/Quote.tsx:57-69 | moving back and forth never loses the inputs, the chosen city or the store |
| QuoteWizard.RunKeepsUnwiredFields | pages/Quote.tsx:25-35 | whatever the user does, the frequency keeps its initial value, and without a service button the service type does too |
| QuoteWizard.DisabledStorageNeverLimits | pages/Quote.tsx:77-78 | with storage that throws on every access, a submit is never rate-limited and the storage stays as it was |
| QuoteWizard.RunOnUnwritableStorage | pages/Quote.tsx:71-117 | on storage that refuses writes, no sequence of actions changes the storage |
| ContactForm.SetContactField | pages/Contact.tsx:42-45 | writing an input of the form sets that input and no other |
| ContactForm.ContactFieldsDetermineData | pages/Contact.tsx:14-20 | two contact forms that agree on every input are equal |
| ContactForm.Change | pages/Contact.tsx:31-46 | `handleChange` sets the input, clears only that input's error if truthy, and touches nothing else |
| ContactForm.ChangeLastWins | pages/Contact.tsx:42-45 | typing into the same input twice keeps only the second value |
| ContactForm.RateMessage | pages/Contact.tsx:65 | the rate-limit banner is the fixed text around the rendered minutes |
| ContactForm.RateMessageNamesWait | pages/Contact.tsx:65 | the number in the banner reads back as the minutes to wait |
| ContactForm.FillDelay | pages/Contact.tsx:58-61 | the submit waits exactly when less than 700 ms have passed since the form started, and then until exactly 700 ms have |
| ContactForm.Pause | pages/Contact.tsx:59-61 | the effects before the rate check hold no record and no send, and there are none exactly when there is no delay |
| ContactForm.ContactPayload | pages/Contact.tsx:90-97 | the body is the five raw inputs under their own keys `name`, `email`, `phone`, `message`, `_gotcha`, in order, then `_subject` as `New Contact Form: ` followed by the name |
| ContactForm.PayloadDeterminesData | pages/Contact.tsx:90-97 | different forms post different bodies: nothing typed is lost |
| ContactForm.Dispatch | pages/Contact.tsx:80-111 | a dispatched submission records the attempt and ends with `isSubmitting` false |
| ContactForm.HandleSubmit | pages/Contact.tsx:48-112 | a submit ends with `isSubmitting` as it found it, performs the effects of the stage it reached after the fill-time wait, and leaves storage that refuses writes as it was |
| ContactForm.DisabledStorageNeverLimits | pages/Contact.tsx:63-67 | with storage that throws on every access, a submit is never rate-limited and the storage stays as it was |
| ContactForm.SubmitStages | pages/Contact.tsx:55-84 | a submit stops in flight, at the rate limit, or at validation exactly when that check fails; it never reaches "form unavailable" |
| ContactForm.SubmitWhileInFlight | pages/Contact.tsx:51-55 | a submit while one is in flight clears the messages and does nothing else |
| ContactForm.EarlySubmitWaits | pages/Contact.tsx:57-61 | an early submit is delayed, not refused: it waits out the rest and then does exactly what a submit at 700 ms does |
| ContactForm.SubmitRateLimited | pages/Contact.tsx:63-67 | a rate-limit refusal shows the wait and performs no validation, recording or send |
| ContactForm.SubmitRejected | pages/Contact.tsx:69-73 | a refused form shows its errors and the store is unchanged |
| ContactForm.SubmitSucceeded | pages/Contact.tsx:104-106 | a successful send shows the thank-you, empties all five inputs, and restarts the fill clock |
| ContactForm.SubmitFailed | pages/Contact.tsx:107-108 | a failed send keeps the inputs and shows the retry-or-call message in `submit` |
| ContactForm.RecordOnlyAfterChecks | pages/Contact.tsx:63-84 | an attempt is recorded exactly when nothing was in flight, the rate limit allowed it and the form validated; at most once, and before the send |
| ContactForm.SendsRawFields | pages/Contact.tsx:84-98 | what is posted is the form as typed, not its sanitized copy |
| CrmStore.NewLead | src/store/crmStore.ts:66-71 | a new lead has the given id and timestamp and status `New` |
| CrmStore.NewLeadKeepsInput | src/store/crmStore.ts:66-71 | every field the caller gave survives into the new lead |
| CrmStore.AddLead | src/store/crmStore.ts:65-73 | the new lead goes first and the earlier leads follow unchanged and in order |
| CrmStore.UpdateLeadStatus | src/store/crmStore.ts:75-79 | leads with the id get the status, every other lead and field is unchanged, and the length stays |
| CrmStore.UpdateLeadNotes | src/store/crmStore.ts:81-85 | leads with the id get the notes, every other lead and field is unchanged, and the length stays |
| CrmStore.DeleteLead | src/store/crmStore.ts:87-89 | exactly the leads with another id remain |
| CrmStore.UpdatesKeepIds | src/store/crmStore.ts:75-85 | status and notes edits keep the ids in their order |
| CrmStore.UpdateStatusIdempotent | src/store/crmStore.ts:75-79 | setting the same status twice is setting it once |
| CrmStore.StatusAndNotesCommute | src/store/crmStore.ts:75-85 | a status edit and a notes edit can be made in either order |
| CrmStore.EditMissingId | src/store/crmStore.ts:75-89 | an edit or delete for an id no lead has changes nothing |
| CrmStore.DeleteDistributes | src/store/crmStore.ts:87-89 | deleting works piece by piece, so the remaining leads keep their order |
| CrmStore.DeleteUndoesAdd | src/store/crmStore.ts:65-89 | deleting a freshly added lead by its new id gives back the list from before |
| CrmStore.DeleteIdempotent | src/store/crmStore.ts:87-89 | after a delete no lead has the id, and deleting again changes nothing |
| CrmStore.DemoLeads | src/store/crmStore.ts:31-63 | the demo data is two leads, ids 1 and 2, one `New` and one `Contacted` |
| CrmStore.Load | src/store/crmStore.ts:10-22 | a missing or empty entry seeds the demo leads, text that does not parse leaves the list empty, a saved list is read back |
| CrmStore.Persist | src/store/crmStore.ts:25-29 | a non-empty list is written; an empty one leaves the slot as it was |
| CrmStore.Mount | src/store/crmStore.ts:10-29 | after mounting the slot holds the list whenever it is non-empty; a missing or blank slot seeds and saves the demo leads, an unparsable one gives an empty board and stays as it was, a saved one is read back and left as it is |
| CrmStore.Step | src/store/crmStore.ts:25-89 | each edit runs its own handler on the list; afterwards the slot holds the list when it is non-empty and is left as it was when it is empty |
| CrmStore.MountAndStepInSync | src/store/crmStore.ts:10-29 | after mounting and after every edit, the slot holds the list whenever the list is non-empty |
| CrmStore.FirstMountSeeds | src/store/crmStore.ts:18-21 | first use seeds the two demo leads and saves them |
| CrmStore.UnparsableStaysUnparsable | src/store/crmStore.ts:13-17 | an unreadable entry gives an empty board and stays as it was |
| CrmStore.ReloadRoundTrip | src/store/crmStore.ts:11-14 | a saved non-empty list comes back unchanged on reload |
| CrmStore.DeletingLastLeadComesBack | src/store/crmStore.ts:25-29 | deleting the last lead is not saved, and the next mount brings it back |

## Left out

- **React rendering.** Markup, styling and icons are left out. So are the
  pages other than Quote and Contact, and the components. None of them holds
  logic the forms depend on.
- **`localStorage` and `JSON`.** They are explicit values.
  - A rate-limit entry that does not parse, or storage whose read throws,
    reads as no entry. Storage whose writes throw is a flag on the store.
  - A lead slot is `Absent`, `Blank`, `Unparsable` or a saved list, and a
    saved list is taken to read back as written.
  - `JSON.parse` of text that is valid JSON but not a lead array is not
    modelled.
  - A stored `blockedUntil` that is not a number is not modelled.
- **Time, randomness and the network.** `Date.now`, `crypto.randomUUID`, ISO
  timestamps and `fetch` are parameters.
  - The POST's outcome is one boolean.
  - `res.json()` on the quote page's error path only logs, and is left out.
- **The 300 ms pause in `handleNext`.** It is treated as immediate, because
  nothing observable happens during it in the model.
- **State changes while a submit awaits.** Each handler runs to completion,
  so input the user changes while a submit is waiting is not modelled.
- **`isValidatingZip`.** This spinner flag is set and cleared within one run
  of `handleNext` and is not modelled.
- **Lead numbers.** `bedrooms`, `bathrooms` and `priceQuote` are integers.
  The source's JavaScript numbers could be fractional.
- **Unused export.** `SubmitGuard.canSubmit` is modelled but has no contract
  of its own; `StartSubmit` and `EndSubmit` state it.
- **Outside the core.** The SMS consent checkbox, the booking embed and the
  mailto fallback link only render text and are not modelled.
- **Unicode case mapping.** `toLowerCase` is modelled on ASCII only.
  - Sanitizers.ToLowerAscii: does not lower-case non-ASCII letters, because
    full Unicode case mapping is out of scope.
  - Sanitizers.SanitizeEmail: states the ASCII consequence, that no ASCII
    upper-case letter is left, and its content law lower-cases ASCII only.

=== FILE: base_path.dfy ===
/** The deployment base path and asset URLs. */
module BasePath {

  /** What `import.meta.env.BASE_URL` holds. */
  datatype EnvValue = Missing | NonString | Str(s: string)

  const FALLBACK := "./"

  /** `getBase`: a non-empty string base, or `./`, always ending in `/`. */
  function GetBase(raw: EnvValue): (b: string)
    ensures |b| > 0 && b[|b| - 1] == '/'
    ensures !(raw.Str? && raw.s != "") ==> b == FALLBACK
    ensures raw.Str? && raw.s != "" ==>
      if raw.s[|raw.s| - 1] == '/' then b == raw.s else b == raw.s + "/"
  {
    var base := if raw.Str? && |raw.s| > 0 then raw.s else FALLBACK;
    if base[|base| - 1] == '/' then base else base + "/"
  }

  /** A base that already ends in `/` comes back as it is. */
  lemma GetBaseIdempotent(raw: EnvValue)
    ensures GetBase(Str(GetBase(raw))) == GetBase(raw)
  {
  }

  /** `.replace(/^\//, '')`: at most one leading slash removed. */
  function StripLeadingSlash(p: string): (r: string)
    ensures r == p || "/" + r == p
    ensures |p| > 0 && p[0] == '/' <==> "/" + r == p
  {
    if |p| > 0 && p[0] == '/' then p[1..] else p
  }

  /** `buildAssetUrl`: the base followed by the path without its leading slash. */
  function BuildAssetUrl(raw: EnvValue, relativePath: string): (u: string)
    ensures |u| >= |GetBase(raw)| && u[..|GetBase(raw)|] == GetBase(raw)
    ensures var rest := u[|GetBase(raw)|..];
      rest == relativePath || "/" + rest == relativePath
    ensures |relativePath| > 0 && relativePath[0] == '/' ==> "/" + u[|GetBase(raw)|..] == relativePath
  {
    GetBase(raw) + StripLeadingSlash(relativePath)
  }

  /** A path and the same path behind one slash give the same asset URL. */
  lemma AssetUrlIgnoresOneSlash(raw: EnvValue, p: string)
    requires !(|p| > 0 && p[0] == '/')
    ensures BuildAssetUrl(raw, "/" + p) == BuildAssetUrl(raw, p)
  {
    assert ("/" + p)[1..] == p;
  }
}

=== FILE: config.dfy ===
/** Business constants and the form endpoint choice. */
module Config {
  import opened Wrappers

  const PHONE_DISPLAY := "(219) 615-9477"
  const BUSINESS_EMAIL := "info@stronghomescleaning.com"
  /** `BUSINESS.formSubmitUrl`, the fallback endpoint. */
  const FORM_SUBMIT_URL := "https://formsubmit.co/ajax/info@stronghomescleaning.com"
  const FORMSPREE_PREFIX := "https://formspree.io/f/"
  /** `FORM.minFillMs`: anti-bot minimum time between showing the form and sending it. */
  const MIN_FILL_MS := 700
  const SERVICE_CITIES: seq<string> :=
    ["Hammond", "Hobart", "Merrillville", "Crown Point", "Valparaiso", "Schererville", "St. John", "Lowell"]

  /** `getFormspreeUrl`: no URL for an unset or empty form id. */
  function GetFormspreeUrl(formId: Option<string>): (r: Option<string>)
    ensures r.None? <==> formId.None? || formId.value == ""
    ensures r.Some? ==>
      && |r.value| > |FORMSPREE_PREFIX|
      && r.value[..|FORMSPREE_PREFIX|] == FORMSPREE_PREFIX
      && r.value[|FORMSPREE_PREFIX|..] == formId.value
  {
    if formId.Some? && formId.value != "" then Some(FORMSPREE_PREFIX + formId.value) else None
  }

  /** Recovers the form id from a Formspree URL. */
  function FormIdOf(url: string): Option<string> {
    if |url| > |FORMSPREE_PREFIX| && url[..|FORMSPREE_PREFIX|] == FORMSPREE_PREFIX
    then Some(url[|FORMSPREE_PREFIX|..])
    else None
  }

  /** Building the URL and taking the prefix off again are inverse, both ways round. */
  lemma FormspreeRoundTrip(id: string, url: string)
    ensures id != "" ==> FormIdOf(GetFormspreeUrl(Some(id)).value) == Some(id)
    ensures FormIdOf(url) == Some(id) ==> GetFormspreeUrl(Some(id)) == Some(url)
  {
    if FormIdOf(url) == Some(id) {
      assert url == FORMSPREE_PREFIX + id;
    }
  }

  /** `getFormspreeUrl(id) || BUSINESS.formSubmitUrl`, the address a form posts to. */
  function Endpoint(formId: Option<string>): (url: string)
    ensures url != ""
    ensures formId.Some? && formId.value != "" ==> url == FORMSPREE_PREFIX + formId.value
    ensures formId.None? || formId.value == "" ==> url == FORM_SUBMIT_URL
  {
    match GetFormspreeUrl(formId)
    case Some(u) => if u != "" then u else FORM_SUBMIT_URL
    case None => FORM_SUBMIT_URL
  }
}

=== FILE: contact_form.dfy ===
/**
 * The contact page: its five inputs, `handleChange`, and `handleSubmit` run
 * to completion. The clock, the rate-limit store, the form id, the outcome
 * of the POST and the time the POST answered are parameters.
 */
module ContactForm {
  import opened Wrappers
  import opened Text
  import opened Forms
  import opened Pipeline
  import RateLimit
  import Config

  const FORM_UNAVAILABLE := "Form temporarily unavailable. Please call or email us directly."
  const SEND_FAILED := "Something went wrong. Please try again or call us at " + Config.PHONE_DISPLAY + "."
  const RATE_PREFIX := "Too many attempts. Please wait "
  const RATE_SUFFIX := " minute(s) and try again."
  const SUBJECT_PREFIX := "New Contact Form: "

  /** All five inputs empty, as on first render and after a successful send. */
  const BLANK := ContactData("", "", "", "", "")

  datatype State = State(
    formData: ContactData,
    errors: Errors,
    isSubmitting: bool,
    rateLimitError: Option<string>,
    submitSuccess: bool,
    formStartTime: int)

  /** The page as first rendered at time `now`. */
  function Initial(now: int): State {
    State(BLANK, map[], false, None, false, now)
  }

  // ---------------------------------------------------------------------------
  // inputs
  // ---------------------------------------------------------------------------

  /** The value of an input of the contact form; `None` for a name it does not have. */
  function ContactField(d: ContactData, f: Field): Option<string> {
    match f
    case Name => Some(d.name)
    case Email => Some(d.email)
    case Phone => Some(d.phone)
    case Message => Some(d.message)
    case Gotcha => Some(d.gotcha)
    case _ => None
  }

  /** `{ ...prev, [name]: value }` */
  function SetContactField(d: ContactData, f: Field, v: string): (r: ContactData)
    ensures ContactField(d, f).Some? ==> ContactField(r, f) == Some(v)
    ensures ContactField(d, f).None? ==> r == d
    ensures forall g :: g != f ==> ContactField(r, g) == ContactField(d, g)
  {
    match f
    case Name => d.(name := v)
    case Email => d.(email := v)
    case Phone => d.(phone := v)
    case Message => d.(message := v)
    case Gotcha => d.(gotcha := v)
    case _ => d
  }

  /** Two contact forms that agree on every input are the same form. */
  lemma ContactFieldsDetermineData(a: ContactData, b: ContactData)
    requires forall f :: ContactField(a, f) == ContactField(b, f)
    ensures a == b
  {
    assert ContactField(a, Name) == ContactField(b, Name);
    assert ContactField(a, Email) == ContactField(b, Email);
    assert ContactField(a, Phone) == ContactField(b, Phone);
    assert ContactField(a, Message) == ContactField(b, Message);
    assert ContactField(a, Gotcha) == ContactField(b, Gotcha);
  }

  /** `handleChange`: writes the named input and clears that input's error, if truthy. */
  function Change(s: State, f: Field, v: string): (r: State)
    ensures ContactField(s.formData, f).Some? ==> ContactField(r.formData, f) == Some(v)
    ensures forall g :: g != f ==> ContactField(r.formData, g) == ContactField(s.formData, g)
    ensures r.errors == ClearError(s.errors, f)
    ensures r == s.(formData := r.formData, errors := r.errors)
  {
    s.(errors := ClearError(s.errors, f), formData := SetContactField(s.formData, f, v))
  }

  /** Typing into the same input twice keeps only the second value. */
  lemma ChangeLastWins(s: State, f: Field, v: string, w: string)
    ensures Change(Change(s, f, v), f, w).formData == Change(s, f, w).formData
  {
    var a := Change(Change(s, f, v), f, w).formData;
    var b := Change(s, f, w).formData;
    forall g ensures ContactField(a, g) == ContactField(b, g) {
      if g == f {
        assert ContactField(s.formData, f).None? ==> a == s.formData && b == s.formData;
      }
    }
    ContactFieldsDetermineData(a, b);
  }

  // ---------------------------------------------------------------------------
  // submit
  // ---------------------------------------------------------------------------

  /** The rate-limit banner, naming the minutes to wait. */
  function RateMessage(minutes: nat): (m: string)
    ensures |m| == |RATE_PREFIX| + |NatToString(minutes)| + |RATE_SUFFIX|
    ensures m[..|RATE_PREFIX|] == RATE_PREFIX
    ensures m[|m| - |RATE_SUFFIX|..] == RATE_SUFFIX
    ensures m[|RATE_PREFIX|..|m| - |RATE_SUFFIX|] == NatToString(minutes)
  {
    RATE_PREFIX + NatToString(minutes) + RATE_SUFFIX
  }

  /** The banner's number reads back as the minutes it was built from. */
  lemma RateMessageNamesWait(minutes: nat)
    ensures var m := RateMessage(minutes);
      var digits := m[|RATE_PREFIX|..|m| - |RATE_SUFFIX|];
      AllChars(digits, IsDigit) && DigitsValue(digits) == minutes
  {
    NatToStringRoundTrip(minutes);
  }

  /** How long the submit waits first: what is left of the minimum fill time. */
  function FillDelay(s: State, now: int): (d: nat)
    ensures d > 0 <==> now - s.formStartTime < Config.MIN_FILL_MS
    ensures d > 0 ==> now + d == s.formStartTime + Config.MIN_FILL_MS
  {
    var elapsed := now - s.formStartTime;
    if elapsed < Config.MIN_FILL_MS then Config.MIN_FILL_MS - elapsed else 0
  }

  /** The time the rate limit is checked and the attempt recorded: after the wait. */
  function CheckTime(s: State, now: int): int {
    now + FillDelay(s, now)
  }

  /** The effects before the rate check: the wait, when there is one. */
  function Pause(delay: nat): (pre: seq<Effect>)
    ensures Recorded !in pre && !HasSend(pre)
    ensures pre == [] <==> delay == 0
  {
    if delay > 0 then [Waited(delay)] else []
  }

  /** The inputs the page posts, in order, and their JSON keys. */
  const PAYLOAD_FIELDS: seq<Field> := [Name, Email, Phone, Message, Gotcha]
  const PAYLOAD_KEYS: seq<string> := ["name", "email", "phone", "message", "_gotcha"]

  /** What the page posts: the raw inputs, the honeypot and a subject line. */
  function ContactPayload(d: ContactData): (body: seq<Pair>)
    ensures |body| == 6
    ensures forall i :: 0 <= i < 5 ==>
      ContactField(d, PAYLOAD_FIELDS[i]).Some? && body[i] == Pair(PAYLOAD_KEYS[i], ContactField(d, PAYLOAD_FIELDS[i]).value)
    ensures body[5] == Pair("_subject", SUBJECT_PREFIX + d.name)
  {
    [ Pair("name", d.name), Pair("email", d.email), Pair("phone", d.phone),
      Pair("message", d.message), Pair("_gotcha", d.gotcha), Pair("_subject", SUBJECT_PREFIX + d.name) ]
  }

  /** Nothing is lost in the payload: different forms post different bodies. */
  lemma PayloadDeterminesData(a: ContactData, b: ContactData)
    requires ContactPayload(a) == ContactPayload(b)
    ensures a == b
  {
    assert ContactPayload(a)[0].value == a.name && ContactPayload(b)[0].value == b.name;
    assert ContactPayload(a)[1].value == a.email && ContactPayload(b)[1].value == b.email;
    assert ContactPayload(a)[2].value == a.phone && ContactPayload(b)[2].value == b.phone;
    assert ContactPayload(a)[3].value == a.message && ContactPayload(b)[3].value == b.message;
    assert ContactPayload(a)[4].value == a.gotcha && ContactPayload(b)[4].value == b.gotcha;
  }

  /** The page state, the rate-limit store and the effects after a submit. */
  datatype Submission = Submission(state: State, store: RateLimit.Store, reached: Reached, trace: seq<Effect>)

  /**
   * The POST and what the page shows afterwards. Success empties the inputs
   * and restarts the fill clock at `answeredAt`; failure keeps the inputs and
   * shows one `submit` error. `isSubmitting` is dropped either way.
   */
  function Dispatch(cleared: State, store: RateLimit.Store, at: int, pre: seq<Effect>, url: string,
                    body: seq<Pair>, sendOk: bool, answeredAt: int): (out: Submission)
    ensures out.store == RateLimit.RecordSubmitAttempt(store, at)
    ensures out.reached == Dispatched
    ensures !out.state.isSubmitting
  {
    var recorded := RateLimit.RecordSubmitAttempt(store, at);
    var busy := cleared.(isSubmitting := true);
    var done := if sendOk then busy.(submitSuccess := true, formData := BLANK, formStartTime := answeredAt)
                else busy.(errors := map[Submit := SEND_FAILED]);
    Submission(done.(isSubmitting := false), recorded, Dispatched, TraceOf(Dispatched, pre, url, body))
  }

  /**
   * `handleSubmit`. The messages are cleared first; a submit while one is in
   * flight stops there. Otherwise the page waits out the minimum fill time,
   * then checks the rate limit, validates, and records and posts.
   */
  function HandleSubmit(s: State, store: RateLimit.Store, now: int, formId: Option<string>,
                        sendOk: bool, answeredAt: int): (out: Submission)
    ensures out.state.isSubmitting == s.isSubmitting
    ensures out.trace == TraceOf(out.reached, Pause(FillDelay(s, now)), Config.Endpoint(formId), ContactPayload(s.formData))
    ensures !store.writable ==> out.store == store
  {
    var cleared := s.(errors := map[], rateLimitError := None, submitSuccess := false);
    var url := Config.Endpoint(formId);
    var body := ContactPayload(s.formData);
    var pre := Pause(FillDelay(s, now));
    if s.isSubmitting then Submission(cleared, store, InFlight, TraceOf(InFlight, pre, url, body))
    else
      var at := CheckTime(s, now);
      var rl := RateLimit.CheckRateLimit(store, at);
      if rl.decision.Refused? then
        Submission(cleared.(rateLimitError := Some(RateMessage(rl.decision.waitMinutes))), rl.store,
                   RateLimited, TraceOf(RateLimited, pre, url, body))
      else
        var v := ContactRefusal(s.formData);
        if v.Some? then
          Submission(cleared.(errors := v.value), rl.store, Rejected, TraceOf(Rejected, pre, url, body))
        else if url == "" then
          Submission(cleared.(errors := map[Submit := FORM_UNAVAILABLE]), rl.store, Unavailable,
                     TraceOf(Unavailable, pre, url, body))
        else
          Dispatch(cleared, rl.store, at, pre, url, body, sendOk, answeredAt)
  }

  // ---------------------------------------------------------------------------
  // properties
  // ---------------------------------------------------------------------------

  /** Each stage stops the pipeline exactly when its check fails; the endpoint check never does. */
  lemma SubmitStages(s: State, store: RateLimit.Store, now: int, formId: Option<string>, sendOk: bool, answeredAt: int)
    ensures var out := HandleSubmit(s, store, now, formId, sendOk, answeredAt);
      var allowed := RateLimit.CheckRateLimit(store, CheckTime(s, now)).decision.Allowed?;
      && (out.reached == InFlight <==> s.isSubmitting)
      && (out.reached == RateLimited <==> !s.isSubmitting && !allowed)
      && (out.reached == Rejected <==> !s.isSubmitting && allowed && ContactRefusal(s.formData).Some?)
      && (out.reached == Dispatched <==> !s.isSubmitting && allowed && ContactRefusal(s.formData).None?)
      && out.reached != Unavailable
  {
  }

  /** With storage that throws on every access, a submit is never rate-limited and leaves the storage alone. */
  lemma DisabledStorageNeverLimits(s: State, now: int, formId: Option<string>, sendOk: bool, answeredAt: int)
    ensures var out := HandleSubmit(s, RateLimit.DISABLED, now, formId, sendOk, answeredAt);
      out.reached != RateLimited && out.store == RateLimit.DISABLED
  {
    RateLimit.FailsOpen(RateLimit.DISABLED, CheckTime(s, now));
  }

  /** A submit while one is in flight clears the messages and does nothing else. */
  lemma SubmitWhileInFlight(s: State, store: RateLimit.Store, now: int, formId: Option<string>, sendOk: bool, answeredAt: int)
    requires s.isSubmitting
    ensures var out := HandleSubmit(s, store, now, formId, sendOk, answeredAt);
      && out.state == s.(errors := map[], rateLimitError := None, submitSuccess := false)
      && out.store == store
      && out.trace == []
  {
  }

  /**
   * A submit before the minimum fill time is only delayed: it waits out the
   * rest and then does exactly what a submit at the end of the wait does.
   */
  lemma EarlySubmitWaits(s: State, store: RateLimit.Store, now: int, formId: Option<string>, sendOk: bool, answeredAt: int)
    requires !s.isSubmitting && now - s.formStartTime < Config.MIN_FILL_MS
    ensures var out := HandleSubmit(s, store, now, formId, sendOk, answeredAt);
      var later := HandleSubmit(s, store, s.formStartTime + Config.MIN_FILL_MS, formId, sendOk, answeredAt);
      && out.state == later.state && out.store == later.store && out.reached == later.reached
      && out.trace == [Waited(Config.MIN_FILL_MS - (now - s.formStartTime))] + later.trace
  {
    var d := FillDelay(s, now);
    var t := s.formStartTime + Config.MIN_FILL_MS;
    assert FillDelay(s, t) == 0;
    assert now + d == t;
    var out := HandleSubmit(s, store, now, formId, sendOk, answeredAt);
    var later := HandleSubmit(s, store, t, formId, sendOk, answeredAt);
    assert out.reached == later.reached;
    TraceOfAfterWait(out.reached, d, Config.Endpoint(formId), ContactPayload(s.formData));
  }

  /** The wait comes first in every trace that reaches the rate check. */
  lemma TraceOfAfterWait(reached: Reached, d: nat, url: string, body: seq<Pair>)
    requires reached != InFlight && d > 0
    ensures TraceOf(reached, Pause(d), url, body) == [Waited(d)] + TraceOf(reached, [], url, body)
  {
  }

  /** A rate-limit refusal names the wait and stops before validation, recording and sending. */
  lemma SubmitRateLimited(s: State, store: RateLimit.Store, now: int, formId: Option<string>, sendOk: bool, answeredAt: int)
    requires !s.isSubmitting && RateLimit.CheckRateLimit(store, CheckTime(s, now)).decision.Refused?
    ensures var out := HandleSubmit(s, store, now, formId, sendOk, answeredAt);
      var c := RateLimit.CheckRateLimit(store, CheckTime(s, now));
      && out.state == s.(errors := map[], submitSuccess := false,
                         rateLimitError := Some(RateMessage(c.decision.waitMinutes)))
      && out.store == c.store
      && Validated !in out.trace && Recorded !in out.trace && !HasSend(out.trace)
  {
    var out := HandleSubmit(s, store, now, formId, sendOk, answeredAt);
    assert out.trace == Pause(FillDelay(s, now)) + [RateChecked];
  }

  /** A form that does not validate shows its errors; nothing is recorded or sent. */
  lemma SubmitRejected(s: State, store: RateLimit.Store, now: int, formId: Option<string>, sendOk: bool, answeredAt: int)
    requires !s.isSubmitting && RateLimit.CheckRateLimit(store, CheckTime(s, now)).decision.Allowed?
    requires ContactRefusal(s.formData).Some?
    ensures var out := HandleSubmit(s, store, now, formId, sendOk, answeredAt);
      && out.state == s.(errors := ContactRefusal(s.formData).value, rateLimitError := None, submitSuccess := false)
      && out.store == store
      && out.reached == Rejected
  {
  }

  /** A successful send shows the thank-you, empties all five inputs and restarts the fill clock. */
  lemma SubmitSucceeded(s: State, store: RateLimit.Store, now: int, formId: Option<string>, answeredAt: int)
    requires !s.isSubmitting && RateLimit.CheckRateLimit(store, CheckTime(s, now)).decision.Allowed?
    requires ContactRefusal(s.formData).None?
    ensures var out := HandleSubmit(s, store, now, formId, true, answeredAt);
      && out.state == State(BLANK, map[], false, None, true, answeredAt)
      && out.store == RateLimit.RecordSubmitAttempt(store, CheckTime(s, now))
  {
  }

  /** A failed send keeps the inputs and shows the retry-or-call message in the `submit` slot. */
  lemma SubmitFailed(s: State, store: RateLimit.Store, now: int, formId: Option<string>, answeredAt: int)
    requires !s.isSubmitting && RateLimit.CheckRateLimit(store, CheckTime(s, now)).decision.Allowed?
    requires ContactRefusal(s.formData).None?
    ensures var out := HandleSubmit(s, store, now, formId, false, answeredAt);
      && out.state == s.(errors := map[Submit := SEND_FAILED], rateLimitError := None, submitSuccess := false)
      && out.store == RateLimit.RecordSubmitAttempt(store, CheckTime(s, now))
  {
  }

  /**
   * An attempt is recorded only when the rate limit allowed it and the form
   * validated, at most once, and always before the send.
   */
  lemma RecordOnlyAfterChecks(s: State, store: RateLimit.Store, now: int, formId: Option<string>, sendOk: bool, answeredAt: int)
    ensures var out := HandleSubmit(s, store, now, formId, sendOk, answeredAt);
      && (Recorded in out.trace <==>
           !s.isSubmitting && RateLimit.CheckRateLimit(store, CheckTime(s, now)).decision.Allowed?
           && ContactRefusal(s.formData).None?)
      && RecordsBeforeSend(out.trace)
  {
    var out := HandleSubmit(s, store, now, formId, sendOk, answeredAt);
    SubmitStages(s, store, now, formId, sendOk, answeredAt);
    TraceOfRecordsBeforeSend(out.reached, Pause(FillDelay(s, now)), Config.Endpoint(formId), ContactPayload(s.formData));
  }

  /** What is posted is the form as typed, not its sanitized copy. */
  lemma SendsRawFields(s: State, store: RateLimit.Store, now: int, formId: Option<string>, sendOk: bool, answeredAt: int)
    requires HandleSubmit(s, store, now, formId, sendOk, answeredAt).reached == Dispatched
    ensures Sent(Config.Endpoint(formId), ContactPayload(s.formData)) in HandleSubmit(s, store, now, formId, sendOk, answeredAt).trace
  {
    DispatchedSends(Pause(FillDelay(s, now)), Config.Endpoint(formId), ContactPayload(s.formData));
  }
}

=== FILE: crm_store.dfy ===
/**
 * The lead list behind the back-office board: four edits as pure sequence
 * transforms, the load on mount, and the save that runs after every change.
 * Lead ids and timestamps come from the caller; the storage slot holds the
 * list as `JSON.stringify` wrote it, so reading it back gives the same list.
 */
module CrmStore {

  datatype LeadStatus = New | Contacted | Booked | Lost

  datatype Lead = Lead(
    id: string,
    name: string,
    email: string,
    phone: string,
    serviceType: string,
    bedrooms: int,
    bathrooms: int,
    priceQuote: int,
    status: LeadStatus,
    notes: string,
    createdAt: string,
    city: string)

  /** What `addLead` is given: a lead without its id, timestamp and status. */
  datatype LeadInput = LeadInput(
    name: string,
    email: string,
    phone: string,
    serviceType: string,
    bedrooms: int,
    bathrooms: int,
    priceQuote: int,
    notes: string,
    city: string)

  /**
   * The `stronghomes_leads_v1` entry of local storage: missing, the empty
   * string, text that does not parse, or a saved list.
   */
  datatype Slot = Absent | Blank | Unparsable | Saved(leads: seq<Lead>)

  /** The hook's list and the storage slot beside it. */
  datatype Store = Store(leads: seq<Lead>, slot: Slot)

  // ---------------------------------------------------------------------------
  // edits
  // ---------------------------------------------------------------------------

  /** The ids of a list, in order. */
  function Ids(leads: seq<Lead>): (ids: seq<string>)
    ensures |ids| == |leads|
    ensures forall i :: 0 <= i < |leads| ==> ids[i] == leads[i].id
  {
    if |leads| == 0 then [] else [leads[0].id] + Ids(leads[1..])
  }

  /** `{ ...lead, id, createdAt, status: 'New' }` */
  function NewLead(input: LeadInput, id: string, createdAt: string): (l: Lead)
    ensures l.id == id && l.createdAt == createdAt && l.status == New
  {
    Lead(id, input.name, input.email, input.phone, input.serviceType, input.bedrooms, input.bathrooms,
         input.priceQuote, New, input.notes, createdAt, input.city)
  }

  /** The caller's fields survive into the new lead unchanged. */
  lemma NewLeadKeepsInput(input: LeadInput, id: string, createdAt: string)
    ensures var l := NewLead(input, id, createdAt);
      LeadInput(l.name, l.email, l.phone, l.serviceType, l.bedrooms, l.bathrooms, l.priceQuote, l.notes, l.city) == input
  {
  }

  /** `addLead`: the new lead goes first, and the earlier leads follow unchanged and in order. */
  function AddLead(leads: seq<Lead>, input: LeadInput, id: string, createdAt: string): (r: seq<Lead>)
    ensures |r| == |leads| + 1
    ensures r[0] == NewLead(input, id, createdAt)
    ensures forall i :: 0 <= i < |leads| ==> r[i + 1] == leads[i]
  {
    [NewLead(input, id, createdAt)] + leads
  }

  /** `updateLeadStatus`: every lead with the id gets the status; nothing else changes. */
  function UpdateLeadStatus(leads: seq<Lead>, id: string, status: LeadStatus): (r: seq<Lead>)
    ensures |r| == |leads|
    ensures forall i :: 0 <= i < |leads| ==>
      r[i] == (if leads[i].id == id then leads[i].(status := status) else leads[i])
  {
    if |leads| == 0 then []
    else
      var head := if leads[0].id == id then leads[0].(status := status) else leads[0];
      [head] + UpdateLeadStatus(leads[1..], id, status)
  }

  /** `updateLeadNotes`: every lead with the id gets the notes; nothing else changes. */
  function UpdateLeadNotes(leads: seq<Lead>, id: string, notes: string): (r: seq<Lead>)
    ensures |r| == |leads|
    ensures forall i :: 0 <= i < |leads| ==>
      r[i] == (if leads[i].id == id then leads[i].(notes := notes) else leads[i])
  {
    if |leads| == 0 then []
    else
      var head := if leads[0].id == id then leads[0].(notes := notes) else leads[0];
      [head] + UpdateLeadNotes(leads[1..], id, notes)
  }

  /** `deleteLead`: keeps exactly the leads with another id. */
  function DeleteLead(leads: seq<Lead>, id: string): (r: seq<Lead>)
    ensures |r| <= |leads|
    ensures forall l :: l in r <==> l in leads && l.id != id
  {
    if |leads| == 0 then []
    else if leads[0].id == id then DeleteLead(leads[1..], id)
    else [leads[0]] + DeleteLead(leads[1..], id)
  }

  // ---------------------------------------------------------------------------
  // properties of the edits
  // ---------------------------------------------------------------------------

  /** Status and notes edits keep the ids, so the board keeps its order. */
  lemma UpdatesKeepIds(leads: seq<Lead>, id: string, status: LeadStatus, notes: string)
    ensures Ids(UpdateLeadStatus(leads, id, status)) == Ids(leads)
    ensures Ids(UpdateLeadNotes(leads, id, notes)) == Ids(leads)
  {
  }

  /** Setting the same status twice is the same as once. */
  lemma UpdateStatusIdempotent(leads: seq<Lead>, id: string, status: LeadStatus)
    ensures UpdateLeadStatus(UpdateLeadStatus(leads, id, status), id, status) == UpdateLeadStatus(leads, id, status)
  {
  }

  /** A status edit and a notes edit touch different fields, so their order does not matter. */
  lemma StatusAndNotesCommute(leads: seq<Lead>, a: string, status: LeadStatus, b: string, notes: string)
    ensures UpdateLeadNotes(UpdateLeadStatus(leads, a, status), b, notes)
         == UpdateLeadStatus(UpdateLeadNotes(leads, b, notes), a, status)
  {
  }

  /** An edit for an id no lead has changes nothing. */
  lemma EditMissingId(leads: seq<Lead>, id: string, status: LeadStatus, notes: string)
    requires id !in Ids(leads)
    ensures UpdateLeadStatus(leads, id, status) == leads
    ensures UpdateLeadNotes(leads, id, notes) == leads
    ensures DeleteLead(leads, id) == leads
  {
    assert forall i :: 0 <= i < |leads| ==> leads[i].id != id by {
      forall i | 0 <= i < |leads| ensures leads[i].id != id {
        assert Ids(leads)[i] == leads[i].id;
      }
    }
    DeleteKeepsUnmatched(leads, id);
  }

  /** Deleting from a list where no lead has the id gives the list back. */
  lemma {:induction false} DeleteKeepsUnmatched(leads: seq<Lead>, id: string)
    requires forall i :: 0 <= i < |leads| ==> leads[i].id != id
    ensures DeleteLead(leads, id) == leads
  {
    if |leads| > 0 {
      DeleteKeepsUnmatched(leads[1..], id);
      assert [leads[0]] + leads[1..] == leads;
    }
  }

  /** Deleting works piece by piece, so the leads that stay keep their order. */
  lemma {:induction false} DeleteDistributes(a: seq<Lead>, b: seq<Lead>, id: string)
    ensures DeleteLead(a + b, id) == DeleteLead(a, id) + DeleteLead(b, id)
  {
    if |a| == 0 {
      assert a + b == b;
    } else {
      assert (a + b)[1..] == a[1..] + b;
      DeleteDistributes(a[1..], b, id);
    }
  }

  /** Deleting a freshly added lead by its new id gives back the list from before. */
  lemma DeleteUndoesAdd(leads: seq<Lead>, input: LeadInput, id: string, createdAt: string)
    requires id !in Ids(leads)
    ensures DeleteLead(AddLead(leads, input, id, createdAt), id) == leads
  {
    var r := AddLead(leads, input, id, createdAt);
    assert r[1..] == leads;
    EditMissingId(leads, id, New, "");
  }

  /** After a delete no lead has the id; deleting again changes nothing. */
  lemma DeleteIdempotent(leads: seq<Lead>, id: string)
    ensures id !in Ids(DeleteLead(leads, id))
    ensures DeleteLead(DeleteLead(leads, id), id) == DeleteLead(leads, id)
  {
    var r := DeleteLead(leads, id);
    forall i | 0 <= i < |r| ensures r[i].id != id {
      assert r[i] in r;
    }
    DeleteKeepsUnmatched(r, id);
  }

  // ---------------------------------------------------------------------------
  // load and save
  // ---------------------------------------------------------------------------

  /**
   * The two demo leads written on first use; `now` and `dayBefore` are the
   * ISO timestamps of the moment of seeding and of one day earlier.
   */
  function DemoLeads(now: string, dayBefore: string): (r: seq<Lead>)
    ensures |r| == 2 && Ids(r) == ["1", "2"]
    ensures r[0].status == New && r[1].status == Contacted
  {
    [ Lead("1", "Sarah Johnson", "sarah.j@example.com", "(219) 555-0123", "Standard", 3, 2, 160,
           New, "", now, "Hammond"),
      Lead("2", "Mike Smith", "mike.s@example.com", "(219) 555-0199", "Deep", 4, 3, 280,
           Contacted, "Called, left voicemail.", dayBefore, "Valparaiso") ]
  }

  /**
   * The list the hook holds after mounting: a missing or empty entry seeds
   * the demo leads, text that does not parse leaves the list empty, and a
   * saved list is read back.
   */
  function Load(slot: Slot, now: string, dayBefore: string): (leads: seq<Lead>)
    ensures slot.Absent? || slot.Blank? ==> leads == DemoLeads(now, dayBefore)
    ensures slot.Unparsable? ==> leads == []
    ensures slot.Saved? ==> leads == slot.leads
  {
    match slot
    case Absent => DemoLeads(now, dayBefore)
    case Blank => DemoLeads(now, dayBefore)
    case Unparsable => []
    case Saved(l) => l
  }

  /** The save effect: the list is written only when it is non-empty. */
  function Persist(slot: Slot, leads: seq<Lead>): (r: Slot)
    ensures |leads| > 0 ==> r == Saved(leads)
    ensures |leads| == 0 ==> r == slot
  {
    if |leads| > 0 then Saved(leads) else slot
  }

  /** The slot holds the current list, unless the list is empty. */
  predicate InSync(st: Store) {
    |st.leads| > 0 ==> st.slot == Saved(st.leads)
  }

  /**
   * Mounting: load, then the save effect sees the loaded list. The board is
   * then in sync with the slot, and a list that comes up empty leaves the
   * slot as it was.
   */
  function Mount(slot: Slot, now: string, dayBefore: string): (st: Store)
    ensures InSync(st)
    ensures |st.leads| == 0 ==> st.slot == slot
    ensures slot.Absent? || slot.Blank? ==> st == Store(DemoLeads(now, dayBefore), Saved(DemoLeads(now, dayBefore)))
    ensures slot.Unparsable? ==> st == Store([], Unparsable)
    ensures slot.Saved? ==> st == Store(slot.leads, slot)
  {
    var leads := Load(slot, now, dayBefore);
    Store(leads, Persist(slot, leads))
  }

  /** One edit on the board, followed by the save effect. */
  datatype Edit =
    | Add(input: LeadInput, newId: string, createdAt: string)
    | SetStatus(id: string, status: LeadStatus)
    | SetNotes(id: string, notes: string)
    | Delete(id: string)

  function ApplyEdit(leads: seq<Lead>, e: Edit): seq<Lead> {
    match e
    case Add(input, newId, createdAt) => AddLead(leads, input, newId, createdAt)
    case SetStatus(id, status) => UpdateLeadStatus(leads, id, status)
    case SetNotes(id, notes) => UpdateLeadNotes(leads, id, notes)
    case Delete(id) => DeleteLead(leads, id)
  }

  /**
   * One edit: the matching handler runs on the list, then the save effect
   * puts the slot in sync with a non-empty result and leaves it alone for an
   * empty one.
   */
  function Step(st: Store, e: Edit): (r: Store)
    ensures e.Add? ==> r.leads == AddLead(st.leads, e.input, e.newId, e.createdAt)
    ensures e.SetStatus? ==> r.leads == UpdateLeadStatus(st.leads, e.id, e.status)
    ensures e.SetNotes? ==> r.leads == UpdateLeadNotes(st.leads, e.id, e.notes)
    ensures e.Delete? ==> r.leads == DeleteLead(st.leads, e.id)
    ensures InSync(r)
    ensures |r.leads| == 0 ==> r.slot == st.slot
  {
    var leads := ApplyEdit(st.leads, e);
    Store(leads, Persist(st.slot, leads))
  }

  // ---------------------------------------------------------------------------
  // properties of load and save
  // ---------------------------------------------------------------------------

  /** Mounting, and every edit after it, keeps the slot in step with a non-empty list. */
  lemma MountAndStepInSync(slot: Slot, now: string, dayBefore: string, st: Store, e: Edit)
    ensures InSync(Mount(slot, now, dayBefore))
    ensures InSync(Step(st, e))
  {
  }

  /** First use seeds the two demo leads and saves them. */
  lemma FirstMountSeeds(now: string, dayBefore: string)
    ensures Mount(Absent, now, dayBefore) == Store(DemoLeads(now, dayBefore), Saved(DemoLeads(now, dayBefore)))
  {
  }

  /** Unreadable storage gives an empty board and is left as it was, unreadable. */
  lemma UnparsableStaysUnparsable(now: string, dayBefore: string)
    ensures Mount(Unparsable, now, dayBefore) == Store([], Unparsable)
  {
  }

  /** A saved non-empty list survives a reload unchanged. */
  lemma ReloadRoundTrip(st: Store, now: string, dayBefore: string)
    requires InSync(st) && |st.leads| > 0
    ensures Mount(st.slot, now, dayBefore).leads == st.leads
  {
  }

  /**
   * Deleting the last lead is not saved: the slot keeps the list from before
   * the delete, and the next mount brings that lead back.
   */
  lemma DeletingLastLeadComesBack(l: Lead, now: string, dayBefore: string)
    ensures var st := Step(Store([l], Saved([l])), Delete(l.id));
      && st.leads == []
      && st.slot == Saved([l])
      && Mount(st.slot, now, dayBefore).leads == [l]
  {
    assert DeleteLead([l], l.id) == DeleteLead([l][1..], l.id);
  }
}

=== FILE: forms.dfy ===
/**
 * The honeypot check and the two whole-form validators, plus the error map
 * the pages keep per field.
 */
module Forms {
  import opened Wrappers
  import opened Text
  import opened Validators
  import opened Sanitizers

  /** The input names the two forms use, and the page-level `submit` slot. */
  datatype Field = ZipCode | ServiceType | Bedrooms | Bathrooms | Frequency
                 | Name | Email | Phone | Message | Gotcha | Submit

  /** `Record<string, string>` keyed by input name. */
  type Errors = map<Field, string>

  const BOT_DETECTED := "Bot detected"
  const SERVICE_REQUIRED := "Please select a service type"

  datatype ContactData = ContactData(name: string, email: string, phone: string, message: string, gotcha: string)

  datatype QuoteData = QuoteData(
    zipCode: string, serviceType: string, bedrooms: string, bathrooms: string,
    frequency: string, name: string, phone: string, email: string, gotcha: string)

  /** `{ isValid: true, sanitized }` or `{ isValid: false, errors }`. */
  datatype Validated<T> = Valid(sanitized: T) | Invalid(errors: Errors)

  // ---------------------------------------------------------------------------
  // honeypot
  // ---------------------------------------------------------------------------

  /** The hidden field holds something other than whitespace: a bot filled it. */
  function IsHoneypotFilled(value: string): (filled: bool)
    ensures filled <==> exists i | 0 <= i < |value| :: !IsSpace(value[i])
  {
    TrimEmptyIff(value);
    |Trim(value)| > 0
  }

  // ---------------------------------------------------------------------------
  // error maps
  // ---------------------------------------------------------------------------

  /** `errs` holds an entry for `f` exactly when `v` failed, and then holds its message. */
  predicate Reports(errs: Errors, f: Field, v: Verdict) {
    (f in errs <==> v.Fail?) && (f in errs ==> errs[f] == v.error)
  }

  /** Every message in the map is a non-empty string, so every entry is truthy. */
  predicate AllTruthy(errs: Errors) {
    forall f :: f in errs ==> errs[f] != ""
  }

  /** `if (cond) errors.<f> = v.error!` */
  function Note(errs: Errors, f: Field, v: Verdict): (r: Errors)
    ensures f !in errs ==> Reports(r, f, v)
    ensures forall g :: g != f ==> (g in r <==> g in errs) && (g in r ==> r[g] == errs[g])
  {
    if v.Fail? then errs[f := v.error] else errs
  }

  /**
   * The `if (errors[name]) delete errors[name]` step of both pages: an entry
   * is removed only when it is present and its message is truthy.
   */
  function ClearError(errs: Errors, f: Field): (r: Errors)
    ensures f in r ==> f in errs && errs[f] == "" && r[f] == ""
    ensures f in errs && errs[f] != "" ==> f !in r
    ensures forall g :: g != f ==> (g in r <==> g in errs) && (g in r ==> r[g] == errs[g])
  {
    if f in errs && errs[f] != "" then errs - {f} else errs
  }

  /** On a map of truthy messages, clearing a field removes exactly that field. */
  lemma ClearTruthy(errs: Errors, f: Field)
    requires AllTruthy(errs)
    ensures ClearError(errs, f) == errs - {f}
    ensures AllTruthy(ClearError(errs, f))
  {
  }

  // ---------------------------------------------------------------------------
  // validateContactForm
  // ---------------------------------------------------------------------------

  /**
   * The error map built from four field verdicts, in the order the source
   * checks them: one entry per failing field, nothing else, and empty
   * exactly when every field passed.
   */
  function Collect4(f1: Field, v1: Verdict, f2: Field, v2: Verdict, f3: Field, v3: Verdict, f4: Field, v4: Verdict): (e: Errors)
    requires f1 != f2 && f1 != f3 && f1 != f4 && f2 != f3 && f2 != f4 && f3 != f4
    ensures Reports(e, f1, v1) && Reports(e, f2, v2) && Reports(e, f3, v3) && Reports(e, f4, v4)
    ensures forall g :: g in e ==> g == f1 || g == f2 || g == f3 || g == f4
    ensures Submit in e ==> Submit == f1 || Submit == f2 || Submit == f3 || Submit == f4
    ensures |e| == 0 <==> v1.Pass? && v2.Pass? && v3.Pass? && v4.Pass?
    ensures HasMessage(v1) && HasMessage(v2) && HasMessage(v3) && HasMessage(v4) ==> AllTruthy(e)
  {
    var e0: Errors := map[];
    var e := Note(Note(Note(Note(e0, f1, v1), f2, v2), f3, v3), f4, v4);
    assert v1.Pass? && v2.Pass? && v3.Pass? && v4.Pass? ==> e.Keys == {};
    e
  }

  /** The contact form's per-field errors, before the honeypot is considered. */
  function ContactErrors(d: ContactData): (e: Errors)
  {
    Collect4(Name, ValidateName(d.name), Email, ValidateEmail(d.email),
             Phone, ValidatePhone(d.phone), Message, ValidateMessage(d.message))
  }

  /** The answer to a filled honeypot. */
  const BOT_ERRORS: Errors := map[Gotcha := BOT_DETECTED]

  lemma BotErrorsShape()
    ensures |BOT_ERRORS| == 1 && Gotcha in BOT_ERRORS && Submit !in BOT_ERRORS && AllTruthy(BOT_ERRORS)
  {
  }

  /** Every failing field gets its validator's message, and nothing else is reported. */
  lemma ContactErrorsReport(d: ContactData)
    ensures var e := ContactErrors(d);
      && Reports(e, Name, ValidateName(d.name)) && Reports(e, Email, ValidateEmail(d.email))
      && Reports(e, Phone, ValidatePhone(d.phone)) && Reports(e, Message, ValidateMessage(d.message))
      && forall g :: g in e ==> g == Name || g == Email || g == Phone || g == Message
  {
  }

  /** The bot error when the honeypot is filled, else the field errors if there are any. */
  function RefusalOf(bot: bool, fieldErrors: Errors): (o: Option<Errors>)
    ensures bot ==> o == Some(BOT_ERRORS)
    ensures !bot ==> (o.None? <==> |fieldErrors| == 0) && (o.Some? ==> o.value == fieldErrors)
  {
    if bot then Some(BOT_ERRORS) else if |fieldErrors| > 0 then Some(fieldErrors) else None
  }

  /**
   * The refusal half of `validateContactForm`, which is all the contact page
   * reads of it: the bot error alone for a filled honeypot, otherwise the
   * field errors, and nothing for a form that passes.
   */
  function ContactRefusal(d: ContactData): (o: Option<Errors>)
    ensures o.None? <==>
      && !IsHoneypotFilled(d.gotcha)
      && ValidateName(d.name).Pass? && ValidateEmail(d.email).Pass?
      && ValidatePhone(d.phone).Pass? && ValidateMessage(d.message).Pass?
  {
    RefusalOf(IsHoneypotFilled(d.gotcha), ContactErrors(d))
  }

  /** A filled honeypot gets the bot error and nothing else. */
  lemma ContactHoneypot(d: ContactData)
    requires IsHoneypotFilled(d.gotcha)
    ensures ContactRefusal(d) == Some(BOT_ERRORS)
  {
  }

  /** Without the honeypot, a refusal carries exactly the field errors. */
  lemma ContactRefusalIsFieldErrors(d: ContactData)
    requires !IsHoneypotFilled(d.gotcha) && ContactRefusal(d).Some?
    ensures ContactRefusal(d).value == ContactErrors(d)
  {
  }

  /** A refusal always says something, never in the page-level slot, and every message is truthy. */
  lemma ContactRefusalShape(d: ContactData)
    requires ContactRefusal(d).Some?
    ensures var e := ContactRefusal(d).value; |e| > 0 && Submit !in e && AllTruthy(e)
  {
    BotErrorsShape();
    NameMessagesNonEmpty(d.name);
    EmailMessagesNonEmpty(d.email);
    PhoneMessagesNonEmpty(d.phone);
    MessageMessagesNonEmpty(d.message);
  }

  /** The fields of an accepted contact form, as they are handed on. */
  function SanitizedContact(d: ContactData): ContactData {
    ContactData(SanitizeString(d.name), SanitizeEmail(d.email), SanitizePhone(d.phone), SanitizeMessage(d.message), "")
  }

  /** `validateContactForm`: the refusal if there is one, else the sanitized form. */
  function ValidateContactForm(d: ContactData): (r: Validated<ContactData>)
    ensures r.Valid? <==>
      && !IsHoneypotFilled(d.gotcha)
      && ValidateName(d.name).Pass? && ValidateEmail(d.email).Pass?
      && ValidatePhone(d.phone).Pass? && ValidateMessage(d.message).Pass?
  {
    match ContactRefusal(d)
    case Some(e) => Invalid(e)
    case None => Valid(SanitizedContact(d))
  }

  /** The page's reading of the result agrees with the refusal half. */
  lemma ContactRefusalAgrees(d: ContactData)
    ensures ValidateContactForm(d).Invalid? <==> ContactRefusal(d).Some?
    ensures ValidateContactForm(d).Invalid? ==> ValidateContactForm(d).errors == ContactRefusal(d).value
  {
  }

  /** An accepted form is handed on sanitized, with the honeypot emptied. */
  lemma ContactAccepted(d: ContactData)
    requires ValidateContactForm(d).Valid?
    ensures ValidateContactForm(d).sanitized == SanitizedContact(d)
  {
  }

  /** The message field fails exactly when it is blank or longer than 1000 code units. */
  lemma ContactMessageError(d: ContactData)
    requires !IsHoneypotFilled(d.gotcha)
    ensures ContactRefusal(d).Some? && Message in ContactRefusal(d).value
        <==> AllSpace(d.message) || Utf16Len(Trim(d.message)) > MESSAGE_MAX
  {
    ContactErrorsReport(d);
  }

  /** What an accepted contact form hands on is free of markup, control characters and stray spacing. */
  lemma AcceptedContactIsClean(d: ContactData)
    requires ValidateContactForm(d).Valid?
    ensures var s := ValidateContactForm(d).sanitized;
      && IsSanitizedString(s.name)
      && AllChars(s.email, NotAngle) && AllChars(s.email, NotUpper)
      && AllChars(s.phone, IsPhoneChar) && AllChars(s.phone, NotAngle) && IsTrimmed(s.phone)
      && IsSanitizedMessage(s.message)
      && s.gotcha == ""
  {
    ContactAccepted(d);
    SanitizePhoneHasNoAngles(d.phone);
  }

  /** Validating an accepted form's name, phone and message output again leaves them as they are. */
  lemma AcceptedContactIsStable(d: ContactData)
    requires ValidateContactForm(d).Valid?
    ensures var s := ValidateContactForm(d).sanitized;
      && SanitizeString(s.name) == s.name
      && SanitizePhone(s.phone) == s.phone
      && SanitizeMessage(s.message) == s.message
  {
    ContactAccepted(d);
    SanitizeStringIdempotent(d.name);
    SanitizePhoneIdempotent(d.phone);
    SanitizeMessageIdempotent(d.message);
  }

  // ---------------------------------------------------------------------------
  // validateQuoteForm
  // ---------------------------------------------------------------------------

  /** `!serviceType || serviceType.trim().length === 0` */
  function ValidateServiceType(serviceType: string): (v: Verdict)
    ensures v.Pass? <==> !AllSpace(serviceType)
    ensures v.Fail? ==> v.error == SERVICE_REQUIRED
  {
    TrimEmptyIff(serviceType);
    if serviceType == "" || |Trim(serviceType)| == 0 then Fail(SERVICE_REQUIRED) else Pass
  }

  /** As `Collect4`, with a fifth field. */
  function Collect5(f1: Field, v1: Verdict, f2: Field, v2: Verdict, f3: Field, v3: Verdict,
                    f4: Field, v4: Verdict, f5: Field, v5: Verdict): (e: Errors)
    requires f1 != f2 && f1 != f3 && f1 != f4 && f2 != f3 && f2 != f4 && f3 != f4
    requires f5 != f1 && f5 != f2 && f5 != f3 && f5 != f4
    ensures Reports(e, f1, v1) && Reports(e, f2, v2) && Reports(e, f3, v3) && Reports(e, f4, v4)
    ensures Reports(e, f5, v5)
    ensures forall g :: g in e ==> g == f1 || g == f2 || g == f3 || g == f4 || g == f5
    ensures Submit in e ==> Submit == f1 || Submit == f2 || Submit == f3 || Submit == f4 || Submit == f5
    ensures |e| == 0 <==> v1.Pass? && v2.Pass? && v3.Pass? && v4.Pass? && v5.Pass?
    ensures HasMessage(v1) && HasMessage(v2) && HasMessage(v3) && HasMessage(v4) && HasMessage(v5) ==> AllTruthy(e)
  {
    var e4 := Collect4(f1, v1, f2, v2, f3, v3, f4, v4);
    var e := Note(e4, f5, v5);
    assert v5.Pass? ==> e.Keys == e4.Keys;
    e
  }

  /** The quote form's per-field errors, before the honeypot is considered. */
  function QuoteErrors(d: QuoteData): (e: Errors)
  {
    Collect5(ZipCode, ValidateZipCode(d.zipCode), ServiceType, ValidateServiceType(d.serviceType),
             Name, ValidateName(d.name), Email, ValidateEmail(d.email), Phone, ValidatePhone(d.phone))
  }

  /** Every failing field gets its validator's message, and nothing else is reported. */
  lemma QuoteErrorsReport(d: QuoteData)
    ensures var e := QuoteErrors(d);
      && Reports(e, ZipCode, ValidateZipCode(d.zipCode))
      && (ServiceType in e <==> AllSpace(d.serviceType))
      && (ServiceType in e ==> e[ServiceType] == SERVICE_REQUIRED)
      && Reports(e, Name, ValidateName(d.name)) && Reports(e, Email, ValidateEmail(d.email))
      && Reports(e, Phone, ValidatePhone(d.phone))
      && forall g :: g in e ==> g == ZipCode || g == ServiceType || g == Name || g == Email || g == Phone
  {
  }

  /** The fields of an accepted quote form, as they are handed on: every field sanitized, rooms and frequency included. */
  function SanitizedQuote(d: QuoteData): QuoteData {
    QuoteData(
      SanitizeString(d.zipCode), SanitizeString(d.serviceType), SanitizeString(d.bedrooms),
      SanitizeString(d.bathrooms), SanitizeString(d.frequency), SanitizeString(d.name),
      SanitizePhone(d.phone), SanitizeEmail(d.email), "")
  }

  /**
   * The refusal half of `validateQuoteForm`, as for the contact form, over
   * ZIP code, service type, name, email and phone; rooms and frequency are
   * never checked.
   */
  function QuoteRefusal(d: QuoteData): (o: Option<Errors>)
    ensures o.None? <==>
      && !IsHoneypotFilled(d.gotcha)
      && ValidateZipCode(d.zipCode).Pass? && !AllSpace(d.serviceType)
      && ValidateName(d.name).Pass? && ValidateEmail(d.email).Pass? && ValidatePhone(d.phone).Pass?
  {
    RefusalOf(IsHoneypotFilled(d.gotcha), QuoteErrors(d))
  }

  lemma QuoteHoneypot(d: QuoteData)
    requires IsHoneypotFilled(d.gotcha)
    ensures QuoteRefusal(d) == Some(BOT_ERRORS)
  {
  }

  lemma QuoteRefusalIsFieldErrors(d: QuoteData)
    requires !IsHoneypotFilled(d.gotcha) && QuoteRefusal(d).Some?
    ensures QuoteRefusal(d).value == QuoteErrors(d)
  {
  }

  lemma QuoteRefusalShape(d: QuoteData)
    requires QuoteRefusal(d).Some?
    ensures var e := QuoteRefusal(d).value; |e| > 0 && Submit !in e && AllTruthy(e)
  {
    BotErrorsShape();
    ZipMessagesNonEmpty(d.zipCode);
    NameMessagesNonEmpty(d.name);
    EmailMessagesNonEmpty(d.email);
    PhoneMessagesNonEmpty(d.phone);
  }

  /** `validateQuoteForm`: the refusal if there is one, else the sanitized form. */
  function ValidateQuoteForm(d: QuoteData): (r: Validated<QuoteData>)
    ensures r.Valid? <==>
      && !IsHoneypotFilled(d.gotcha)
      && ValidateZipCode(d.zipCode).Pass? && !AllSpace(d.serviceType)
      && ValidateName(d.name).Pass? && ValidateEmail(d.email).Pass? && ValidatePhone(d.phone).Pass?
  {
    match QuoteRefusal(d)
    case Some(e) => Invalid(e)
    case None => Valid(SanitizedQuote(d))
  }

  lemma QuoteRefusalAgrees(d: QuoteData)
    ensures ValidateQuoteForm(d).Invalid? <==> QuoteRefusal(d).Some?
    ensures ValidateQuoteForm(d).Invalid? ==> ValidateQuoteForm(d).errors == QuoteRefusal(d).value
  {
  }

  lemma QuoteAccepted(d: QuoteData)
    requires ValidateQuoteForm(d).Valid?
    ensures ValidateQuoteForm(d).sanitized == SanitizedQuote(d)
  {
  }
}

=== FILE: pipeline.dfy ===
/**
 * The observable steps a form submission goes through, in order. Both pages
 * report a submission as the trace of the steps it reached.
 */
module Pipeline {

  /** One JSON body field. */
  datatype Pair = Pair(key: string, value: string)

  datatype Effect =
    | Waited(ms: nat)                      // the minimum-fill-time pause
    | RateChecked                          // `checkRateLimit()`
    | Validated                            // `validateContactForm` / `validateQuoteForm`
    | Recorded                             // `recordSubmitAttempt()`
    | Busy                                 // `setIsSubmitting(true)`
    | Sent(url: string, body: seq<Pair>)   // the `fetch` POST

  /** How far a submission got before it stopped. */
  datatype Reached =
    | InFlight      // another submission was still running
    | RateLimited   // the rate limit refused
    | Rejected      // the form did not validate
    | Unavailable   // there was no endpoint to post to
    | Dispatched    // the attempt was recorded and the POST made

  /**
   * The effects a submission that got as far as `reached` performs; `pre`
   * are the effects between the in-flight check and the rate check.
   */
  function TraceOf(reached: Reached, pre: seq<Effect>, url: string, body: seq<Pair>): seq<Effect> {
    match reached
    case InFlight => []
    case RateLimited => pre + [RateChecked]
    case Rejected => pre + [RateChecked, Validated]
    case Unavailable => pre + [RateChecked, Validated]
    case Dispatched => pre + [RateChecked, Validated, Recorded, Busy, Sent(url, body)]
  }

  /** The number of times `e` occurs in `trace`. */
  function Count(trace: seq<Effect>, e: Effect): (n: nat)
    ensures n <= |trace|
    ensures n == 0 <==> e !in trace
  {
    if |trace| == 0 then 0
    else (if trace[0] == e then 1 else 0) + Count(trace[1..], e)
  }

  /** `a` happens somewhere strictly before `b`. */
  predicate Before(trace: seq<Effect>, a: Effect, b: Effect) {
    exists i, j | 0 <= i < j < |trace| :: trace[i] == a && trace[j] == b
  }

  /** Some send occurs in the trace. */
  predicate HasSend(trace: seq<Effect>) {
    exists i | 0 <= i < |trace| :: trace[i].Sent?
  }

  /** A dispatched submission posts the body it was given to the url it was given. */
  lemma DispatchedSends(pre: seq<Effect>, url: string, body: seq<Pair>)
    ensures Sent(url, body) in TraceOf(Dispatched, pre, url, body)
  {
    assert TraceOf(Dispatched, pre, url, body)[|pre| + 4] == Sent(url, body);
  }

  /** Counting over a concatenation adds up. */
  lemma {:induction false} CountAppend(a: seq<Effect>, b: seq<Effect>, e: Effect)
    ensures Count(a + b, e) == Count(a, e) + Count(b, e)
  {
    if |a| > 0 {
      assert (a + b)[1..] == a[1..] + b;
      CountAppend(a[1..], b, e);
    } else {
      assert a + b == b;
    }
  }

  /** An effect that occurs at exactly one place occurs once. */
  lemma CountOnce(pre: seq<Effect>, e: Effect, post: seq<Effect>)
    requires e !in pre && e !in post
    ensures Count(pre + [e] + post, e) == 1
  {
    CountAppend(pre + [e], post, e);
    CountAppend(pre, [e], e);
  }

  /** At most one attempt is recorded, a send happens only with one, and always after it. */
  predicate RecordsBeforeSend(t: seq<Effect>) {
    && Count(t, Recorded) <= 1
    && (HasSend(t) <==> Recorded in t)
    && (forall i | 0 <= i < |t| && t[i].Sent? :: Before(t, Recorded, t[i]))
  }

  /** A trace that stops before recording sends nothing. */
  lemma QuietTrace(t: seq<Effect>)
    requires Recorded !in t && !HasSend(t)
    ensures RecordsBeforeSend(t)
  {
  }

  /** A trace that records, goes busy and sends, after steps that did neither. */
  lemma SendingTrace(pre: seq<Effect>, url: string, body: seq<Pair>)
    requires Recorded !in pre && !HasSend(pre)
    ensures RecordsBeforeSend(pre + [Recorded, Busy, Sent(url, body)])
  {
    var t := pre + [Recorded, Busy, Sent(url, body)];
    var n := |pre|;
    assert t == pre + [Recorded] + [Busy, Sent(url, body)];
    CountOnce(pre, Recorded, [Busy, Sent(url, body)]);
    assert t[n] == Recorded && t[n + 2].Sent?;
    forall i | 0 <= i < |t| && t[i].Sent? ensures Before(t, Recorded, t[i]) {
      assert i == n + 2;
    }
  }

  /**
   * Whatever a submission reached, it records at most once and only sends
   * after recording; it records exactly when it was dispatched.
   */
  lemma TraceOfRecordsBeforeSend(reached: Reached, pre: seq<Effect>, url: string, body: seq<Pair>)
    requires Recorded !in pre && !HasSend(pre)
    ensures RecordsBeforeSend(TraceOf(reached, pre, url, body))
    ensures Recorded in TraceOf(reached, pre, url, body) <==> reached == Dispatched
  {
    var t := TraceOf(reached, pre, url, body);
    match reached
    case InFlight => QuietTrace(t);
    case RateLimited =>
      assert t[|pre|] == RateChecked;
      QuietTrace(t);
    case Rejected =>
      assert t[|pre|] == RateChecked && t[|pre| + 1] == Validated;
      QuietTrace(t);
    case Unavailable =>
      assert t[|pre|] == RateChecked && t[|pre| + 1] == Validated;
      QuietTrace(t);
    case Dispatched =>
      SendingTrace(pre + [RateChecked, Validated], url, body);
      assert t == pre + [RateChecked, Validated] + [Recorded, Busy, Sent(url, body)];
  }
}

=== FILE: quote_wizard.dfy ===
/**
 * The four-step quote wizard: 1 city and ZIP, 2 service, 3 rooms and
 * frequency, 4 contact details and submit. Every handler is a transition on
 * the page state; the rate-limit store, the clock, the form id and the
 * outcome of the POST are parameters.
 */
module QuoteWizard {
  import opened Wrappers
  import opened Text
  import opened Validators
  import opened Forms
  import opened Pipeline
  import RateLimit
  import Config

  const FIRST_STEP := 1
  const LAST_STEP := 4

  const PICK_CITY := "Pick your city"
  const ENTER_ZIP := "Enter ZIP"
  const PICK_SERVICE := "Pick a service"
  const FORM_UNAVAILABLE := "Form unavailable. Call us."
  const SEND_FAILED := "Automatic submission failed."
  const OTHER_CITY := "Other"

  /** The city buttons, "Other" last. */
  const CITIES: seq<string> :=
    ["Hammond", "Hobart", "Merrillville", "Crown Point", "Valparaiso", "Schererville", "St. John", "Lowell", "Other"]

  /** `cityZipMap`: one served ZIP per named city. */
  const CITY_ZIP: map<string, string> := map[
    "Hammond" := "46320", "Hobart" := "46342", "Merrillville" := "46410", "Crown Point" := "46307",
    "Valparaiso" := "46383", "Schererville" := "46375", "St. John" := "46373", "Lowell" := "46356"
  ]

  datatype State = State(
    step: int,
    selectedCity: string,
    formData: QuoteData,
    errors: Errors,
    rateLimitError: Option<string>,
    fallbackMode: bool,
    submitted: bool,
    isSubmitting: bool)

  const INITIAL_DATA := QuoteData("", "", "3", "2", "one-time", "", "", "", "")
  const INITIAL := State(FIRST_STEP, "", INITIAL_DATA, map[], None, false, false, false)

  predicate StepInRange(s: State) {
    FIRST_STEP <= s.step <= LAST_STEP
  }

  // ---------------------------------------------------------------------------
  // form fields
  // ---------------------------------------------------------------------------

  /** The value of an input of the quote form; `None` for a name the form does not have. */
  function QuoteField(d: QuoteData, f: Field): Option<string> {
    match f
    case ZipCode => Some(d.zipCode)
    case ServiceType => Some(d.serviceType)
    case Bedrooms => Some(d.bedrooms)
    case Bathrooms => Some(d.bathrooms)
    case Frequency => Some(d.frequency)
    case Name => Some(d.name)
    case Phone => Some(d.phone)
    case Email => Some(d.email)
    case Gotcha => Some(d.gotcha)
    case Message => None
    case Submit => None
  }

  /** `{ ...formData, [name]: value }` */
  function SetQuoteField(d: QuoteData, f: Field, v: string): (r: QuoteData)
    ensures QuoteField(d, f).Some? ==> QuoteField(r, f) == Some(v)
    ensures QuoteField(d, f).None? ==> r == d
    ensures forall g :: g != f ==> QuoteField(r, g) == QuoteField(d, g)
  {
    match f
    case ZipCode => d.(zipCode := v)
    case ServiceType => d.(serviceType := v)
    case Bedrooms => d.(bedrooms := v)
    case Bathrooms => d.(bathrooms := v)
    case Frequency => d.(frequency := v)
    case Name => d.(name := v)
    case Phone => d.(phone := v)
    case Email => d.(email := v)
    case Gotcha => d.(gotcha := v)
    case Message => d
    case Submit => d
  }

  /** Two quote forms that agree on every input are the same form. */
  lemma QuoteFieldsDetermineData(a: QuoteData, b: QuoteData)
    requires forall f :: QuoteField(a, f) == QuoteField(b, f)
    ensures a == b
  {
    assert QuoteField(a, ZipCode) == QuoteField(b, ZipCode);
    assert QuoteField(a, ServiceType) == QuoteField(b, ServiceType);
    assert QuoteField(a, Bedrooms) == QuoteField(b, Bedrooms);
    assert QuoteField(a, Bathrooms) == QuoteField(b, Bathrooms);
    assert QuoteField(a, Frequency) == QuoteField(b, Frequency);
    assert QuoteField(a, Name) == QuoteField(b, Name);
    assert QuoteField(a, Phone) == QuoteField(b, Phone);
    assert QuoteField(a, Email) == QuoteField(b, Email);
    assert QuoteField(a, Gotcha) == QuoteField(b, Gotcha);
  }

  // ---------------------------------------------------------------------------
  // handlers
  // ---------------------------------------------------------------------------

  /** `handleChange`: writes the named input and clears that input's error, if truthy. */
  function Change(s: State, f: Field, v: string): (r: State)
    ensures QuoteField(s.formData, f).Some? ==> QuoteField(r.formData, f) == Some(v)
    ensures forall g :: g != f ==> QuoteField(r.formData, g) == QuoteField(s.formData, g)
    ensures r.errors == ClearError(s.errors, f)
    ensures r == s.(formData := r.formData, errors := r.errors)
  {
    s.(errors := ClearError(s.errors, f), formData := SetQuoteField(s.formData, f, v))
  }

  /** The inputs wired to `handleChange`; frequency has no input and the service is chosen by buttons. */
  predicate HasChangeInput(f: Field) {
    f.ZipCode? || f.Bedrooms? || f.Bathrooms? || f.Name? || f.Email? || f.Phone? || f.Gotcha?
  }

  /** A service button: `setFormData({ ...formData, serviceType: value })`, the errors left alone. */
  function ChooseService(s: State, value: string): (r: State)
    ensures r.formData.serviceType == value
    ensures forall g :: g != ServiceType ==> QuoteField(r.formData, g) == QuoteField(s.formData, g)
    ensures r == s.(formData := r.formData)
  {
    s.(formData := s.formData.(serviceType := value))
  }

  /** `cityZipMap[city] ?? ''` */
  function CityZip(city: string): (zip: string)
    ensures city in CITY_ZIP ==> zip == CITY_ZIP[city]
    ensures city !in CITY_ZIP ==> zip == ""
  {
    if city in CITY_ZIP then CITY_ZIP[city] else ""
  }

  /** `handleCitySelect`: remembers the city, fills in its ZIP and clears only the ZIP error. */
  function CitySelect(s: State, city: string): (r: State)
    ensures r.selectedCity == city
    ensures r.formData == s.formData.(zipCode := CityZip(city))
    ensures r.errors == ClearError(s.errors, ZipCode)
    ensures r == s.(selectedCity := city, formData := r.formData, errors := r.errors)
  {
    s.(selectedCity := city,
       errors := if ZipCode in s.errors && s.errors[ZipCode] != "" then s.errors - {ZipCode} else s.errors,
       formData := s.formData.(zipCode := CityZip(city)))
  }

  /** The error that keeps step 1 from advancing, if any. */
  function CityGate(s: State): (e: Option<string>)
    ensures e.None? <==>
      s.selectedCity != "" && !(s.selectedCity == OTHER_CITY && s.formData.zipCode == "")
      && ValidateZipCode(s.formData.zipCode).Pass?
  {
    if s.selectedCity == "" then Some(PICK_CITY)
    else if s.selectedCity == OTHER_CITY && s.formData.zipCode == "" then Some(ENTER_ZIP)
    else
      var v := ValidateZipCode(s.formData.zipCode);
      if v.Fail? then Some(v.error) else None
  }

  /**
   * `handleNext`: step 1 is gated on the city and a served ZIP, step 2 on a
   * chosen service; a failed gate replaces the whole error map with one
   * entry. A passed gate moves on without touching the errors.
   */
  function Next(s: State): (r: State)
    ensures r == s.(step := r.step, errors := r.errors)
    ensures r.step == s.step || (r.step == s.step + 1 && s.step < LAST_STEP)
    ensures s.step == 1 && CityGate(s).Some? ==> r == s.(errors := map[ZipCode := CityGate(s).value])
    ensures s.step == 2 && s.formData.serviceType == "" ==> r == s.(errors := map[ServiceType := PICK_SERVICE])
    ensures r.step == s.step + 1 <==>
      && s.step < LAST_STEP
      && (s.step == 1 ==> CityGate(s).None?)
      && (s.step == 2 ==> s.formData.serviceType != "")
    ensures r.step == s.step + 1 ==> r.errors == s.errors
  {
    if s.step == 1 && CityGate(s).Some? then
      s.(errors := map[ZipCode := CityGate(s).value])
    else if s.step == 2 && s.formData.serviceType == "" then
      s.(errors := map[ServiceType := PICK_SERVICE])
    else if s.step < LAST_STEP then
      s.(step := s.step + 1)
    else
      s
  }

  /** The Back button: shown only past step 1, disabled while a submission is in flight. */
  function Back(s: State): (r: State)
    ensures r == s.(step := r.step)
    ensures r.step == (if s.step > FIRST_STEP && !s.isSubmitting then s.step - 1 else s.step)
  {
    if s.step > FIRST_STEP && !s.isSubmitting then s.(step := s.step - 1) else s
  }

  // ---------------------------------------------------------------------------
  // submit
  // ---------------------------------------------------------------------------

  /** The inputs the page posts, in order, and their JSON keys. */
  const PAYLOAD_FIELDS: seq<Field> := [Name, Email, Phone, ZipCode, ServiceType, Bedrooms, Bathrooms, Frequency]
  const PAYLOAD_KEYS: seq<string> :=
    ["name", "email", "phone", "zipCode", "serviceType", "bedrooms", "bathrooms", "frequency"]

  /** What the page sends: the raw fields, a subject line and `_captcha: 'false'`. */
  function QuotePayload(d: QuoteData): (body: seq<Pair>)
    ensures |body| == 10
    ensures forall i :: 0 <= i < 8 ==>
      QuoteField(d, PAYLOAD_FIELDS[i]).Some? && body[i] == Pair(PAYLOAD_KEYS[i], QuoteField(d, PAYLOAD_FIELDS[i]).value)
    ensures body[8] == Pair("_subject", "Quote: " + d.name + " - " + d.serviceType)
    ensures body[9] == Pair("_captcha", "false")
    ensures forall i :: 0 <= i < |body| ==> body[i].key != "_gotcha"
  {
    [ Pair("name", d.name), Pair("email", d.email), Pair("phone", d.phone),
      Pair("zipCode", d.zipCode), Pair("serviceType", d.serviceType),
      Pair("bedrooms", d.bedrooms), Pair("bathrooms", d.bathrooms), Pair("frequency", d.frequency),
      Pair("_subject", "Quote: " + d.name + " - " + d.serviceType), Pair("_captcha", "false") ]
  }

  /** The payload carries every input but the honeypot: two forms post the same body exactly when they differ at most there. */
  lemma QuotePayloadOmitsHoneypot(a: QuoteData, b: QuoteData)
    ensures QuotePayload(a) == QuotePayload(b) <==> a.(gotcha := "") == b.(gotcha := "")
  {
    if QuotePayload(a) == QuotePayload(b) {
      forall i | 0 <= i < 8 ensures QuoteField(a, PAYLOAD_FIELDS[i]) == QuoteField(b, PAYLOAD_FIELDS[i]) {
        assert QuotePayload(a)[i] == QuotePayload(b)[i];
      }
      assert QuoteField(a, PAYLOAD_FIELDS[0]) == QuoteField(b, PAYLOAD_FIELDS[0]);
      assert QuoteField(a, PAYLOAD_FIELDS[1]) == QuoteField(b, PAYLOAD_FIELDS[1]);
      assert QuoteField(a, PAYLOAD_FIELDS[2]) == QuoteField(b, PAYLOAD_FIELDS[2]);
      assert QuoteField(a, PAYLOAD_FIELDS[3]) == QuoteField(b, PAYLOAD_FIELDS[3]);
      assert QuoteField(a, PAYLOAD_FIELDS[4]) == QuoteField(b, PAYLOAD_FIELDS[4]);
      assert QuoteField(a, PAYLOAD_FIELDS[5]) == QuoteField(b, PAYLOAD_FIELDS[5]);
      assert QuoteField(a, PAYLOAD_FIELDS[6]) == QuoteField(b, PAYLOAD_FIELDS[6]);
      assert QuoteField(a, PAYLOAD_FIELDS[7]) == QuoteField(b, PAYLOAD_FIELDS[7]);
    }
  }

  const WAIT_PREFIX := "Wait "
  const WAIT_SUFFIX := " min before trying again."

  /** The rate-limit banner: the fixed text around the rendered minutes. */
  function WaitMessage(minutes: nat): (m: string)
    ensures |m| == |WAIT_PREFIX| + |NatToString(minutes)| + |WAIT_SUFFIX|
    ensures m[..|WAIT_PREFIX|] == WAIT_PREFIX
    ensures m[|m| - |WAIT_SUFFIX|..] == WAIT_SUFFIX
    ensures m[|WAIT_PREFIX|..|m| - |WAIT_SUFFIX|] == NatToString(minutes)
  {
    WAIT_PREFIX + NatToString(minutes) + WAIT_SUFFIX
  }

  /** The banner's number reads back as the minutes it was built from. */
  lemma WaitMessageNamesWait(minutes: nat)
    ensures var m := WaitMessage(minutes);
      var digits := m[|WAIT_PREFIX|..|m| - |WAIT_SUFFIX|];
      AllChars(digits, IsDigit) && DigitsValue(digits) == minutes
  {
    NatToStringRoundTrip(minutes);
  }

  /** The page state, the rate-limit store and the effects after a submit. */
  datatype Submission = Submission(state: State, store: RateLimit.Store, reached: Reached, trace: seq<Effect>)

  /** The POST and what the page shows afterwards; `isSubmitting` is dropped on both outcomes. */
  function Dispatch(cleared: State, store: RateLimit.Store, now: int, url: string, body: seq<Pair>, sendOk: bool): (out: Submission)
    ensures out.store == RateLimit.RecordSubmitAttempt(store, now)
    ensures out.reached == Dispatched
    ensures sendOk ==> out.state == cleared.(submitted := true, isSubmitting := false)
    ensures !sendOk ==>
      out.state == cleared.(fallbackMode := true, errors := map[Submit := SEND_FAILED], isSubmitting := false)
  {
    var recorded := RateLimit.RecordSubmitAttempt(store, now);
    var busy := cleared.(isSubmitting := true);
    var done := if sendOk then busy.(submitted := true)
                else busy.(fallbackMode := true, errors := map[Submit := SEND_FAILED]);
    Submission(done.(isSubmitting := false), recorded, Dispatched, TraceOf(Dispatched, [], url, body))
  }

  /**
   * `handleSubmit`, run to completion. `formId` is the configured Formspree
   * id and `sendOk` whether the POST answered with a 2xx status. The stages
   * run in order and each failing stage stops the rest.
   */
  function HandleSubmit(s: State, store: RateLimit.Store, now: int, formId: Option<string>, sendOk: bool): (out: Submission)
    ensures out.state.step == s.step && out.state.selectedCity == s.selectedCity
    ensures out.state.formData == s.formData
    ensures !out.state.isSubmitting || s.isSubmitting
    ensures out.trace == TraceOf(out.reached, [], Config.Endpoint(formId), QuotePayload(s.formData))
    ensures !store.writable ==> out.store == store
  {
    var cleared := s.(errors := map[], rateLimitError := None);
    var url := Config.Endpoint(formId);
    var body := QuotePayload(s.formData);
    if s.isSubmitting then Submission(cleared, store, InFlight, TraceOf(InFlight, [], url, body))
    else
      var rl := RateLimit.CheckRateLimit(store, now);
      if rl.decision.Refused? then
        Submission(cleared.(rateLimitError := Some(WaitMessage(rl.decision.waitMinutes))), rl.store,
                   RateLimited, TraceOf(RateLimited, [], url, body))
      else
        var v := QuoteRefusal(s.formData);
        if v.Some? then
          Submission(cleared.(errors := v.value), rl.store, Rejected, TraceOf(Rejected, [], url, body))
        else if url == "" then
          Submission(cleared.(errors := map[Submit := FORM_UNAVAILABLE]), rl.store, Unavailable,
                     TraceOf(Unavailable, [], url, body))
        else
          Dispatch(cleared, rl.store, now, url, body, sendOk)
  }

  /** Each stage stops the pipeline exactly when its check fails; the endpoint check never does. */
  lemma SubmitStages(s: State, store: RateLimit.Store, now: int, formId: Option<string>, sendOk: bool)
    ensures var out := HandleSubmit(s, store, now, formId, sendOk);
      var allowed := RateLimit.CheckRateLimit(store, now).decision.Allowed?;
      && (out.reached == InFlight <==> s.isSubmitting)
      && (out.reached == RateLimited <==> !s.isSubmitting && !allowed)
      && (out.reached == Rejected <==> !s.isSubmitting && allowed && QuoteRefusal(s.formData).Some?)
      && (out.reached == Dispatched <==> !s.isSubmitting && allowed && QuoteRefusal(s.formData).None?)
      && out.reached != Unavailable
  {
  }

  /** A submit while one is in flight only clears the messages. */
  lemma SubmitWhileInFlight(s: State, store: RateLimit.Store, now: int, formId: Option<string>, sendOk: bool)
    requires s.isSubmitting
    ensures var out := HandleSubmit(s, store, now, formId, sendOk);
      out.state == s.(errors := map[], rateLimitError := None) && out.store == store && out.reached == InFlight
  {
  }

  /** A rate-limit refusal shows the wait and stops before validation, recording and sending. */
  lemma SubmitRateLimited(s: State, store: RateLimit.Store, now: int, formId: Option<string>, sendOk: bool)
    requires !s.isSubmitting && RateLimit.CheckRateLimit(store, now).decision.Refused?
    ensures var out := HandleSubmit(s, store, now, formId, sendOk);
      var c := RateLimit.CheckRateLimit(store, now);
      && out.state == s.(errors := map[], rateLimitError := Some(WaitMessage(c.decision.waitMinutes)))
      && out.store == c.store
      && out.reached == RateLimited
  {
  }

  /** A form that does not validate shows its errors; nothing is recorded or sent. */
  lemma SubmitRejected(s: State, store: RateLimit.Store, now: int, formId: Option<string>, sendOk: bool)
    requires !s.isSubmitting && RateLimit.CheckRateLimit(store, now).decision.Allowed?
    requires QuoteRefusal(s.formData).Some?
    ensures var out := HandleSubmit(s, store, now, formId, sendOk);
      && out.state == s.(errors := QuoteRefusal(s.formData).value, rateLimitError := None)
      && out.store == store
      && out.reached == Rejected
  {
  }

  /**
   * A valid form is recorded once and posted: success shows the thank-you
   * screen, failure switches to the fallback with one `submit` error. The
   * form data survives either way.
   */
  lemma SubmitDispatched(s: State, store: RateLimit.Store, now: int, formId: Option<string>, sendOk: bool)
    requires !s.isSubmitting && RateLimit.CheckRateLimit(store, now).decision.Allowed?
    requires QuoteRefusal(s.formData).None?
    ensures var out := HandleSubmit(s, store, now, formId, sendOk);
      && out.store == RateLimit.RecordSubmitAttempt(store, now)
      && (sendOk ==> out.state == s.(errors := map[], rateLimitError := None, submitted := true))
      && (!sendOk ==> out.state == s.(errors := map[Submit := SEND_FAILED], rateLimitError := None,
                                      fallbackMode := true))
  {
  }

  // ---------------------------------------------------------------------------
  // properties
  // ---------------------------------------------------------------------------

  /** The city map covers exactly the service cities, each with an allowlisted ZIP. */
  lemma CityMapMatchesServiceCities()
    ensures forall c :: c in CITY_ZIP <==> c in Config.SERVICE_CITIES
    ensures forall c :: c in CITY_ZIP ==> CITY_ZIP[c] in VALID_ZIP_CODES
    ensures CITIES == Config.SERVICE_CITIES + [OTHER_CITY]
  {
  }

  /** Choosing any named city and pressing Next moves from step 1 to step 2. */
  lemma NamedCityAdvances(s: State, city: string)
    requires s.step == 1 && city in Config.SERVICE_CITIES
    ensures Next(CitySelect(s, city)).step == 2
  {
    var t := CitySelect(s, city);
    assert CityGate(t).None? by {
      ServiceCityServed(city);
      AllowlistedZipAccepted(CITY_ZIP[city]);
      assert t.formData.zipCode == CITY_ZIP[city];
    }
  }

  lemma ServiceCityServed(city: string)
    requires city in Config.SERVICE_CITIES
    ensures city in CITY_ZIP && CITY_ZIP[city] in VALID_ZIP_CODES
    ensures city != OTHER_CITY && city != ""
  {
  }

  /**
   * A service button does not clear a "Pick a service" error: once a
   * service is chosen, Next moves on to step 3 with the error still set,
   * and Back shows it again on step 2.
   */
  lemma ServiceErrorOutlivesChoice(s: State, value: string)
    requires s.step == 2 && value != ""
    ensures var t := Next(ChooseService(s, value));
      t.step == 3 && t.errors == s.errors && t.formData.serviceType == value
    ensures var t := Next(ChooseService(s, value));
      !s.isSubmitting ==> Back(t).step == 2 && Back(t).errors == s.errors
  {
  }

  /** "Other" with nothing typed in yet asks for a ZIP. */
  lemma OtherCityNeedsZip(s: State)
    requires s.step == 1
    ensures Next(CitySelect(s, OTHER_CITY)).errors == map[ZipCode := ENTER_ZIP]
    ensures Next(CitySelect(s, OTHER_CITY)).step == 1
  {
    var t := CitySelect(s, OTHER_CITY);
    assert t.formData.zipCode == "" by {
      assert OTHER_CITY !in CITY_ZIP;
    }
    assert CityGate(t) == Some(ENTER_ZIP);
  }

  /**
   * An attempt is recorded only when the rate limit allowed it and the form
   * validated, at most once, and always before the send.
   */
  lemma RecordOnlyAfterChecks(s: State, store: RateLimit.Store, now: int, formId: Option<string>, sendOk: bool)
    ensures var out := HandleSubmit(s, store, now, formId, sendOk);
      && (Recorded in out.trace <==>
           !s.isSubmitting && RateLimit.CheckRateLimit(store, now).decision.Allowed?
           && QuoteRefusal(s.formData).None?)
      && RecordsBeforeSend(out.trace)
  {
    var out := HandleSubmit(s, store, now, formId, sendOk);
    SubmitStages(s, store, now, formId, sendOk);
    TraceOfRecordsBeforeSend(out.reached, [], Config.Endpoint(formId), QuotePayload(s.formData));
  }

  // ---------------------------------------------------------------------------
  // runs of the wizard
  // ---------------------------------------------------------------------------

  /** The user's actions on the page. */
  datatype Action =
    | PickCity(city: string)
    | PickService(value: string)
    | Edit(field: Field, value: string)
    | PressNext
    | PressBack
    | PressSubmit(now: int, formId: Option<string>, sendOk: bool)

  /** One action applied to the page state and the rate-limit store. */
  function Step(s: State, store: RateLimit.Store, a: Action): (r: (State, RateLimit.Store))
    ensures StepInRange(s) ==> StepInRange(r.0)
    ensures !a.PressSubmit? ==> r.1 == store
    ensures !store.writable ==> r.1 == store
    ensures r.0.formData.frequency == s.formData.frequency
    ensures !a.PickService? ==> r.0.formData.serviceType == s.formData.serviceType
  {
    match a
    case PickCity(city) => (CitySelect(s, city), store)
    case PickService(v) => (ChooseService(s, v), store)
    case Edit(f, v) => (if HasChangeInput(f) then Change(s, f, v) else s, store)
    case PressNext => (Next(s), store)
    case PressBack => (Back(s), store)
    case PressSubmit(now, formId, sendOk) =>
      var out := HandleSubmit(s, store, now, formId, sendOk);
      (out.state, out.store)
  }

  function Run(s: State, store: RateLimit.Store, actions: seq<Action>): (State, RateLimit.Store)
    decreases |actions|
  {
    if |actions| == 0 then (s, store)
    else
      var r := Step(s, store, actions[0]);
      Run(r.0, r.1, actions[1..])
  }

  /** Whatever the user does, the wizard stays on one of its four steps. */
  lemma {:induction false} RunKeepsStepInRange(s: State, store: RateLimit.Store, actions: seq<Action>)
    requires StepInRange(s)
    ensures StepInRange(Run(s, store, actions).0)
    decreases |actions|
  {
    if |actions| > 0 {
      var r := Step(s, store, actions[0]);
      RunKeepsStepInRange(r.0, r.1, actions[1..]);
    }
  }

  predicate IsNavigation(a: Action) {
    a.PressNext? || a.PressBack?
  }

  /** Moving back and forth between steps never loses what was typed or the chosen city. */
  lemma {:induction false} NavigationKeepsData(s: State, store: RateLimit.Store, actions: seq<Action>)
    requires forall i | 0 <= i < |actions| :: IsNavigation(actions[i])
    ensures Run(s, store, actions).0.formData == s.formData
    ensures Run(s, store, actions).0.selectedCity == s.selectedCity
    ensures Run(s, store, actions).1 == store
    decreases |actions|
  {
    if |actions| > 0 {
      var r := Step(s, store, actions[0]);
      assert IsNavigation(actions[0]);
      NavigationKeepsData(r.0, r.1, actions[1..]);
    }
  }

  /**
   * No input writes the frequency, and only the service buttons write the
   * service: a run without them keeps the chosen service.
   */
  lemma {:induction false} RunKeepsUnwiredFields(s: State, store: RateLimit.Store, actions: seq<Action>)
    ensures Run(s, store, actions).0.formData.frequency == s.formData.frequency
    ensures (forall i | 0 <= i < |actions| :: !actions[i].PickService?) ==>
      Run(s, store, actions).0.formData.serviceType == s.formData.serviceType
    decreases |actions|
  {
    if |actions| > 0 {
      var r := Step(s, store, actions[0]);
      RunKeepsUnwiredFields(r.0, r.1, actions[1..]);
      if forall i | 0 <= i < |actions| :: !actions[i].PickService? {
        assert forall i | 0 <= i < |actions[1..]| :: !actions[1..][i].PickService? by {
          forall i | 0 <= i < |actions[1..]| ensures !actions[1..][i].PickService? {
            assert actions[1..][i] == actions[i + 1];
          }
        }
      }
    }
  }

  /** With storage that throws on every access, a submit is never rate-limited and leaves the storage alone. */
  lemma DisabledStorageNeverLimits(s: State, now: int, formId: Option<string>, sendOk: bool)
    ensures var out := HandleSubmit(s, RateLimit.DISABLED, now, formId, sendOk);
      out.reached != RateLimited && out.store == RateLimit.DISABLED
  {
    RateLimit.FailsOpen(RateLimit.DISABLED, now);
  }

  /** A whole run of the wizard on storage that refuses writes leaves it as it was. */
  lemma {:induction false} RunOnUnwritableStorage(s: State, store: RateLimit.Store, actions: seq<Action>)
    requires !store.writable
    ensures Run(s, store, actions).1 == store
    decreases |actions|
  {
    if |actions| > 0 {
      RunOnUnwritableStorage(Step(s, store, actions[0]).0, store, actions[1..]);
    }
  }
}

=== FILE: rate_limit.dfy ===
/**
 * The persisted sliding-window rate limiter. Storage is an explicit value:
 * the entry under the rate-limit key (`None` for an absent entry, unparsable
 * JSON, or storage that cannot be read) and whether writes take effect
 * (`saveRateLimitState` and `resetRateLimit` swallow a failed write). The
 * clock is the explicit `now` parameter (milliseconds).
 */
module RateLimit {
  import opened Wrappers

  const MAX_ATTEMPTS := 3
  const TIME_WINDOW_MS := 10 * 60 * 1000
  const COOLDOWN_MS := 10 * 60 * 1000
  const MS_PER_MINUTE := 60000

  /** The parsed entry; `attempts` is `None` when the stored field is not an array. */
  datatype Entry = Entry(attempts: Option<seq<int>>, blockedUntil: Option<int>)

  /** `localStorage` as the limiter sees it. */
  datatype Store = Store(entry: Option<Entry>, writable: bool)

  /** Working storage with nothing saved yet. */
  const EMPTY := Store(None, true)

  /** Storage that throws on every access, as when it is disabled. */
  const DISABLED := Store(None, false)

  /** `RateLimitState` as read back. */
  datatype State = State(attempts: seq<int>, blockedUntil: Option<int>)

  datatype Decision = Allowed | Refused(waitMinutes: int)

  /** A check's answer and the store it leaves behind. */
  datatype Checked = Checked(decision: Decision, store: Store)

  /**
   * `getRateLimitState`: an absent or unreadable entry reads as no attempts;
   * a stored `attempts` that is not an array reads as none.
   */
  function ReadState(store: Store): (st: State)
    ensures store.entry.None? ==> st == State([], None)
    ensures store.entry.Some? ==>
      && st.attempts == store.entry.value.attempts.GetOr([])
      && st.blockedUntil == store.entry.value.blockedUntil
  {
    match store.entry
    case None => State([], None)
    case Some(e) => State(e.attempts.GetOr([]), e.blockedUntil)
  }

  /** Working storage holding `st`. */
  function Stored(st: State): Store {
    Store(Some(Entry(Some(st.attempts), st.blockedUntil)), true)
  }

  /** `saveRateLimitState`: a failed write is swallowed and leaves the storage as it was. */
  function Save(store: Store, st: State): (r: Store)
    ensures r.writable == store.writable
    ensures store.writable ==> ReadState(r) == st
    ensures !store.writable ==> r == store
  {
    if store.writable then Stored(st) else store
  }

  /** Saving and reading back gives the same state. */
  lemma ReadSave(st: State)
    ensures ReadState(Stored(st)) == st
  {
  }

  /** An attempt counts while it is strictly younger than the window. */
  predicate InWindow(t: int, now: int) {
    now - t < TIME_WINDOW_MS
  }

  /** `attempts.filter(t => now - t < TIME_WINDOW_MS)` */
  function Recent(attempts: seq<int>, now: int): (r: seq<int>)
    ensures |r| <= |attempts|
    ensures forall t :: t in r ==> InWindow(t, now) && t in attempts
    ensures forall t :: t in attempts && InWindow(t, now) ==> t in r
  {
    if |attempts| == 0 then []
    else if InWindow(attempts[0], now) then [attempts[0]] + Recent(attempts[1..], now)
    else Recent(attempts[1..], now)
  }

  lemma RecentAppend(a: seq<int>, b: seq<int>, now: int)
    ensures Recent(a + b, now) == Recent(a, now) + Recent(b, now)
  {
    if |a| > 0 {
      assert (a + b)[1..] == a[1..] + b;
      RecentAppend(a[1..], b, now);
    } else {
      assert a + b == b;
    }
  }

  /** Filtering twice at the same time is filtering once. */
  lemma RecentOfRecent(a: seq<int>, now: int)
    ensures Recent(Recent(a, now), now) == Recent(a, now)
  {
    if |a| > 0 {
      RecentOfRecent(a[1..], now);
    }
  }

  /** `Math.ceil(ms / 60000)` for a positive number of milliseconds. */
  function CeilMinutes(ms: int): (m: int)
    requires ms > 0
    ensures m >= 1
    ensures MS_PER_MINUTE * (m - 1) < ms <= MS_PER_MINUTE * m
  {
    (ms + MS_PER_MINUTE - 1) / MS_PER_MINUTE
  }

  /** `state.blockedUntil && now < state.blockedUntil`: a zero deadline is falsy and never blocks. */
  predicate IsBlocked(st: State, now: int) {
    st.blockedUntil.Some? && st.blockedUntil.value != 0 && now < st.blockedUntil.value
  }

  /** `checkRateLimit` */
  function CheckRateLimit(store: Store, now: int): (c: Checked)
    ensures c.decision.Refused? ==> c.decision.waitMinutes >= 1
    ensures c.decision.Allowed? ==> c.store == store
    ensures IsBlocked(ReadState(store), now) ==>
      && c.store == store
      && c.decision.Refused?
      && var ms := ReadState(store).blockedUntil.value - now;
         MS_PER_MINUTE * (c.decision.waitMinutes - 1) < ms <= MS_PER_MINUTE * c.decision.waitMinutes
    ensures !IsBlocked(ReadState(store), now) ==>
      var recent := Recent(ReadState(store).attempts, now);
      if |recent| >= MAX_ATTEMPTS then
        && c.decision == Refused(10)
        && c.store == Save(store, State(recent, Some(now + COOLDOWN_MS)))
      else
        c == Checked(Allowed, store)
  {
    var st := ReadState(store);
    if IsBlocked(st, now) then
      Checked(Refused(CeilMinutes(st.blockedUntil.value - now)), store)
    else
      var recent := Recent(st.attempts, now);
      if |recent| >= MAX_ATTEMPTS then
        Checked(Refused(CeilMinutes(COOLDOWN_MS)), Save(store, State(recent, Some(now + COOLDOWN_MS))))
      else
        Checked(Allowed, store)
  }

  /**
   * `recordSubmitAttempt`: append `now`, prune, keep the block deadline. On
   * storage that refuses writes nothing changes.
   */
  function RecordSubmitAttempt(store: Store, now: int): (s: Store)
    ensures s.writable == store.writable
    ensures ReadState(s).blockedUntil == ReadState(store).blockedUntil
    ensures store.writable ==>
      var a := ReadState(s).attempts;
      && |a| > 0 && a[|a| - 1] == now
      && (forall t :: t in a ==> InWindow(t, now))
      && a == Recent(ReadState(store).attempts, now) + [now]
    ensures !store.writable ==> s == store
  {
    var st := ReadState(store);
    RecentAppend(st.attempts, [now], now);
    assert Recent([now], now) == [now] by { assert [now][1..] == []; }
    Save(store, State(Recent(st.attempts + [now], now), st.blockedUntil))
  }

  /** `resetRateLimit`: removes the entry; on storage that refuses writes nothing changes. */
  function ResetRateLimit(store: Store): (s: Store)
    ensures s.writable == store.writable
    ensures store.writable ==> ReadState(s) == State([], None)
    ensures !store.writable ==> s == store
  {
    if store.writable then store.(entry := None) else store
  }

  // ---------------------------------------------------------------------------
  // properties
  // ---------------------------------------------------------------------------

  /** An absent or unreadable entry lets the check through, and the check writes nothing. */
  lemma FailsOpen(store: Store, now: int)
    requires store.entry.None?
    ensures CheckRateLimit(store, now) == Checked(Allowed, store)
  {
  }

  /**
   * Storage that throws on every access never blocks: recording changes
   * nothing and every check is allowed, however many attempts are made.
   */
  lemma DisabledNeverBlocks(times: seq<int>, now: int)
    ensures RecordAll(DISABLED, times) == DISABLED
    ensures CheckRateLimit(RecordAll(DISABLED, times), now) == Checked(Allowed, DISABLED)
  {
    RecordAllUnwritable(DISABLED, times);
  }

  /** `recordSubmitAttempt` at each of `times` in turn. */
  function RecordAll(store: Store, times: seq<int>): Store
    decreases |times|
  {
    if |times| == 0 then store else RecordAll(RecordSubmitAttempt(store, times[0]), times[1..])
  }

  lemma {:induction false} RecordAllUnwritable(store: Store, times: seq<int>)
    requires !store.writable
    ensures RecordAll(store, times) == store
    decreases |times|
  {
    if |times| > 0 {
      RecordAllUnwritable(RecordSubmitAttempt(store, times[0]), times[1..]);
    }
  }

  /** The pruning is strict: an attempt exactly one window old no longer counts. */
  lemma WindowEdgeDropped(t: int)
    ensures Recent([t], t + TIME_WINDOW_MS) == []
    ensures Recent([t], t + TIME_WINDOW_MS - 1) == [t]
  {
  }

  /** From an empty store, three attempts inside one window make the next check refuse for ten minutes. */
  lemma ThreeAttemptsBlock(t1: int, t2: int, t3: int, now: int)
    requires t1 <= t2 <= t3 <= now < t1 + TIME_WINDOW_MS
    ensures var s := RecordSubmitAttempt(RecordSubmitAttempt(RecordSubmitAttempt(EMPTY, t1), t2), t3);
      CheckRateLimit(s, now) == Checked(Refused(10), Stored(State([t1, t2, t3], Some(now + COOLDOWN_MS))))
  {
    var s := RecordSubmitAttempt(RecordSubmitAttempt(RecordSubmitAttempt(EMPTY, t1), t2), t3);
    ThreeAttemptsRecorded(t1, t2, t3);
    RecentAllInWindow([t1, t2, t3], now);
    assert CeilMinutes(COOLDOWN_MS) == 10;
  }

  /** Three attempts inside one window, recorded from an empty store, are all kept. */
  lemma ThreeAttemptsRecorded(t1: int, t2: int, t3: int)
    requires t1 <= t2 <= t3 < t1 + TIME_WINDOW_MS
    ensures ReadState(RecordSubmitAttempt(RecordSubmitAttempt(RecordSubmitAttempt(EMPTY, t1), t2), t3))
         == State([t1, t2, t3], None)
  {
    var s1 := RecordSubmitAttempt(EMPTY, t1);
    assert ReadState(s1).attempts == [t1];
    RecentAllInWindow([t1], t2);
    var s2 := RecordSubmitAttempt(s1, t2);
    assert ReadState(s2).attempts == [t1, t2];
    RecentAllInWindow([t1, t2], t3);
  }

  lemma RecentNoneInWindow(a: seq<int>, now: int)
    requires forall i :: 0 <= i < |a| ==> !InWindow(a[i], now)
    ensures Recent(a, now) == []
  {
    if |a| > 0 {
      RecentNoneInWindow(a[1..], now);
    }
  }

  lemma RecentAllInWindow(a: seq<int>, now: int)
    requires forall i :: 0 <= i < |a| ==> InWindow(a[i], now)
    ensures Recent(a, now) == a
  {
    if |a| > 0 {
      RecentAllInWindow(a[1..], now);
    }
  }

  /**
   * Once the deadline has passed and nothing was recorded after time `last`,
   * a check a full window after `last` is allowed again.
   */
  lemma ExpiredBlockAllows(attempts: seq<int>, last: int, deadline: int, later: int)
    requires forall i :: 0 <= i < |attempts| ==> attempts[i] <= last
    requires deadline <= later && last + TIME_WINDOW_MS <= later
    ensures CheckRateLimit(Stored(State(attempts, Some(deadline))), later).decision == Allowed
  {
    RecentNoneInWindow(attempts, later);
  }

  /** The ten-minute block of the scenario above lifts exactly at its deadline. */
  lemma BlockLiftsAtDeadline(t1: int, t2: int, t3: int, now: int, later: int)
    requires t1 <= t2 <= t3 <= now < t1 + TIME_WINDOW_MS
    requires later >= now + COOLDOWN_MS
    ensures var s := RecordSubmitAttempt(RecordSubmitAttempt(RecordSubmitAttempt(EMPTY, t1), t2), t3);
      var blocked := CheckRateLimit(s, now).store;
      && CheckRateLimit(blocked, later).decision == Allowed
      && (forall u :: now <= u < now + COOLDOWN_MS && now + COOLDOWN_MS != 0 ==>
            CheckRateLimit(blocked, u).decision.Refused?)
  {
    ThreeAttemptsBlock(t1, t2, t3, now);
    BlockWindow([t1, t2, t3], now, later);
  }

  /** A block set at `now` over attempts no later than `now` refuses until its deadline and allows from then on. */
  lemma BlockWindow(attempts: seq<int>, now: int, later: int)
    requires forall i :: 0 <= i < |attempts| ==> attempts[i] <= now
    requires later >= now + COOLDOWN_MS
    ensures var blocked := Stored(State(attempts, Some(now + COOLDOWN_MS)));
      && CheckRateLimit(blocked, later).decision == Allowed
      && (forall u :: now <= u < now + COOLDOWN_MS && now + COOLDOWN_MS != 0 ==>
            CheckRateLimit(blocked, u).decision.Refused?)
  {
    var blocked := Stored(State(attempts, Some(now + COOLDOWN_MS)));
    ExpiredBlockAllows(attempts, now, now + COOLDOWN_MS, later);
    forall u | now <= u < now + COOLDOWN_MS && now + COOLDOWN_MS != 0
      ensures CheckRateLimit(blocked, u).decision.Refused?
    {
      BlockRefusesBeforeDeadline(attempts, now + COOLDOWN_MS, u);
    }
  }

  /** A saved, non-zero deadline refuses every check before it, whatever attempts are stored. */
  lemma BlockRefusesBeforeDeadline(attempts: seq<int>, deadline: int, u: int)
    requires deadline != 0 && u < deadline
    ensures CheckRateLimit(Stored(State(attempts, Some(deadline))), u).decision.Refused?
    ensures CheckRateLimit(Stored(State(attempts, Some(deadline))), u).store == Stored(State(attempts, Some(deadline)))
  {
    ReadSave(State(attempts, Some(deadline)));
  }

  /** While blocked, recording more attempts never lifts the block and the wait never exceeds ten minutes. */
  lemma BlockSurvivesRecords(store: Store, now: int, later: int)
    requires ReadState(store).blockedUntil == Some(now + COOLDOWN_MS) && now + COOLDOWN_MS != 0
    requires now <= later < now + COOLDOWN_MS
    ensures var c := CheckRateLimit(RecordSubmitAttempt(store, later), later);
      c.decision.Refused? && 1 <= c.decision.waitMinutes <= 10
  {
  }
}

=== FILE: sanitizers.dfy ===
/**
 * The sanitizers of the form-safety layer: string rewrites applied to field
 * values before they are handed on. None of them fails.
 */
module Sanitizers {
  import opened Text
  import opened Validators

  predicate IsAngle(c: char) {
    c == '<' || c == '>'
  }

  /** `[\x00-\x08\x0B\x0C\x0E-\x1F\x7F]`: C0 controls other than tab, newline and carriage return, and DEL. */
  predicate IsStrippedControl(c: char) {
    var n := c as int;
    (0x00 <= n <= 0x08) || n == 0x0B || n == 0x0C || (0x0E <= n <= 0x1F) || n == 0x7F
  }

  predicate NotAngle(c: char) {
    !IsAngle(c)
  }

  predicate NotControl(c: char) {
    !IsStrippedControl(c)
  }

  predicate NotBlank(c: char) {
    c != ' '
  }

  predicate NotNewline(c: char) {
    c != '\n'
  }

  /** Neither an angle bracket nor a stripped control character. */
  predicate IsSafeChar(c: char) {
    !IsAngle(c) && !IsStrippedControl(c)
  }

  /** `.replace(/[<>]/g, '')` */
  function StripAngles(s: string): string {
    Keep(s, NotAngle)
  }

  /** `.replace(/[\x00-\x08\x0B\x0C\x0E-\x1F\x7F]/g, '')` */
  function StripControls(s: string): string {
    Keep(s, NotControl)
  }

  /** A safe character that is not whitespace: what the sanitizers never drop. */
  predicate IsSafeWordChar(c: char) {
    IsSafeChar(c) && !IsSpace(c)
  }

  /** Trimming, then removing brackets and controls, leaves only safe characters. */
  lemma StrippedIsSafe(s: string)
    ensures AllChars(StripControls(StripAngles(s)), IsSafeChar)
  {
    var b := StripAngles(s);
    KeepPreserves(b, NotControl, NotAngle);
    var c := StripControls(b);
    assert AllChars(c, NotControl);
  }

  // ---------------------------------------------------------------------------
  // run collapsing
  // ---------------------------------------------------------------------------

  /** Every whitespace character is a plain space and no two whitespace characters touch. */
  predicate SingleSpaced(s: string) {
    && (forall i :: 0 <= i < |s| && IsSpace(s[i]) ==> s[i] == ' ')
    && (forall i :: 0 < i < |s| ==> !(IsSpace(s[i - 1]) && IsSpace(s[i])))
  }

  /** No two consecutive U+0020 spaces. */
  predicate NoDoubleSpace(s: string) {
    forall i :: 0 < i < |s| ==> !(s[i - 1] == ' ' && s[i] == ' ')
  }

  /** No three consecutive newlines. */
  predicate NoTripleNewline(s: string) {
    forall i :: 2 <= i < |s| ==> !(s[i - 2] == '\n' && s[i - 1] == '\n' && s[i] == '\n')
  }

  /** `s` without its leading run of `c`. */
  function DropLeading(s: string, c: char): (r: string)
    ensures |r| <= |s| && r == s[|s| - |r|..]
    ensures |r| > 0 ==> r[0] != c
    ensures forall i :: 0 <= i < |s| - |r| ==> s[i] == c
  {
    s[RunEnd(s, c, 0)..]
  }

  /** The end of the run of `c` that starts at `i`. */
  function RunEnd(s: string, c: char, i: nat): (j: nat)
    requires i <= |s|
    ensures i <= j <= |s|
    ensures forall k :: i <= k < j ==> s[k] == c
    ensures j < |s| ==> s[j] != c
    decreases |s| - i
  {
    if i < |s| && s[i] == c then RunEnd(s, c, i + 1) else i
  }

  /** `.replace(/\s+/g, ' ')`: every maximal whitespace run becomes one space. */
  function CollapseWhitespace(s: string): (r: string)
    ensures SingleSpaced(r)
    ensures |s| > 0 ==> |r| > 0 && (IsSpace(r[0]) <==> IsSpace(s[0]))
    ensures AllChars(s, IsSafeChar) ==> AllChars(r, IsSafeChar)
    decreases |s|
  {
    if |s| == 0 then []
    else if IsSpace(s[0]) then
      var rest := s[TrimOffset(s)..];
      assert |rest| > 0 ==> rest[0] == s[|s| - |rest|];
      assert AllChars(s, IsSafeChar) ==> AllChars(rest, IsSafeChar) by {
        if AllChars(s, IsSafeChar) {
          forall i | 0 <= i < |rest| ensures IsSafeChar(rest[i]) {
            assert rest[i] == s[|s| - |rest| + i];
          }
        }
      }
      [' '] + CollapseWhitespace(rest)
    else
      assert AllChars(s, IsSafeChar) ==> AllChars(s[1..], IsSafeChar);
      [s[0]] + CollapseWhitespace(s[1..])
  }

  /** Collapsing changes nothing in text that is already single-spaced. */
  lemma {:induction false} CollapseWhitespaceOfSingleSpaced(s: string)
    requires SingleSpaced(s)
    ensures CollapseWhitespace(s) == s
    decreases |s|
  {
    if |s| > 0 {
      assert SingleSpaced(s[1..]);
      if IsSpace(s[0]) {
        assert |s| > 1 ==> !IsSpace(s[1]);
        assert TrimOffset(s) == 1 by {
          assert SkipSpaces(s, 0) == SkipSpaces(s, 1);
        }
      }
      CollapseWhitespaceOfSingleSpaced(s[1..]);
    }
  }

  /** Collapsing only rewrites whitespace: every other character survives, in order. */
  lemma {:induction false} CollapseWhitespaceKeepsWords(s: string)
    ensures Keep(CollapseWhitespace(s), NonWhitespace) == Keep(s, NonWhitespace)
    decreases |s|
  {
    if |s| > 0 {
      if IsSpace(s[0]) {
        var rest := s[TrimOffset(s)..];
        CollapseWhitespaceKeepsWords(rest);
        KeepSkip(s, TrimOffset(s), NonWhitespace);
        KeepCons(' ', CollapseWhitespace(rest), NonWhitespace);
      } else {
        CollapseWhitespaceKeepsWords(s[1..]);
        KeepCons(s[0], CollapseWhitespace(s[1..]), NonWhitespace);
      }
    }
  }

  /** A whitespace run that stops inside `a` stops at the same place in `a + b`. */
  lemma {:induction false} SkipSpacesAppend(a: string, b: string, i: nat)
    requires i < |a| && !IsSpace(a[|a| - 1])
    ensures SkipSpaces(a + b, i) == SkipSpaces(a, i)
    decreases |a| - i
  {
    assert (a + b)[i] == a[i];
    if IsSpace(a[i]) {
      SkipSpacesAppend(a, b, i + 1);
    }
  }

  /** Text that ends in a non-whitespace character collapses independently of what follows. */
  lemma {:induction false} CollapseWhitespaceAppend(a: string, b: string)
    requires |a| > 0 && !IsSpace(a[|a| - 1])
    ensures CollapseWhitespace(a + b) == CollapseWhitespace(a) + CollapseWhitespace(b)
    decreases |a|
  {
    var ab := a + b;
    assert ab[0] == a[0];
    if IsSpace(a[0]) {
      var k := TrimOffset(a);
      SkipSpacesAppend(a, b, 0);
      assert ab[k..] == a[k..] + b;
      CollapseWhitespaceAppend(a[k..], b);
    } else if |a| == 1 {
      assert ab[1..] == b;
    } else {
      assert ab[1..] == a[1..] + b;
      CollapseWhitespaceAppend(a[1..], b);
    }
  }

  /** A maximal non-empty run of whitespace collapses to one space. */
  lemma CollapseWhitespaceOfRun(w: string, b: string)
    requires |w| > 0 && AllSpace(w)
    requires |b| > 0 ==> !IsSpace(b[0])
    ensures CollapseWhitespace(w + b) == " " + CollapseWhitespace(b)
  {
    var wb := w + b;
    assert SkipSpaces(wb, 0) == |w| by {
      SkipSpacesRun(wb, |w|, 0);
    }
    assert wb[|w|..] == b;
  }

  lemma {:induction false} SkipSpacesRun(s: string, n: nat, i: nat)
    requires i <= n <= |s|
    requires forall k :: i <= k < n ==> IsSpace(s[k])
    requires n < |s| ==> !IsSpace(s[n])
    ensures SkipSpaces(s, i) == n
    decreases n - i
  {
    if i < n {
      SkipSpacesRun(s, n, i + 1);
    }
  }

  /** `.replace(/ +/g, ' ')`: every maximal run of spaces becomes one space. */
  function CollapseSpaces(s: string): (r: string)
    ensures NoDoubleSpace(r)
    ensures |s| > 0 ==> |r| > 0 && r[0] == s[0]
    ensures AllChars(s, IsSafeChar) ==> AllChars(r, IsSafeChar)
    decreases |s|
  {
    if |s| == 0 then []
    else if s[0] == ' ' then
      var rest := DropLeading(s, ' ');
      assert AllChars(s, IsSafeChar) ==> AllChars(rest, IsSafeChar) by {
        if AllChars(s, IsSafeChar) {
          forall i | 0 <= i < |rest| ensures IsSafeChar(rest[i]) {
            assert rest[i] == s[|s| - |rest| + i];
          }
        }
      }
      [' '] + CollapseSpaces(rest)
    else
      assert AllChars(s, IsSafeChar) ==> AllChars(s[1..], IsSafeChar);
      [s[0]] + CollapseSpaces(s[1..])
  }

  lemma {:induction false} CollapseSpacesOfSingle(s: string)
    requires NoDoubleSpace(s)
    ensures CollapseSpaces(s) == s
    decreases |s|
  {
    if |s| > 0 {
      assert NoDoubleSpace(s[1..]);
      if s[0] == ' ' {
        assert DropLeading(s, ' ') == s[1..] by {
          assert RunEnd(s, ' ', 0) == RunEnd(s, ' ', 1);
        }
      }
      CollapseSpacesOfSingle(s[1..]);
    }
  }

  /** Collapsing spaces keeps every character other than U+0020, in order. */
  lemma {:induction false} CollapseSpacesKeepsRest(s: string)
    ensures Keep(CollapseSpaces(s), NotBlank) == Keep(s, NotBlank)
    decreases |s|
  {
    if |s| > 0 {
      if s[0] == ' ' {
        var rest := DropLeading(s, ' ');
        var n := |s| - |rest|;
        assert forall i :: 0 <= i < n ==> !NotBlank(s[i]);
        assert CollapseSpaces(s) == [' '] + CollapseSpaces(rest);
        CollapseSpacesKeepsRest(rest);
        KeepSkip(s, n, NotBlank);
        assert s[n..] == rest;
        KeepCons(' ', CollapseSpaces(rest), NotBlank);
      } else {
        CollapseSpacesKeepsRest(s[1..]);
        KeepCons(s[0], CollapseSpaces(s[1..]), NotBlank);
      }
    }
  }

  /** A run of `c` that stops inside `a` stops at the same place in `a + b`. */
  lemma {:induction false} RunEndAppend(a: string, b: string, c: char, i: nat)
    requires i < |a| && a[|a| - 1] != c
    ensures RunEnd(a + b, c, i) == RunEnd(a, c, i)
    decreases |a| - i
  {
    assert (a + b)[i] == a[i];
    if a[i] == c {
      RunEndAppend(a, b, c, i + 1);
    }
  }

  /** Text that does not end in a space collapses independently of what follows. */
  lemma {:induction false} CollapseSpacesAppend(a: string, b: string)
    requires |a| > 0 && a[|a| - 1] != ' '
    ensures CollapseSpaces(a + b) == CollapseSpaces(a) + CollapseSpaces(b)
    decreases |a|
  {
    var ab := a + b;
    assert ab[0] == a[0];
    if a[0] == ' ' {
      var k := RunEnd(a, ' ', 0);
      RunEndAppend(a, b, ' ', 0);
      assert ab[k..] == a[k..] + b;
      CollapseSpacesAppend(a[k..], b);
    } else if |a| == 1 {
      assert ab[1..] == b;
    } else {
      assert ab[1..] == a[1..] + b;
      CollapseSpacesAppend(a[1..], b);
    }
  }

  /** A maximal non-empty run of spaces collapses to one space. */
  lemma CollapseSpacesOfRun(w: string, b: string)
    requires |w| > 0 && forall i :: 0 <= i < |w| ==> w[i] == ' '
    requires |b| > 0 ==> b[0] != ' '
    ensures CollapseSpaces(w + b) == " " + CollapseSpaces(b)
  {
    var wb := w + b;
    RunEndRun(wb, ' ', |w|, 0);
    assert wb[|w|..] == b;
  }

  lemma {:induction false} RunEndRun(s: string, c: char, n: nat, i: nat)
    requires i <= n <= |s|
    requires forall k :: i <= k < n ==> s[k] == c
    requires n < |s| ==> s[n] != c
    ensures RunEnd(s, c, i) == n
    decreases n - i
  {
    if i < n {
      RunEndRun(s, c, n, i + 1);
    }
  }

  /** A run of at most two newlines followed by text that starts with something else. */
  lemma JoinNoTriple(run: string, tail: string)
    requires |run| <= 2 && NoTripleNewline(tail)
    requires |tail| > 0 ==> tail[0] != '\n'
    ensures NoTripleNewline(run + tail)
  {
    var r := run + tail;
    forall i | 2 <= i < |r| ensures !(r[i - 2] == '\n' && r[i - 1] == '\n' && r[i] == '\n') {
      if i >= |run| + 2 {
        assert r[i - 2] == tail[i - 2 - |run|];
      } else {
        assert r[|run|] == tail[0];
      }
    }
  }

  /** `.replace(/\n{3,}/g, '\n\n')`: every run of three or more newlines becomes two. */
  function CapNewlines(s: string): (r: string)
    ensures NoTripleNewline(r)
    ensures |s| > 0 ==> |r| > 0 && r[0] == s[0]
    decreases |s|
  {
    if |s| == 0 then []
    else if s[0] == '\n' then
      var rest := DropLeading(s, '\n');
      var n := |s| - |rest|;
      var run := if n >= 3 then "\n\n" else s[..n];
      var tail := CapNewlines(rest);
      JoinNoTriple(run, tail);
      run + tail
    else
      [s[0]] + CapNewlines(s[1..])
  }

  /** Capping newlines keeps every character other than a newline, in order. */
  lemma {:induction false} CapNewlinesKeepsRest(s: string)
    ensures Keep(CapNewlines(s), NotNewline) == Keep(s, NotNewline)
    decreases |s|
  {
    if |s| > 0 {
      if s[0] == '\n' {
        var rest := DropLeading(s, '\n');
        var n := |s| - |rest|;
        var run := if n >= 3 then "\n\n" else s[..n];
        assert forall i :: 0 <= i < |run| ==> run[i] == '\n';
        assert forall i :: 0 <= i < n ==> !NotNewline(s[i]);
        assert CapNewlines(s) == run + CapNewlines(rest);
        CapNewlinesKeepsRest(rest);
        KeepSkip(s, n, NotNewline);
        assert s[n..] == rest;
        KeepAppend(run, CapNewlines(rest), NotNewline);
        KeepNoneOf(run, NotNewline);
      } else {
        CapNewlinesKeepsRest(s[1..]);
        KeepCons(s[0], CapNewlines(s[1..]), NotNewline);
      }
    }
  }

  /** Text that does not end in a newline is capped independently of what follows. */
  lemma {:induction false} CapNewlinesAppend(a: string, b: string)
    requires |a| > 0 && a[|a| - 1] != '\n'
    ensures CapNewlines(a + b) == CapNewlines(a) + CapNewlines(b)
    decreases |a|
  {
    var ab := a + b;
    assert ab[0] == a[0];
    if a[0] == '\n' {
      var k := RunEnd(a, '\n', 0);
      CapNewlinesAppend(a[k..], b);
      assert a == a[..k] + a[k..];
      CapNewlinesAppendAfterRun(a[..k], a[k..], b);
    } else if |a| == 1 {
      assert ab[1..] == b;
    } else {
      assert ab[1..] == a[1..] + b;
      CapNewlinesAppend(a[1..], b);
    }
  }

  /** The step of the split law across a leading newline run. */
  lemma CapNewlinesAppendAfterRun(run: string, rest: string, b: string)
    requires |run| > 0 && forall i :: 0 <= i < |run| ==> run[i] == '\n'
    requires |rest| > 0 && rest[0] != '\n'
    requires CapNewlines(rest + b) == CapNewlines(rest) + CapNewlines(b)
    ensures CapNewlines(run + rest + b) == CapNewlines(run + rest) + CapNewlines(b)
  {
    var x := rest + b;
    var head := if |run| >= 3 then "\n\n" else run;
    assert CapNewlines(run + x) == head + CapNewlines(x) by {
      assert x[0] == rest[0];
      CapNewlinesOfRun(run, x);
    }
    assert CapNewlines(run + rest) == head + CapNewlines(rest) by {
      CapNewlinesOfRun(run, rest);
    }
    Concat3(run, rest, b);
    Concat3(head, CapNewlines(rest), CapNewlines(b));
  }

  lemma Concat3(a: string, b: string, c: string)
    ensures a + b + c == a + (b + c)
  {
  }

  /** A maximal run of three or more newlines becomes two; a shorter run is left alone. */
  lemma CapNewlinesOfRun(w: string, b: string)
    requires |w| > 0 && forall i :: 0 <= i < |w| ==> w[i] == '\n'
    requires |b| > 0 ==> b[0] != '\n'
    ensures CapNewlines(w + b) == (if |w| >= 3 then "\n\n" else w) + CapNewlines(b)
  {
    var wb := w + b;
    RunEndRun(wb, '\n', |w|, 0);
    assert wb[|w|..] == b;
    assert wb[..|w|] == w;
  }

  /** Capping newlines never brings two spaces together. */
  lemma {:induction false} CapNewlinesNoDoubleSpace(s: string)
    requires NoDoubleSpace(s)
    ensures NoDoubleSpace(CapNewlines(s))
    decreases |s|
  {
    if |s| > 0 {
      if s[0] == '\n' {
        var rest := DropLeading(s, '\n');
        var n := |s| - |rest|;
        forall i | 0 <= i < |rest| ensures rest[i] == s[n + i] { }
        CapNewlinesNoDoubleSpace(rest);
        var run := if n >= 3 then "\n\n" else s[..n];
        assert forall i :: 0 <= i < |run| ==> run[i] == '\n';
        JoinNoDoubleSpace(run, CapNewlines(rest));
      } else {
        assert NoDoubleSpace(s[1..]);
        CapNewlinesNoDoubleSpace(s[1..]);
        assert |s| > 1 ==> CapNewlines(s[1..])[0] == s[1];
        JoinNoDoubleSpace([s[0]], CapNewlines(s[1..]));
      }
    }
  }

  lemma JoinNoDoubleSpace(a: string, b: string)
    requires NoDoubleSpace(a) && NoDoubleSpace(b)
    requires |a| > 0 && |b| > 0 ==> !(a[|a| - 1] == ' ' && b[0] == ' ')
    ensures NoDoubleSpace(a + b)
  {
    var r := a + b;
    forall i | 0 < i < |r| ensures !(r[i - 1] == ' ' && r[i] == ' ') {
      if i > |a| {
        assert r[i - 1] == b[i - 1 - |a|];
      } else if i == |a| {
        assert r[i - 1] == a[|a| - 1] && r[i] == b[0];
      }
    }
  }

  /** Capping newlines never adds an unsafe character. */
  lemma {:induction false} CapNewlinesSafe(s: string)
    requires AllChars(s, IsSafeChar)
    ensures AllChars(CapNewlines(s), IsSafeChar)
    decreases |s|
  {
    if |s| > 0 {
      if s[0] == '\n' {
        var rest := DropLeading(s, '\n');
        var n := |s| - |rest|;
        forall i | 0 <= i < |rest| ensures rest[i] == s[n + i] { }
        CapNewlinesSafe(rest);
      } else {
        assert AllChars(s[1..], IsSafeChar);
        CapNewlinesSafe(s[1..]);
      }
    }
  }

  lemma {:induction false} CapNewlinesOfCapped(s: string)
    requires NoTripleNewline(s)
    ensures CapNewlines(s) == s
    decreases |s|
  {
    if |s| > 0 {
      if s[0] == '\n' {
        var n := RunEnd(s, '\n', 0);
        assert n <= 2 by {
          assert |s| >= 3 ==> !(s[0] == '\n' && s[1] == '\n' && s[2] == '\n');
        }
        NoTripleSuffix(s, n);
        CapNewlinesOfCapped(s[n..]);
        assert s == s[..n] + s[n..];
        CapNewlinesOfRun(s[..n], s[n..]);
      } else {
        NoTripleSuffix(s, 1);
        CapNewlinesOfCapped(s[1..]);
      }
    }
  }

  lemma NoTripleSuffix(s: string, k: nat)
    requires k <= |s| && NoTripleNewline(s)
    ensures NoTripleNewline(s[k..])
  {
    var t := s[k..];
    forall i | 2 <= i < |t| ensures !(t[i - 2] == '\n' && t[i - 1] == '\n' && t[i] == '\n') {
      assert t[i - 2] == s[k + i - 2] && t[i - 1] == s[k + i - 1] && t[i] == s[k + i];
    }
  }

  // ---------------------------------------------------------------------------
  // the sanitizers
  // ---------------------------------------------------------------------------

  /** Output of `sanitizeString`: safe characters, trimmed, single-spaced. */
  predicate IsSanitizedString(s: string) {
    AllChars(s, IsSafeChar) && IsTrimmed(s) && SingleSpaced(s)
  }

  /** Trimming single-spaced text keeps it single-spaced. */
  lemma TrimSingleSpaced(s: string)
    requires SingleSpaced(s)
    ensures SingleSpaced(Trim(s))
  {
    var t := Trim(s);
    var k := TrimOffset(s);
    SingleSpacedSlice(s, k, k + |t|);
  }

  lemma SingleSpacedSlice(s: string, lo: int, hi: int)
    requires 0 <= lo <= hi <= |s| && SingleSpaced(s)
    ensures SingleSpaced(s[lo..hi])
  {
    var t := s[lo..hi];
    forall i | 0 <= i < |t| && IsSpace(t[i]) ensures t[i] == ' ' {
      assert t[i] == s[lo + i];
    }
    forall i | 0 < i < |t| ensures !(IsSpace(t[i - 1]) && IsSpace(t[i])) {
      assert t[i - 1] == s[lo + i - 1] && t[i] == s[lo + i];
    }
  }

  /**
   * Trimming and stripping keep, in order, exactly the input's safe characters
   * that are not whitespace (and whatever whitespace lies between them).
   */
  lemma StrippedWords(input: string)
    ensures Keep(StripControls(StripAngles(Trim(input))), NonWhitespace) == Keep(input, IsSafeWordChar)
  {
    var t := Trim(input);
    KeepKeep(t, NotAngle, NotControl, IsSafeChar);
    KeepKeep(t, IsSafeChar, NonWhitespace, IsSafeWordChar);
    KeepTrim(input, IsSafeWordChar);
  }

  function SanitizeString(input: string): (r: string)
    ensures IsSanitizedString(r)
    ensures Keep(r, NonWhitespace) == Keep(input, IsSafeWordChar)
  {
    if input == "" then ""
    else
      var c := StripControls(StripAngles(Trim(input)));
      StrippedIsSafe(Trim(input));
      StrippedWords(input);
      var d := CollapseWhitespace(c);
      CollapseWhitespaceKeepsWords(c);
      KeepTrim(d, NonWhitespace);
      TrimSingleSpaced(d);
      TrimKeepsChars(d, IsSafeChar);
      Trim(d)
  }

  /**
   * Two words separated by any whitespace run come out separated by exactly
   * one space: together with the content law this places every space.
   */
  lemma SanitizeStringJoinsWords(w1: string, gap: string, w2: string)
    requires |w1| > 0 && AllChars(w1, IsSafeWordChar)
    requires |w2| > 0 && AllChars(w2, IsSafeWordChar)
    requires |gap| > 0 && AllSpace(gap) && AllChars(gap, IsSafeChar)
    ensures SanitizeString(w1 + gap + w2) == w1 + " " + w2
  {
    WordsAroundGapSafe(w1, gap, w2);
    CollapseWordsAroundGap(w1, gap, w2);
    SanitizeStringOfSafe(w1 + gap + w2);
    var d := w1 + " " + w2;
    assert d[0] == w1[0] && d[|d| - 1] == w2[|w2| - 1];
    TrimOfTrimmed(d);
  }

  lemma WordsAroundGapSafe(w1: string, gap: string, w2: string)
    requires |w1| > 0 && AllChars(w1, IsSafeWordChar)
    requires |w2| > 0 && AllChars(w2, IsSafeWordChar)
    requires AllChars(gap, IsSafeChar)
    ensures AllChars(w1 + gap + w2, IsSafeChar) && IsTrimmed(w1 + gap + w2)
  {
    var input := w1 + gap + w2;
    forall i | 0 <= i < |input| ensures IsSafeChar(input[i]) {
      if i < |w1| {
        assert input[i] == w1[i];
      } else if i < |w1| + |gap| {
        assert input[i] == gap[i - |w1|];
      } else {
        assert input[i] == w2[i - |w1| - |gap|];
      }
    }
    assert input[0] == w1[0] && input[|input| - 1] == w2[|w2| - 1];
  }

  lemma CollapseWordsAroundGap(w1: string, gap: string, w2: string)
    requires |w1| > 0 && AllChars(w1, IsSafeWordChar)
    requires |w2| > 0 && AllChars(w2, IsSafeWordChar)
    requires |gap| > 0 && AllSpace(gap)
    ensures CollapseWhitespace(w1 + gap + w2) == w1 + " " + w2
  {
    assert w1 + gap + w2 == w1 + (gap + w2);
    CollapseWhitespaceAppend(w1, gap + w2);
    CollapseWhitespaceOfRun(gap, w2);
    WordIsSingleSpaced(w1);
    WordIsSingleSpaced(w2);
  }

  /** On safe text without surrounding whitespace only the collapsing step does anything. */
  lemma SanitizeStringOfSafe(x: string)
    requires x != "" && AllChars(x, IsSafeChar) && IsTrimmed(x)
    ensures SanitizeString(x) == Trim(CollapseWhitespace(x))
  {
    TrimOfTrimmed(x);
    assert AllChars(x, NotAngle);
    assert StripAngles(x) == x;
    assert AllChars(x, NotControl);
    assert StripControls(x) == x;
  }

  lemma WordIsSingleSpaced(w: string)
    requires AllChars(w, IsSafeWordChar)
    ensures CollapseWhitespace(w) == w
  {
    assert SingleSpaced(w);
    CollapseWhitespaceOfSingleSpaced(w);
  }

  /** Text already in sanitized form is a fixed point of `sanitizeString`. */
  lemma SanitizeStringFixes(o: string)
    requires IsSanitizedString(o)
    ensures SanitizeString(o) == o
  {
    if o != "" {
      TrimOfTrimmed(o);
      assert AllChars(o, NotAngle);
      assert StripAngles(o) == o;
      assert AllChars(o, NotControl);
      assert StripControls(o) == o;
      CollapseWhitespaceOfSingleSpaced(o);
    }
  }

  /** `sanitizeString` changes nothing in its own output. */
  lemma SanitizeStringIdempotent(x: string)
    ensures SanitizeString(SanitizeString(x)) == SanitizeString(x)
  {
    SanitizeStringFixes(SanitizeString(x));
  }

  /** Output of `sanitizeMessage`: safe characters, trimmed, no double spaces, at most two newlines in a row. */
  predicate IsSanitizedMessage(s: string) {
    AllChars(s, IsSafeChar) && IsTrimmed(s) && NoDoubleSpace(s) && NoTripleNewline(s)
  }

  /** Trimming keeps the single spaces and the capped newlines. */
  lemma TrimMessageShape(d: string)
    requires NoDoubleSpace(d) && NoTripleNewline(d)
    ensures NoDoubleSpace(Trim(d)) && NoTripleNewline(Trim(d))
  {
    var t := Trim(d);
    var k := TrimOffset(d);
    forall i | 0 <= i < |t| ensures t[i] == d[k + i] { }
  }

  /** Whitespace-free content survives a rewrite that keeps everything but one whitespace character. */
  lemma WordsThrough(x: string, y: string, p: char -> bool)
    requires forall c :: NonWhitespace(c) ==> p(c)
    requires Keep(y, p) == Keep(x, p)
    ensures Keep(y, NonWhitespace) == Keep(x, NonWhitespace)
  {
    KeepKeep(x, p, NonWhitespace, NonWhitespace);
    KeepKeep(y, p, NonWhitespace, NonWhitespace);
  }

  function SanitizeMessage(message: string): (r: string)
    ensures IsSanitizedMessage(r)
    ensures Keep(r, NonWhitespace) == Keep(message, IsSafeWordChar)
  {
    if message == "" then ""
    else
      var c := StripControls(StripAngles(Trim(message)));
      StrippedIsSafe(Trim(message));
      StrippedWords(message);
      CollapseSpacesKeepsRest(c);
      WordsThrough(c, CollapseSpaces(c), NotBlank);
      CapNewlinesKeepsRest(CollapseSpaces(c));
      WordsThrough(CollapseSpaces(c), CapNewlines(CollapseSpaces(c)), NotNewline);
      var d := CapNewlines(CollapseSpaces(c));
      KeepTrim(d, NonWhitespace);
      CapNewlinesNoDoubleSpace(CollapseSpaces(c));
      CapNewlinesSafe(CollapseSpaces(c));
      TrimMessageShape(d);
      TrimKeepsChars(d, IsSafeChar);
      Trim(d)
  }

  /** Text already in sanitized message form is a fixed point of `sanitizeMessage`. */
  lemma SanitizeMessageFixes(o: string)
    requires IsSanitizedMessage(o)
    ensures SanitizeMessage(o) == o
  {
    if o != "" {
      TrimOfTrimmed(o);
      assert AllChars(o, NotAngle);
      assert StripAngles(o) == o;
      assert AllChars(o, NotControl);
      assert StripControls(o) == o;
      CollapseSpacesOfSingle(o);
      CapNewlinesOfCapped(o);
    }
  }

  /** `sanitizeMessage` changes nothing in its own output. */
  lemma SanitizeMessageIdempotent(x: string)
    ensures SanitizeMessage(SanitizeMessage(x)) == SanitizeMessage(x)
  {
    SanitizeMessageFixes(SanitizeMessage(x));
  }

  // ---------------------------------------------------------------------------
  // phone
  // ---------------------------------------------------------------------------

  /** A phone character that is not whitespace: a digit, `-`, `(`, `)` or `+`. */
  predicate IsPhoneNonSpace(c: char) {
    IsPhoneChar(c) && !IsSpace(c)
  }

  /** Keeps digits, whitespace, `-`, `(`, `)` and `+`, then trims. */
  function SanitizePhone(phone: string): (r: string)
    ensures AllChars(r, IsPhoneChar) && IsTrimmed(r)
    ensures Keep(r, NonWhitespace) == Keep(phone, IsPhoneNonSpace)
  {
    if phone == "" then ""
    else
      var b := Keep(Trim(phone), IsPhoneChar);
      TrimKeepsChars(b, IsPhoneChar);
      PhoneKeepsDigits(phone);
      Trim(b)
  }

  /** The digits and `-()+` of the input survive keeping and both trims, in order. */
  lemma PhoneKeepsDigits(phone: string)
    ensures Keep(Trim(Keep(Trim(phone), IsPhoneChar)), NonWhitespace) == Keep(phone, IsPhoneNonSpace)
  {
    var b := Keep(Trim(phone), IsPhoneChar);
    KeepTrim(b, NonWhitespace);
    KeepKeep(Trim(phone), IsPhoneChar, NonWhitespace, IsPhoneNonSpace);
    KeepTrim(phone, IsPhoneNonSpace);
  }

  /** Text of phone characters without surrounding whitespace is a fixed point. */
  lemma SanitizePhoneFixes(o: string)
    requires AllChars(o, IsPhoneChar) && IsTrimmed(o)
    ensures SanitizePhone(o) == o
  {
    if o != "" {
      TrimOfTrimmed(o);
    }
  }

  lemma SanitizePhoneIdempotent(x: string)
    ensures SanitizePhone(SanitizePhone(x)) == SanitizePhone(x)
  {
    SanitizePhoneFixes(SanitizePhone(x));
  }

  /** Phone output never carries an angle bracket. */
  lemma SanitizePhoneHasNoAngles(x: string)
    ensures AllChars(SanitizePhone(x), NotAngle)
  {
    var o := SanitizePhone(x);
    forall i | 0 <= i < |o| ensures NotAngle(o[i]) {
      assert IsPhoneChar(o[i]);
    }
  }

  /** A vertical tab inside a phone number is whitespace to the phone set, so it survives. */
  lemma SanitizePhoneKeepsVerticalTab()
    ensures SanitizePhone("1\U{000B}2") == "1\U{000B}2"
    ensures IsStrippedControl('\U{000B}')
  {
    var s := "1\U{000B}2";
    assert IsSpace(s[1]);
    SanitizePhoneFixes(s);
  }

  // ---------------------------------------------------------------------------
  // email
  // ---------------------------------------------------------------------------

  function LowerAscii(c: char): char {
    if 'A' <= c <= 'Z' then (c as int + 32) as char else c
  }

  /** ASCII case mapping; other characters are left as they are. */
  function ToLowerAscii(s: string): (r: string)
    ensures |r| == |s|
    ensures forall i :: 0 <= i < |s| ==> r[i] == LowerAscii(s[i])
  {
    if |s| == 0 then [] else [LowerAscii(s[0])] + ToLowerAscii(s[1..])
  }

  predicate NotUpper(c: char) {
    !('A' <= c <= 'Z')
  }

  /** Neither an angle bracket nor whitespace: what `sanitizeEmail` keeps, lower-cased. */
  predicate IsEmailWordChar(c: char) {
    NotAngle(c) && !IsSpace(c)
  }

  /**
   * Trims, lower-cases and removes angle brackets, in that order. Apart
   * from whitespace, the result is the input's characters other than
   * angle brackets, in order and lower-cased.
   */
  function SanitizeEmail(email: string): (r: string)
    ensures AllChars(r, NotAngle) && AllChars(r, NotUpper)
    ensures Keep(r, NonWhitespace) == ToLowerAscii(Keep(email, IsEmailWordChar))
  {
    if email == "" then ""
    else
      var l := ToLowerAscii(Trim(email));
      KeepPreserves(l, NotAngle, NotUpper);
      EmailKeepsWords(email);
      Keep(l, NotAngle)
  }

  /** ASCII lower-casing neither creates nor removes a character a filter looks at, so the two commute. */
  lemma {:induction false} KeepLower(s: string, p: char -> bool)
    requires forall c :: p(LowerAscii(c)) == p(c)
    ensures Keep(ToLowerAscii(s), p) == ToLowerAscii(Keep(s, p))
  {
    if |s| > 0 {
      KeepLower(s[1..], p);
      assert ToLowerAscii(s) == [LowerAscii(s[0])] + ToLowerAscii(s[1..]);
      KeepCons(LowerAscii(s[0]), ToLowerAscii(s[1..]), p);
      if p(s[0]) {
        var rest := Keep(s[1..], p);
        assert ToLowerAscii([s[0]] + rest) == [LowerAscii(s[0])] + ToLowerAscii(rest) by {
          assert ([s[0]] + rest)[1..] == rest;
        }
      }
    }
  }

  /** The non-angle, non-space characters of the input survive trimming, lower-casing and stripping, in order. */
  lemma EmailKeepsWords(email: string)
    ensures Keep(Keep(ToLowerAscii(Trim(email)), NotAngle), NonWhitespace) == ToLowerAscii(Keep(email, IsEmailWordChar))
  {
    var t := Trim(email);
    KeepKeep(ToLowerAscii(t), NotAngle, NonWhitespace, IsEmailWordChar);
    LowerKeepsEmailWordChar();
    KeepLower(t, IsEmailWordChar);
    KeepTrim(email, IsEmailWordChar);
  }

  /** Lower-casing maps `A`-`Z` to `a`-`z`, none of which is an angle bracket or whitespace. */
  lemma LowerKeepsEmailWordChar()
    ensures forall c :: IsEmailWordChar(LowerAscii(c)) == IsEmailWordChar(c)
  {
    forall c
      ensures IsEmailWordChar(LowerAscii(c)) == IsEmailWordChar(c)
    {
      if 'A' <= c <= 'Z' {
        assert 'a' <= LowerAscii(c) <= 'z';
      }
    }
  }

  /** Brackets are removed after trimming, so a space next to one survives the first pass. */
  lemma SanitizeEmailNotIdempotent()
    ensures SanitizeEmail("< a") == " a"
    ensures SanitizeEmail(" a") == "a"
  {
    TrimOfTrimmed("< a");
    assert ToLowerAscii("< a") == "< a";
    assert Keep("< a", NotAngle) == " a" by {
      assert Keep("a", NotAngle) == "a";
      assert Keep(" a", NotAngle) == " a";
    }
    assert Trim(" a") == "a" by {
      assert TrimOffset(" a") == 1 by {
        assert SkipSpaces(" a", 0) == SkipSpaces(" a", 1);
      }
      assert TrimLimit(" a") == 2;
    }
    assert ToLowerAscii("a") == "a";
  }
}

=== FILE: seo.dfy ===
/** Per-route page metadata and the canonical URL of a page. */
module Seo {
  import opened Wrappers
  import BasePath

  datatype SeoConfig = SeoConfig(title: string, description: string, canonicalPath: string)

  /** `Partial<SeoConfig>`: a field that is `None` is absent from the override. */
  datatype SeoOverride = SeoOverride(title: Option<string>, description: Option<string>, canonicalPath: Option<string>)

  const SEO_MAP: map<string, SeoConfig> := map[
    "/" := SeoConfig(
      "StrongHomes Cleaning | Northwest Indiana | Lake & Porter Counties",
      "Premium home cleaning across Lake County and Porter County: Hammond, Hobart, Merrillville, Crown Point, Valparaiso, Schererville, St. John, Lowell. Vetted local crews in Northwest Indiana.",
      "/"),
    "/services" := SeoConfig(
      "Cleaning Services | Lake & Porter County Homes | StrongHomes",
      "Standard, deep, and move-in/out cleaning for Lake County and Porter County including Hammond, Hobart, Merrillville, Crown Point, Valparaiso, Schererville, St. John, and Lowell.",
      "/services"),
    "/services/standard" := SeoConfig(
      "Standard Cleaning | Hammond, Hobart, Merrillville, Crown Point, Valparaiso",
      "Recurring maintenance cleaning for Northwest Indiana homes in Lake County and Porter County. Reliable, detailed, and locally trusted.",
      "/services/standard"),
    "/services/deep" := SeoConfig(
      "Deep Cleaning | Lake & Porter County Specialists",
      "Top-to-bottom deep cleaning for homes across Hammond, Hobart, Merrillville, Crown Point, Valparaiso, Schererville, St. John, and Lowell. Perfect for resets and seasonal refreshes.",
      "/services/deep"),
    "/services/move-in-out" := SeoConfig(
      "Move-In / Move-Out Cleaning | Northwest Indiana",
      "White-glove move cleaning for Lake County and Porter County properties, covering Hammond, Hobart, Merrillville, Crown Point, Valparaiso, Schererville, St. John, and Lowell.",
      "/services/move-in-out"),
    "/quote" := SeoConfig(
      "Get a Quote | StrongHomes Cleaning | Lake & Porter Counties",
      "Fast home cleaning estimates for Hammond, Hobart, Merrillville, Crown Point, Valparaiso, Schererville, St. John, Lowell, and surrounding Lake & Porter County areas.",
      "/quote"),
    "/contact" := SeoConfig(
      "Contact StrongHomes | Northwest Indiana Cleaning",
      "Reach StrongHomes Cleaning for Lake County and Porter County service questions. Serving Hammond, Hobart, Merrillville, Crown Point, Valparaiso, Schererville, St. John, and Lowell.",
      "/contact"),
    "/privacy" := SeoConfig(
      "Privacy Policy | StrongHomes Cleaning",
      "Privacy practices for StrongHomes Cleaning. How we handle estimate and contact information for Lake & Porter County customers.",
      "/privacy"),
    "/terms" := SeoConfig(
      "Terms & Conditions | StrongHomes Cleaning",
      "Service terms, scheduling, and cancellations for StrongHomes Cleaning in Lake & Porter Counties.",
      "/terms")
  ]

  /** Every route's canonical path is its own key. */
  lemma SeoMapCanonicalIsKey()
    ensures "/" in SEO_MAP
    ensures forall k :: k in SEO_MAP ==> SEO_MAP[k].canonicalPath == k
    ensures forall k :: k in SEO_MAP ==> |k| > 0 && k[0] == '/'
  {
  }

  /** `SEO_MAP[pathname] ?? SEO_MAP['/']` */
  function LookupConfig(pathname: string): (c: SeoConfig)
    ensures pathname in SEO_MAP ==> c == SEO_MAP[pathname]
    ensures pathname !in SEO_MAP ==> c == SEO_MAP["/"]
  {
    if pathname in SEO_MAP then SEO_MAP[pathname] else SEO_MAP["/"]
  }

  /** `{ ...baseConfig, ...override }`: a field the override sets wins, any other keeps the base value. */
  function Merge(base: SeoConfig, override: SeoOverride): (c: SeoConfig)
    ensures override.title.Some? ==> c.title == override.title.value
    ensures override.description.Some? ==> c.description == override.description.value
    ensures override.canonicalPath.Some? ==> c.canonicalPath == override.canonicalPath.value
    ensures override.title.None? ==> c.title == base.title
    ensures override.description.None? ==> c.description == base.description
    ensures override.canonicalPath.None? ==> c.canonicalPath == base.canonicalPath
    ensures override == SeoOverride(None, None, None) ==> c == base
  {
    SeoConfig(
      override.title.GetOr(base.title),
      override.description.GetOr(base.description),
      override.canonicalPath.GetOr(base.canonicalPath))
  }

  /** The configuration a page renders with. */
  function ResolveConfig(pathname: string, override: SeoOverride): (c: SeoConfig)
    ensures override == SeoOverride(None, None, None) ==> c == LookupConfig(pathname)
    ensures override.title.Some? ==> c.title == override.title.value
    ensures override.description.Some? ==> c.description == override.description.value
    ensures override.canonicalPath.Some? ==> c.canonicalPath == override.canonicalPath.value
    ensures override.title.None? ==> c.title == LookupConfig(pathname).title
    ensures override.description.None? ==> c.description == LookupConfig(pathname).description
    ensures override.canonicalPath.None? ==> c.canonicalPath == LookupConfig(pathname).canonicalPath
  {
    Merge(LookupConfig(pathname), override)
  }

  /** An unknown route renders with the home page's configuration. */
  lemma UnknownRouteFallsBack(pathname: string)
    requires pathname !in SEO_MAP
    ensures ResolveConfig(pathname, SeoOverride(None, None, None)) == SEO_MAP["/"]
    ensures ResolveConfig(pathname, SeoOverride(None, None, None)).canonicalPath == "/"
  {
  }

  /** `.replace(/\/$/, '')`: at most one trailing slash removed. */
  function StripTrailingSlash(p: string): (r: string)
    ensures r == p || r + "/" == p
    ensures |p| > 0 && p[|p| - 1] == '/' <==> r + "/" == p
  {
    if |p| > 0 && p[|p| - 1] == '/' then p[..|p| - 1] else p
  }

  /** `cleanPath ? '#/' + cleanPath : '#/'` */
  function HashPart(cleanPath: string): string {
    if cleanPath != "" then "#/" + cleanPath else "#/"
  }

  /** Both branches of the hash route agree: it is always `#/` followed by the clean path. */
  lemma HashPartIsPrefixed(cleanPath: string)
    ensures HashPart(cleanPath) == "#/" + cleanPath
  {
  }

  /**
   * `buildCanonical`: with a window origin, origin + current path + hash
   * route; without one, the base path followed by the clean path.
   * `origin` is `""` when there is no window.
   */
  function BuildCanonical(canonicalPath: string, origin: string, pathname: string, baseUrl: BasePath.EnvValue): (url: string)
    ensures origin != "" && |canonicalPath| > 0 && canonicalPath[0] == '/' ==>
      url == origin + StripTrailingSlash(pathname) + "#" + canonicalPath
    ensures origin != "" && !(|canonicalPath| > 0 && canonicalPath[0] == '/') ==>
      url == origin + StripTrailingSlash(pathname) + "#/" + canonicalPath
    ensures origin == "" ==> url == BasePath.BuildAssetUrl(baseUrl, canonicalPath)
  {
    var base := BasePath.GetBase(baseUrl);
    var pathWithoutTrailingSlash := StripTrailingSlash(pathname);
    var cleanPath := BasePath.StripLeadingSlash(canonicalPath);
    var hashPath := HashPart(cleanPath);
    if origin != "" then origin + pathWithoutTrailingSlash + hashPath else base + cleanPath
  }

  /** With an origin, the hash route never repeats the slash the canonical path starts with. */
  lemma CanonicalExamples()
    ensures BuildCanonical("/quote", "https://example.com", "/site/", BasePath.Missing)
      == "https://example.com/site#/quote"
    ensures BuildCanonical("/", "https://example.com", "/", BasePath.Missing) == "https://example.com#/"
    ensures BuildCanonical("/quote", "", "", BasePath.Missing) == "./quote"
  {
    assert ("/site/")[..5] == "/site";
    assert ("/quote")[1..] == "quote";
    assert ("/")[..0] == "";
    assert ("/")[1..] == "";
  }

  /**
   * Writing the canonical path with or without its leading slash gives the
   * same canonical URL, with or without a window.
   */
  lemma CanonicalIgnoresOneSlash(p: string, origin: string, pathname: string, baseUrl: BasePath.EnvValue)
    requires !(|p| > 0 && p[0] == '/')
    ensures BuildCanonical("/" + p, origin, pathname, baseUrl) == BuildCanonical(p, origin, pathname, baseUrl)
  {
    assert ("/" + p)[1..] == p;
  }

  /**
   * With a window, the text after the current path's `#/` gives back the
   * canonical path without its leading slash, and the part before it is the
   * origin and the current path, whatever the base.
   */
  lemma CanonicalHashRecoversPath(canonicalPath: string, origin: string, pathname: string, baseUrl: BasePath.EnvValue)
    requires origin != ""
    ensures var url := BuildCanonical(canonicalPath, origin, pathname, baseUrl);
      var k := |origin| + |StripTrailingSlash(pathname)|;
      && |url| >= k + 2
      && url[..k] == origin + StripTrailingSlash(pathname)
      && url[k..k + 2] == "#/"
      && url[k + 2..] == BasePath.StripLeadingSlash(canonicalPath)
  {
    var url := BuildCanonical(canonicalPath, origin, pathname, baseUrl);
    var head := origin + StripTrailingSlash(pathname);
    assert url == head + "#/" + BasePath.StripLeadingSlash(canonicalPath);
  }

  /** Every route in the map is written after the hash as its own key. */
  lemma MapRouteCanonical(route: string, origin: string, pathname: string, baseUrl: BasePath.EnvValue)
    requires route in SEO_MAP && origin != ""
    ensures BuildCanonical(SEO_MAP[route].canonicalPath, origin, pathname, baseUrl)
      == origin + StripTrailingSlash(pathname) + "#" + route
  {
    SeoMapCanonicalIsKey();
  }

  const OG_IMAGE_FILE := "og-image.svg"

  /**
   * `ogImageUrl`: the window origin (`""` without a window), the base path,
   * then the image file, which therefore always sits right after a slash.
   */
  function OgImageUrl(origin: string, baseUrl: BasePath.EnvValue): (url: string)
    ensures |url| > |origin| + |OG_IMAGE_FILE| && url[..|origin|] == origin
    ensures url[|url| - |OG_IMAGE_FILE| - 1..] == "/" + OG_IMAGE_FILE
    ensures url == origin + BasePath.BuildAssetUrl(baseUrl, OG_IMAGE_FILE)
  {
    var base := BasePath.GetBase(baseUrl);
    var url := origin + base + OG_IMAGE_FILE;
    assert url[|url| - |OG_IMAGE_FILE| - 1] == base[|base| - 1];
    assert BasePath.StripLeadingSlash(OG_IMAGE_FILE) == OG_IMAGE_FILE;
    url
  }
}

=== FILE: submit_guard.dfy ===
/** `SubmitGuard`: a flag that lets one submission through at a time. */
module SubmitGuard {

  datatype Guard = Guard(isSubmitting: bool)

  const Initial := Guard(false)

  /** `startSubmit`: whether the submission may go ahead, and the guard afterwards. */
  datatype Started = Started(ok: bool, guard: Guard)

  function CanSubmit(g: Guard): bool {
    !g.isSubmitting
  }

  function StartSubmit(g: Guard): (r: Started)
    ensures r.ok <==> CanSubmit(g)
    ensures r.guard.isSubmitting && !CanSubmit(r.guard)
    ensures !r.ok ==> r.guard == g
  {
    if g.isSubmitting then Started(false, g) else Started(true, Guard(true))
  }

  function EndSubmit(g: Guard): (r: Guard)
    ensures CanSubmit(r)
  {
    Guard(false)
  }

  /** A second start before the end is refused and changes nothing. */
  lemma SecondStartRefused(g: Guard)
    ensures var s := StartSubmit(StartSubmit(g).guard);
      !s.ok && s.guard == StartSubmit(g).guard
  {
  }

  /** Ending reopens the guard for exactly one more start. */
  lemma EndReopens(g: Guard)
    ensures StartSubmit(EndSubmit(StartSubmit(g).guard)).ok
    ensures !StartSubmit(StartSubmit(EndSubmit(g)).guard).ok
  {
  }
}

=== FILE: text.dfy ===
/**
 * The JavaScript string primitives the forms rely on: the `\s`, `\d` and
 * `[a-zA-Z]` regular-expression classes, `String.prototype.trim`, the
 * UTF-16 `length`, and global `replace` with a character class.
 */
module Text {

  /** ECMAScript WhiteSpace plus LineTerminator: the set `\s` matches and `trim` strips. */
  predicate IsSpace(c: char) {
    || c == '\t' || c == '\n' || c == '\U{000B}' || c == '\U{000C}' || c == '\r'
    || c == ' ' || c == '\U{00A0}' || c == '\U{1680}'
    || ('\U{2000}' <= c <= '\U{200A}')
    || c == '\U{2028}' || c == '\U{2029}' || c == '\U{202F}' || c == '\U{205F}'
    || c == '\U{3000}' || c == '\U{FEFF}'
  }

  /** `\d`: ASCII digits only. */
  predicate IsDigit(c: char) {
    '0' <= c <= '9'
  }

  /** `[a-zA-Z]` */
  predicate IsAsciiLetter(c: char) {
    ('a' <= c <= 'z') || ('A' <= c <= 'Z')
  }

  /** Not matched by `\s`. */
  predicate NonWhitespace(c: char) {
    !IsSpace(c)
  }

  predicate AllChars(s: string, p: char -> bool) {
    forall i :: 0 <= i < |s| ==> p(s[i])
  }

  predicate AllSpace(s: string) {
    forall i :: 0 <= i < |s| ==> IsSpace(s[i])
  }

  /** `p` occurs in `s` as a contiguous piece. */
  predicate HasSubstring(s: string, p: string) {
    exists i | 0 <= i <= |s| :: OccursAt(s, p, i)
  }

  predicate OccursAt(s: string, p: string, i: int) {
    0 <= i <= |s| - |p| && s[i..i + |p|] == p
  }

  /** No leading or trailing whitespace. */
  predicate IsTrimmed(s: string) {
    |s| == 0 || (!IsSpace(s[0]) && !IsSpace(s[|s| - 1]))
  }

  // ---------------------------------------------------------------------------
  // trim
  // ---------------------------------------------------------------------------

  /** The first index at or after `i` that does not hold whitespace, or `|s|`. */
  function SkipSpaces(s: string, i: nat): (j: nat)
    requires i <= |s|
    ensures i <= j <= |s|
    ensures forall k :: i <= k < j ==> IsSpace(s[k])
    ensures j < |s| ==> !IsSpace(s[j])
    decreases |s| - i
  {
    if i < |s| && IsSpace(s[i]) then SkipSpaces(s, i + 1) else i
  }

  /** Walking back from `j`, but not past `lo`, the end of the last non-whitespace character. */
  function SkipSpacesBack(s: string, lo: nat, j: nat): (k: nat)
    requires lo <= j <= |s|
    ensures lo <= k <= j
    ensures forall m :: k <= m < j ==> IsSpace(s[m])
    ensures k > lo ==> !IsSpace(s[k - 1])
    ensures lo < j && !IsSpace(s[lo]) ==> lo < k
  {
    if j > lo && IsSpace(s[j - 1]) then SkipSpacesBack(s, lo, j - 1) else j
  }

  /** Where the trimmed text starts: every character before it is whitespace. */
  function TrimOffset(s: string): (o: nat)
    ensures o <= |s|
    ensures forall k :: 0 <= k < o ==> IsSpace(s[k])
    ensures o < |s| ==> !IsSpace(s[o])
  {
    SkipSpaces(s, 0)
  }

  /** Where the trimmed text ends: every character from there on is whitespace. */
  function TrimLimit(s: string): (l: nat)
    ensures TrimOffset(s) <= l <= |s|
    ensures forall k :: l <= k < |s| ==> IsSpace(s[k])
    ensures l > TrimOffset(s) ==> !IsSpace(s[l - 1])
    ensures TrimOffset(s) < |s| ==> TrimOffset(s) < l
  {
    SkipSpacesBack(s, TrimOffset(s), |s|)
  }

  /** `String.prototype.trim`. */
  function Trim(s: string): (r: string)
    ensures |r| == TrimLimit(s) - TrimOffset(s)
    ensures forall i :: 0 <= i < |r| ==> r[i] == s[TrimOffset(s) + i]
    ensures IsTrimmed(r)
  {
    s[TrimOffset(s)..TrimLimit(s)]
  }

  /** What `trim` returns is every character of the input between the first and last non-space. */
  lemma TrimKeepsChars(s: string, p: char -> bool)
    requires AllChars(s, p)
    ensures AllChars(Trim(s), p)
  {
    var r := Trim(s);
    var k := TrimOffset(s);
    forall i | 0 <= i < |r| ensures p(r[i]) {
      assert r[i] == s[k + i];
    }
  }

  /** The trimmed text is empty exactly when the input is whitespace only. */
  lemma TrimEmptyIff(s: string)
    ensures |Trim(s)| == 0 <==> AllSpace(s)
  {
  }

  /** `trim` leaves text without leading or trailing whitespace untouched. */
  lemma TrimOfTrimmed(s: string)
    requires IsTrimmed(s)
    ensures Trim(s) == s
  {
    if |s| > 0 {
      assert TrimOffset(s) == 0;
      assert SkipSpacesBack(s, 0, |s|) == |s|;
    }
  }

  /** `trim` is idempotent. */
  lemma TrimIdempotent(s: string)
    ensures Trim(Trim(s)) == Trim(s)
  {
    TrimOfTrimmed(Trim(s));
  }

  // ---------------------------------------------------------------------------
  // length, filtering, counting
  // ---------------------------------------------------------------------------

  /** `.length`: UTF-16 code units, two for a character outside the Basic Multilingual Plane. */
  function Utf16Len(s: string): (n: nat)
    ensures |s| <= n <= 2 * |s|
  {
    if |s| == 0 then 0
    else Utf16Len(s[..|s| - 1]) + (if s[|s| - 1] as int > 0xFFFF then 2 else 1)
  }

  lemma Utf16LenAscii(s: string)
    requires forall i :: 0 <= i < |s| ==> s[i] as int < 0x80
    ensures Utf16Len(s) == |s|
  {
    if |s| > 0 {
      Utf16LenAscii(s[..|s| - 1]);
    }
  }

  /** `s.replace(/[^P]/g, '')`: the characters of `s` that satisfy `p`, in order. */
  function Keep(s: string, p: char -> bool): (r: string)
    ensures |r| <= |s|
    ensures AllChars(r, p)
    ensures AllChars(s, p) ==> r == s
    ensures forall c :: c in r ==> c in s
  {
    if |s| == 0 then []
    else if p(s[0]) then [s[0]] + Keep(s[1..], p)
    else Keep(s[1..], p)
  }

  /** Dropping characters keeps every property all the characters already had. */
  lemma KeepPreserves(s: string, p: char -> bool, q: char -> bool)
    requires AllChars(s, q)
    ensures AllChars(Keep(s, p), q)
  {
    if |s| > 0 {
      KeepPreserves(s[1..], p, q);
    }
  }

  lemma KeepAppend(a: string, b: string, p: char -> bool)
    ensures Keep(a + b, p) == Keep(a, p) + Keep(b, p)
  {
    if |a| > 0 {
      assert (a + b)[1..] == a[1..] + b;
      KeepAppend(a[1..], b, p);
    } else {
      assert a + b == b;
    }
  }

  lemma KeepNoneOf(s: string, p: char -> bool)
    requires forall i :: 0 <= i < |s| ==> !p(s[i])
    ensures Keep(s, p) == []
  {
    if |s| > 0 {
      KeepNoneOf(s[1..], p);
    }
  }

  lemma KeepCons(c: char, x: string, p: char -> bool)
    ensures Keep([c] + x, p) == if p(c) then [c] + Keep(x, p) else Keep(x, p)
  {
    assert ([c] + x)[1..] == x;
  }

  /** A prefix of characters that all fail `p` contributes nothing to the filtered text. */
  lemma {:induction false} KeepSkip(s: string, k: nat, p: char -> bool)
    requires k <= |s|
    requires forall i :: 0 <= i < k ==> !p(s[i])
    ensures Keep(s, p) == Keep(s[k..], p)
  {
    if k > 0 {
      assert s[1..][k - 1..] == s[k..];
      KeepSkip(s[1..], k - 1, p);
    }
  }

  /** Filtering twice is filtering once by the conjunction. */
  lemma KeepKeep(s: string, p: char -> bool, q: char -> bool, both: char -> bool)
    requires forall c :: both(c) == (p(c) && q(c))
    ensures Keep(Keep(s, p), q) == Keep(s, both)
  {
    if |s| > 0 {
      KeepKeep(s[1..], p, q, both);
      if p(s[0]) {
        KeepCons(s[0], Keep(s[1..], p), q);
      }
    }
  }

  /** A filter that rejects every whitespace character does not see what `trim` removes. */
  lemma KeepTrim(s: string, p: char -> bool)
    requires forall c :: IsSpace(c) ==> !p(c)
    ensures Keep(Trim(s), p) == Keep(s, p)
  {
    var k, l := TrimOffset(s), TrimLimit(s);
    var front := s[..l];
    assert s == front + s[l..];
    KeepAppend(front, s[l..], p);
    KeepNoneOf(s[l..], p);
    KeepSkip(front, k, p);
    assert front[k..] == Trim(s);
  }

  /** Number of ASCII digits (the length of `s.replace(/\D/g, '')`). */
  function DigitCount(s: string): nat {
    |Keep(s, IsDigit)|
  }

  /** Whitespace contributes no digits, so trimming keeps the digit count. */
  lemma DigitCountTrim(s: string)
    ensures DigitCount(Trim(s)) == DigitCount(s)
  {
    var k := TrimOffset(s);
    var r := Trim(s);
    var a, b := s[..k], s[k + |r|..];
    assert s == a + r + b;
    KeepAppend(a + r, b, IsDigit);
    KeepAppend(a, r, IsDigit);
    SpacesHaveNoDigits(a);
    SpacesHaveNoDigits(b);
  }

  lemma SpacesHaveNoDigits(s: string)
    requires AllSpace(s)
    ensures Keep(s, IsDigit) == []
  {
    forall i | 0 <= i < |s| ensures !IsDigit(s[i]) {
      assert IsSpace(s[i]);
    }
    KeepNoneOf(s, IsDigit);
  }

  lemma Utf16LenAppend(a: string, b: string)
    ensures Utf16Len(a + b) == Utf16Len(a) + Utf16Len(b)
  {
    if |b| > 0 {
      assert (a + b)[..|a + b| - 1] == a + b[..|b| - 1];
      Utf16LenAppend(a, b[..|b| - 1]);
    } else {
      assert a + b == a;
    }
  }

  /** A piece of a string is no longer than the string. */
  lemma Utf16LenTrim(s: string)
    ensures Utf16Len(Trim(s)) <= Utf16Len(s)
  {
    var k := TrimOffset(s);
    var r := Trim(s);
    assert s == s[..k] + r + s[k + |r|..];
    Utf16LenAppend(s[..k] + r, s[k + |r|..]);
    Utf16LenAppend(s[..k], r);
  }

  // ---------------------------------------------------------------------------
  // decimal rendering of a count, as template literals print it
  // ---------------------------------------------------------------------------

  function DigitChar(d: nat): (c: char)
    requires d < 10
    ensures IsDigit(c) && c as int - '0' as int == d
  {
    ('0' as int + d) as char
  }

  /** The decimal digits of `n`, most significant first, without leading zeros. */
  function NatToString(n: nat): (s: string)
    ensures |s| > 0 && AllChars(s, IsDigit)
    ensures |s| > 1 ==> s[0] != '0'
  {
    if n < 10 then [DigitChar(n)] else NatToString(n / 10) + [DigitChar(n % 10)]
  }

  /** The number a string of decimal digits denotes. */
  function DigitsValue(s: string): nat
    requires AllChars(s, IsDigit)
  {
    if |s| == 0 then 0
    else DigitsValue(s[..|s| - 1]) * 10 + (s[|s| - 1] as int - '0' as int)
  }

  /** Reading the rendered digits back gives the number. */
  lemma {:induction false} NatToStringRoundTrip(n: nat)
    ensures DigitsValue(NatToString(n)) == n
  {
    var s := NatToString(n);
    if n >= 10 {
      NatToStringRoundTrip(n / 10);
      assert s[..|s| - 1] == NatToString(n / 10);
    }
  }
}

=== FILE: validators.dfy ===
/**
 * The field validators of the form-safety layer. Each trims its input and
 * returns a verdict with a user-facing reason; none of them throws.
 */
module Validators {
  import opened Text

  /** `ValidationResult`: `{ isValid: true }` or `{ isValid: false, error }`. */
  datatype Verdict = Pass | Fail(error: string)

  const NAME_REQUIRED := "Name is required"
  const NAME_LENGTH := "Name must be between 1 and 60 characters"
  const NAME_CHARSET := "Name can only contain letters, spaces, hyphens, apostrophes, and periods"
  const EMAIL_REQUIRED := "Email is required"
  const EMAIL_LENGTH := "Email must be between 3 and 254 characters"
  const EMAIL_FORMAT := "Please enter a valid email address"
  const PHONE_LENGTH := "Phone number must have between 7 and 20 digits"
  const PHONE_CHARSET := "Phone number can only contain digits, spaces, hyphens, parentheses, and plus sign"
  const MESSAGE_REQUIRED := "Message is required"
  const MESSAGE_LENGTH := "Message must be 1000 characters or less"
  const ZIP_REQUIRED := "ZIP code is required"
  const ZIP_FORMAT := "ZIP code must be 5 digits"
  const ZIP_AREA_LEAD := "Sorry, we currently only serve Lake and Porter Counties in Northwest Indiana. Please call us at "
  const ZIP_AREA_PHONE := "(219) 615-9477"
  const ZIP_OUT_OF_AREA := ZIP_AREA_LEAD + ZIP_AREA_PHONE + " to discuss service availability."

  const NAME_MAX := 60
  const EMAIL_MIN := 3
  const EMAIL_MAX := 254
  const PHONE_MIN_DIGITS := 7
  const PHONE_MAX_DIGITS := 20
  const MESSAGE_MAX := 1000

  /** A character that lets every whitespace character through also survives trimming unchanged. */
  lemma AllCharsTrimIff(s: string, p: char -> bool)
    requires forall c :: IsSpace(c) ==> p(c)
    ensures AllChars(Trim(s), p) <==> AllChars(s, p)
  {
    if AllChars(Trim(s), p) {
      var k := TrimOffset(s);
      var r := Trim(s);
      assert s == s[..k] + r + s[k + |r|..];
    } else {
      if AllChars(s, p) {
        TrimKeepsChars(s, p);
      }
    }
  }

  // ---------------------------------------------------------------------------
  // name
  // ---------------------------------------------------------------------------

  /** `[a-zA-Z\s\-'.]` */
  predicate IsNameChar(c: char) {
    IsAsciiLetter(c) || IsSpace(c) || c == '-' || c == '\'' || c == '.'
  }

  function ValidateName(name: string): (v: Verdict)
    ensures v.Pass? <==>
      !AllSpace(name) && Utf16Len(Trim(name)) <= NAME_MAX && AllChars(name, IsNameChar)
    ensures v == Fail(NAME_REQUIRED) <==> AllSpace(name)
    ensures v == Fail(NAME_LENGTH) <==> !AllSpace(name) && Utf16Len(Trim(name)) > NAME_MAX
    ensures v == Fail(NAME_CHARSET) <==>
      !AllSpace(name) && Utf16Len(Trim(name)) <= NAME_MAX && !AllChars(name, IsNameChar)
  {
    TrimEmptyIff(name);
    AllCharsTrimIff(name, IsNameChar);
    var t := Trim(name);
    if |t| == 0 then Fail(NAME_REQUIRED)
    else if Utf16Len(t) < 1 || Utf16Len(t) > NAME_MAX then Fail(NAME_LENGTH)
    else if !AllChars(t, IsNameChar) then Fail(NAME_CHARSET)
    else Pass
  }

  /**
   * Any text made of name characters, at most 60 long, is accepted as long
   * as it is not whitespace only.
   */
  lemma NameOfNameCharsAccepted(s: string)
    requires AllChars(s, IsNameChar) && Utf16Len(s) <= NAME_MAX
    requires exists i | 0 <= i < |s| :: !IsSpace(s[i])
    ensures ValidateName(s) == Pass
  {
    Utf16LenTrim(s);
  }

  /** Whitespace-only text is made of allowed characters, yet it is refused as missing. */
  lemma BlankNameRefused()
    ensures AllChars("  ", IsNameChar) && ValidateName("  ") == Fail(NAME_REQUIRED)
  {
    assert AllSpace("  ");
  }

  // ---------------------------------------------------------------------------
  // email
  // ---------------------------------------------------------------------------

  /** `[^\s@]` */
  predicate IsEmailChar(c: char) {
    !IsSpace(c) && c != '@'
  }

  /**
   * `/^[^\s@]+@[^\s@]+\.[^\s@]+$/` matched with the `@` at index `a` and
   * the separating dot at index `d`.
   */
  predicate EmailMatchAt(t: string, a: int, d: int) {
    && 0 < a && a + 1 < d < |t| - 1
    && t[a] == '@' && t[d] == '.'
    && AllChars(t[..a], IsEmailChar)
    && AllChars(t[a + 1..d], IsEmailChar)
    && AllChars(t[d + 1..], IsEmailChar)
  }

  /** The regular expression accepts `t`. */
  ghost predicate MatchesEmailPattern(t: string) {
    exists a, d :: EmailMatchAt(t, a, d)
  }

  /** Index of the first `c` in `s`, or `|s|` when there is none. */
  function IndexOf(s: string, c: char): (i: nat)
    ensures i <= |s|
    ensures i < |s| ==> s[i] == c
    ensures forall j :: 0 <= j < i ==> s[j] != c
  {
    if |s| == 0 then 0
    else if s[0] == c then 0
    else 1 + IndexOf(s[1..], c)
  }

  lemma {:induction false} IndexOfFirst(s: string, c: char, i: int)
    requires 0 <= i < |s| && s[i] == c
    requires forall j :: 0 <= j < i ==> s[j] != c
    ensures IndexOf(s, c) == i
  {
    if i > 0 {
      IndexOfFirst(s[1..], c, i - 1);
    }
  }

  /** The executable form of the email pattern: one `@` with text before it, no whitespace, and a dot inside the part after it. */
  predicate EmailShape(t: string) {
    var a := IndexOf(t, '@');
    && 0 < a < |t|
    && (forall i :: a < i < |t| ==> t[i] != '@')
    && (forall i :: 0 <= i < |t| ==> !IsSpace(t[i]))
    && (exists d | a + 1 < d < |t| - 1 :: t[d] == '.')
  }

  lemma EmailShapeMatchesPattern(t: string)
    requires EmailShape(t)
    ensures MatchesEmailPattern(t)
  {
    var a := IndexOf(t, '@');
    var d :| a + 1 < d < |t| - 1 && t[d] == '.';
    assert EmailMatchAt(t, a, d);
  }

  lemma PatternHasEmailShape(t: string)
    requires MatchesEmailPattern(t)
    ensures EmailShape(t)
  {
    var a, d :| EmailMatchAt(t, a, d);
    forall j | 0 <= j < a ensures t[j] != '@' {
      assert t[..a][j] == t[j];
    }
    IndexOfFirst(t, '@', a);
    forall i | 0 <= i < |t| ensures !IsSpace(t[i]) && (i > a ==> t[i] != '@') {
      if i < a {
        assert t[..a][i] == t[i];
      } else if a < i < d {
        assert t[a + 1..d][i - a - 1] == t[i];
      } else if d < i {
        assert t[d + 1..][i - d - 1] == t[i];
      }
    }
  }

  lemma EmailShapeMatches(t: string)
    ensures EmailShape(t) <==> MatchesEmailPattern(t)
  {
    if EmailShape(t) {
      EmailShapeMatchesPattern(t);
    }
    if MatchesEmailPattern(t) {
      PatternHasEmailShape(t);
    }
  }

  function ValidateEmail(email: string): (v: Verdict)
    ensures v.Pass? <==>
      var t := Trim(email);
      EMAIL_MIN <= Utf16Len(t) <= EMAIL_MAX && MatchesEmailPattern(t)
    ensures v == Fail(EMAIL_REQUIRED) <==> AllSpace(email)
    ensures v == Fail(EMAIL_LENGTH) <==>
      !AllSpace(email) && !(EMAIL_MIN <= Utf16Len(Trim(email)) <= EMAIL_MAX)
    ensures v == Fail(EMAIL_FORMAT) <==>
      !AllSpace(email) && EMAIL_MIN <= Utf16Len(Trim(email)) <= EMAIL_MAX && !MatchesEmailPattern(Trim(email))
  {
    TrimEmptyIff(email);
    var t := Trim(email);
    EmailShapeMatches(t);
    if |t| == 0 then Fail(EMAIL_REQUIRED)
    else if Utf16Len(t) < EMAIL_MIN || Utf16Len(t) > EMAIL_MAX then Fail(EMAIL_LENGTH)
    else if !EmailShape(t) then Fail(EMAIL_FORMAT)
    else Pass
  }

  /** The accepted address has exactly one `@`, a non-empty local part and no whitespace. */
  lemma AcceptedEmailShape(email: string)
    requires ValidateEmail(email) == Pass
    ensures var t := Trim(email);
      var a := IndexOf(t, '@');
      && 0 < a < |t|
      && (forall i :: 0 <= i < |t| && i != a ==> t[i] != '@')
      && (forall i :: 0 <= i < |t| ==> !IsSpace(t[i]))
  {
    EmailShapeMatches(Trim(email));
  }

  // ---------------------------------------------------------------------------
  // phone
  // ---------------------------------------------------------------------------

  /** `[\d\s\-()+ ]` */
  predicate IsPhoneChar(c: char) {
    IsDigit(c) || IsSpace(c) || c == '-' || c == '(' || c == ')' || c == '+'
  }

  /**
   * Blank input passes (the field is optional); otherwise the digit count
   * is checked before the character set.
   */
  function ValidatePhone(phone: string): (v: Verdict)
    ensures v.Pass? <==>
      AllSpace(phone) ||
      (PHONE_MIN_DIGITS <= DigitCount(phone) <= PHONE_MAX_DIGITS && AllChars(phone, IsPhoneChar))
    ensures v == Fail(PHONE_LENGTH) <==>
      !AllSpace(phone) && !(PHONE_MIN_DIGITS <= DigitCount(phone) <= PHONE_MAX_DIGITS)
    ensures v == Fail(PHONE_CHARSET) <==>
      && !AllSpace(phone)
      && PHONE_MIN_DIGITS <= DigitCount(phone) <= PHONE_MAX_DIGITS
      && !AllChars(phone, IsPhoneChar)
  {
    TrimEmptyIff(phone);
    DigitCountTrim(phone);
    AllCharsTrimIff(phone, IsPhoneChar);
    var t := Trim(phone);
    if |t| == 0 then Pass
    else
      var digitsOnly := Keep(t, IsDigit);
      if |digitsOnly| < PHONE_MIN_DIGITS || |digitsOnly| > PHONE_MAX_DIGITS then Fail(PHONE_LENGTH)
      else if !AllChars(t, IsPhoneChar) then Fail(PHONE_CHARSET)
      else Pass
  }

  /** Six digits are too few. */
  lemma SixDigitPhoneRefused()
    ensures ValidatePhone("123456") == Fail(PHONE_LENGTH)
  {
    assert !AllSpace("123456") by { assert !IsSpace("123456"[0]); }
    assert Keep("123456", IsDigit) == "123456";
  }

  // ---------------------------------------------------------------------------
  // message
  // ---------------------------------------------------------------------------

  /** Free text: required and at most 1000 long, with no character restriction. */
  function ValidateMessage(message: string): (v: Verdict)
    ensures v.Pass? <==> !AllSpace(message) && Utf16Len(Trim(message)) <= MESSAGE_MAX
    ensures v == Fail(MESSAGE_REQUIRED) <==> AllSpace(message)
    ensures v == Fail(MESSAGE_LENGTH) <==> !AllSpace(message) && Utf16Len(Trim(message)) > MESSAGE_MAX
  {
    TrimEmptyIff(message);
    var t := Trim(message);
    if |t| == 0 then Fail(MESSAGE_REQUIRED)
    else if Utf16Len(t) > MESSAGE_MAX then Fail(MESSAGE_LENGTH)
    else Pass
  }

  // ---------------------------------------------------------------------------
  // ZIP code
  // ---------------------------------------------------------------------------

  /** Lake County and Porter County, Indiana. */
  const VALID_ZIP_CODES: seq<string> := [
    "46320", "46321", "46322", "46323", "46324", "46327", "46341", "46342",
    "46373", "46375", "46376", "46377", "46394", "46401", "46402", "46403",
    "46404", "46405", "46406", "46407", "46408", "46409", "46410", "46411",
    "46312", "46319", "46356",
    "46301", "46303", "46304", "46307", "46308", "46310", "46311", "46347",
    "46360", "46361", "46368", "46383", "46385"
  ]

  predicate IsFiveDigits(z: string) {
    |z| == 5 && IsDigit(z[0]) && IsDigit(z[1]) && IsDigit(z[2]) && IsDigit(z[3]) && IsDigit(z[4])
  }

  predicate IsFourDigits(z: string) {
    |z| == 4 && IsDigit(z[0]) && IsDigit(z[1]) && IsDigit(z[2]) && IsDigit(z[3])
  }

  /** `/^\d{5}(-\d{4})?$/` */
  predicate IsZipFormat(t: string) {
    || (|t| == 5 && IsFiveDigits(t))
    || (|t| == 10 && IsFiveDigits(t[..5]) && t[5] == '-' && IsFourDigits(t[6..]))
  }

  function ValidateZipCode(zip: string): (v: Verdict)
    ensures v.Pass? <==>
      var t := Trim(zip);
      && |t| >= 5 && t[..5] in VALID_ZIP_CODES
      && (|t| == 5 || (|t| == 10 && t[5] == '-' && IsFourDigits(t[6..])))
    ensures v == Fail(ZIP_REQUIRED) <==> AllSpace(zip)
    ensures v == Fail(ZIP_FORMAT) <==> !AllSpace(zip) && !IsZipFormat(Trim(zip))
    ensures v == Fail(ZIP_OUT_OF_AREA) <==>
      var t := Trim(zip);
      IsZipFormat(t) && t[..5] !in VALID_ZIP_CODES
  {
    TrimEmptyIff(zip);
    AllowlistIsFiveDigits();
    var t := Trim(zip);
    if |t| == 0 then Fail(ZIP_REQUIRED)
    else if !IsZipFormat(t) then Fail(ZIP_FORMAT)
    else if t[..5] !in VALID_ZIP_CODES then Fail(ZIP_OUT_OF_AREA)
    else Pass
  }

  /** The allowlist holds 40 entries, each a well-formed five-digit ZIP. */
  lemma AllowlistIsFiveDigits()
    ensures |VALID_ZIP_CODES| == 40
    ensures forall z :: z in VALID_ZIP_CODES ==> IsFiveDigits(z)
  {
    assert forall i :: 0 <= i < |VALID_ZIP_CODES| ==> IsFiveDigits(VALID_ZIP_CODES[i]);
  }

  /** Hammond (46320) is served. */
  lemma HammondZipAccepted()
    ensures ValidateZipCode("46320") == Pass
  {
    TrimOfTrimmed("46320");
    assert "46320" == VALID_ZIP_CODES[0];
  }

  /** Every allowlisted ZIP, typed as it is, is accepted. */
  lemma AllowlistedZipAccepted(z: string)
    requires z in VALID_ZIP_CODES
    ensures ValidateZipCode(z) == Pass
  {
    AllowlistIsFiveDigits();
    TrimOfTrimmed(z);
    assert z[..5] == z;
  }

  /** 99999 is well formed but outside the area. */
  lemma FarZipOutOfArea()
    ensures ValidateZipCode("99999") == Fail(ZIP_OUT_OF_AREA)
  {
    TrimOfTrimmed("99999");
    assert "99999"[..5] == "99999";
    assert IsFiveDigits("99999");
    assert forall i :: 0 <= i < |VALID_ZIP_CODES| ==> VALID_ZIP_CODES[i][0] != '9';
  }

  /** The out-of-area reason steers the visitor to the phone line. */
  lemma OutOfAreaNamesPhone()
    ensures HasSubstring(ZIP_OUT_OF_AREA, "(219) 615-9477")
  {
    var n := |ZIP_AREA_LEAD|;
    assert ZIP_OUT_OF_AREA[n..n + |ZIP_AREA_PHONE|] == ZIP_AREA_PHONE;
    assert OccursAt(ZIP_OUT_OF_AREA, "(219) 615-9477", n);
  }

  // ---------------------------------------------------------------------------
  // every failure message is a non-empty string
  // ---------------------------------------------------------------------------

  predicate HasMessage(v: Verdict) {
    v.Fail? ==> |v.error| > 0
  }

  lemma NameMessagesNonEmpty(s: string)
    ensures HasMessage(ValidateName(s))
  {
  }

  lemma EmailMessagesNonEmpty(s: string)
    ensures HasMessage(ValidateEmail(s))
  {
  }

  lemma PhoneMessagesNonEmpty(s: string)
    ensures HasMessage(ValidatePhone(s))
  {
  }

  lemma MessageMessagesNonEmpty(s: string)
    ensures HasMessage(ValidateMessage(s))
  {
  }

  lemma ZipMessagesNonEmpty(s: string)
    ensures HasMessage(ValidateZipCode(s))
  {
  }
}

=== FILE: wrappers.dfy ===
/** Optional values: an absent key, an unset environment variable, a missing window. */
module Wrappers {

  datatype Option<+T> = None | Some(value: T) {

    /** The value, or `default` when absent (the `??` operator). */
    function GetOr(default: T): T {
      match this
      case Some(v) => v
      case None => default
    }
  }
}
